=== FILE: README.md ===
# Swift Bug: a verified model of the bug reporter's core

Swift Bug is a browser extension that captures the state of a web page as a
bug report and can later replay that state. The captured state includes the
URL, cookies, both storage areas, console output, failed network requests, the
viewport and a screenshot. This project models the extension's core as
immutable data and pure functions and proves what each operation promises.
The core has these parts:

- the report store and the settings store in the background worker: save,
  list, delete, export, import, fetch-by-URL with its cache, and first-run
  initialisation;
- the in-page console serializer: a depth-bounded walk over an object heap
  with a seen-set shared across the whole call, plus the re-entrancy guard of
  the console wrappers;
- the in-page network capture policy: the static-resource filter, the capture
  rule, body truncation, XHR response-header parsing and the record built for
  each fetch;
- the content script's bounded console buffer, its filter for the extension's
  own messages, and the restoration of the page's storage;
- page capture: the URL fallback, cookie de-duplication and the fallbacks of
  each probe;
- restoration planning: persisting the snapshot, routing into the current tab,
  a navigated tab or a new tab, the one-shot completion listener, the step
  order of the injection, and the rewrite for replay on a local server;
- the helpers in `storage.js`, `utils.js` and `FileManager.js`;
- the two older single-file background workers (`src/background/background.js`
  and `background/background.js`).

The model represents data and effects this way:

- JavaScript objects are ordered association lists (`Dict.Dict`): keys keep
  their insertion order and an overwrite keeps its place. This is the order
  `Object.keys` gives for keys that are not integer-like.
- Strings are sequences of Unicode characters. Where the extension
  measures or cuts a string, its `length` is counted in UTF-16 code units
  (`Text.Utf16Length`), two for a character outside the Basic
  Multilingual Plane.
- Timestamps are integers. Ids, the clock, URL parsing and `JSON.parse` are
  parameters.
- Every `chrome.*` effect becomes an `Action` in an emitted trace. Which
  effects fail is given by a parameter `fault: Action -> Option<string>`.

## Model

| member | source | states |
|---|---|---|
| Utils.EscapeHtml | src/utils/utils.js:2-9 | the escaped text contains no raw `<`, `>`, `"` or `'` |
| Utils.ChainIsEscapeHtml | src/utils/utils.js:4-8 | escaping is `&` replaced first, then the four later replacements in source order |
| Utils.EscapeHtmlAppend | src/utils/utils.js:2-9 | escaping distributes over concatenation |
| Utils.EscapeHtmlChar | src/utils/utils.js:4-8 | one character escapes to its entity (`<` to `&lt;`, `&` to `&amp;`) or to itself; no entity is escaped twice |
| Utils.EscapeHtmlIsEscapeEach | src/utils/utils.js:2-9 | the chain of global replacements equals escaping each character independently |
| Utils.UnescapeStep | src/utils/utils.js:4-8 | decoding an escaped character followed by anything yields that character followed by the decoded rest |
| Utils.UnescapeEscapeEach | src/utils/utils.js:4-8 | decoding inverts per-character escaping |
| Utils.UnescapeEscapeHtml | src/utils/utils.js:2-9 | decoding inverts `escapeHtml`, so escaping loses no information |
| Text.Utf16Length | src/content/networkInterceptor.js:51 | `length` counts one UTF-16 code unit per character of the Basic Multilingual Plane and two for any other, so it lies between one and two per character |
| Text.UnitPrefix | src/content/networkInterceptor.js:52 | `substring(0, n)` keeps the longest prefix of at most `n` code units, stopping before a surrogate pair the cut would split |
| Text.CutAtUnique | src/content/networkInterceptor.js:52 | exactly one prefix fits the cut |
| Text.CutLosesAtMostOneUnit | src/content/networkInterceptor.js:52 | the cut of a longer string has exactly `n` code units, or `n - 1` when it stops before a surrogate pair |
| Text.BmpCut | src/content/networkInterceptor.js:52 | for text of the Basic Multilingual Plane the cut is the first `n` characters |
| Utils.TruncateText | src/utils/utils.js:11-15 | falsy input gives `''`; text whose `length` in UTF-16 code units is at most `maxLength` is returned unchanged; longer text gives its first `maxLength` code units, as `Text.CutAt` fixes them, followed by `...` |
| Utils.TruncateTextBound | src/utils/utils.js:13-14 | counted in UTF-16 code units, the result is at most `maxLength + 3` long and at most 3 longer than the input |
| Utils.TruncateKeepsWholePairs | src/utils/utils.js:13-14 | two emoji are four code units, so a limit of 3 cuts them to the first emoji and `...` |
| Records.Url.Origin | src/background/modules/BugDataRestorer.js:76 | `url.origin` is `null` for a URL whose scheme is not special (`data:`, `about:`); for a special scheme it starts with the scheme and `//` and is a prefix of `href` |
| Records.ParseUrl | src/background/modules/BugDataRestorer.js:24-28 | `new URL(s)` succeeds exactly when the string is present and parses, and otherwise throws `Invalid URL` |
| Records.OverlaySettingsField | src/background/modules/StorageManager.js:40-45 | every field of `{...base, ...top}` is the top record's when set and the base record's otherwise |
| LocalStorage.Evict | src/background/modules/BugReportManager.js:35-44 | at or under the limit nothing is removed; over it, exactly `count - max` entries go, and every kept report is at least as new as every removed one |
| LocalStorage.EvictDropsOldest | src/background/modules/BugReportManager.js:38-43 | a report strictly older than every other is removed whenever the store is over its limit |
| LocalStorage.Store | src/background/modules/BugReportManager.js:32-44 | after the insert the store holds at most `max` reports, contains only old reports and the new one, and equals the plain insert when that fits |
| StorageManager.GetSettings | src/background/modules/StorageManager.js:4-14 | the stored record is returned whole; the defaults, with endpoint `http://localhost:8080`, only when nothing is stored |
| StorageManager.UpdateSettings | src/background/modules/StorageManager.js:40-45 | the stored and the returned record are the same `{...current, ...newSettings}`, and reports and cache are untouched |
| StorageManager.InitializeStorage | src/background/modules/StorageManager.js:17-33 | each missing key gets its default; each present key is kept; validity of the store is preserved |
| StorageManager.InitializeIdempotent | src/background/modules/StorageManager.js:17-33 | running initialisation twice equals running it once |
| StorageManager.ClearCache | src/background/modules/StorageManager.js:47-49 | the cache becomes empty and nothing else changes |
| StorageManager.GetCacheInfo | src/background/modules/StorageManager.js:51-59 | `size` is the number of cache keys, `keys` are the cache keys in order, and `totalSize` is the rendered cache's `length` in UTF-16 code units, between one and two per character |
| BugReportManager.LimitOf | src/background/modules/BugReportManager.js:4-13 | without stored settings the report limit is 50 |
| BugReportManager.DefaultTitle | src/background/modules/BugReportManager.js:21 | the title default is `Bug Report - <hostname>`, and it throws exactly when the URL does not parse |
| BugReportManager.NewReport | src/background/modules/BugReportManager.js:17-24 | `id`, `timestamp`, `title` and `description` are only defaults; every field the caller supplies wins |
| BugReportManager.Save | src/background/modules/BugReportManager.js:16-50 | the report is stored under the new id with eviction to the limit (50 without settings); a throwing title leaves the store unchanged; settings and cache are untouched |
| BugReportManager.List | src/background/modules/BugReportManager.js:52-60 | the result is a permutation of the stored reports ordered by non-increasing timestamp |
| BugReportManager.DeleteReport | src/background/modules/BugReportManager.js:62-68 | only the given key goes; an absent id leaves the store unchanged |
| BugReportManager.DeleteAllReports | src/background/modules/BugReportManager.js:70-73 | the store becomes empty and settings and cache are untouched |
| BugReportManager.Export | src/background/modules/BugReportManager.js:75-101 | an unknown id fails with `Bug report not found`; otherwise the payload is version `1.0.0`, the export time and the stored report unchanged, and the file name's domain is its hostname |
| BugReportManager.Normalize | src/background/modules/BugReportManager.js:113-129 | only the twelve listed fields are kept, with `userAgent` `Unknown`, empty maps and lists, and `screenshot` null as defaults |
| BugReportManager.Import | src/background/modules/BugReportManager.js:103-167 | a record without `url` or `timestamp` is rejected and nothing is stored; the supplied id is kept, else one is generated; a report with the same id is overwritten; the receipt is `{id, imported: true}` |
| BugReportManager.ImportMayEvictItself | src/background/modules/BugReportManager.js:142-161 | an import older than every stored report into a full store is evicted at once, yet the receipt still reports success |
| BugReportManager.FetchError | src/background/modules/BugReportManager.js:219-225 | a `TypeError` mentioning `fetch` and a `SyntaxError` map to their two fixed messages; any other error keeps its own message |
| BugReportManager.Unwrap | src/background/modules/BugReportManager.js:195-203 | a payload with `report` is unwrapped; otherwise a record with `url` and `timestamp` is taken as it is; otherwise detection fails |
| BugReportManager.ExportThenUnwrap | src/background/modules/BugReportManager.js:85-89 | unwrapping an exported payload returns exactly the stored report |
| BugReportManager.EvictCache | src/background/modules/BugReportManager.js:205-213 | a cache of at most 100 entries is unchanged; a larger one keeps exactly 100 of its own entries, dropping those with the smallest `fetchedAt` |
| BugReportManager.Fetch | src/background/modules/BugReportManager.js:169-227 | a cache hit returns the cached data and changes nothing; an HTTP error, a parse error or a non-report fails without storing; a success on a URL not yet cached grows the cache by one, or leaves it at exactly 100 entries when it was full |
| StorageUtils.ValidateBugReport | src/utils/storage.js:34-37 | a report is valid when it is present with a truthy id, a timestamp, a truthy URL and a truthy title |
| StorageUtils.SavedReportValidates | src/utils/storage.js:34-37 | a saved report with an id and a URL validates exactly when its title is truthy |
| StorageUtils.ImportedReportValidates | src/utils/storage.js:34-37 | an imported report with an id, URL and timestamp always validates |
| StorageUtils.Clamp | src/utils/storage.js:51-52 | the result lies in `[lo, hi]`, equals the input when it is in range, and equals the nearer bound otherwise |
| StorageUtils.ValidateSettings | src/utils/storage.js:39-55 | the four defaults are filled in, supplied fields win, extra fields are kept, and the two limits are clamped into `[10, 100]` and `[50, 500]` |
| StorageUtils.ValidateSettingsIdempotent | src/utils/storage.js:39-55 | validating twice equals validating once |
| StorageUtils.RedactCookies | src/utils/storage.js:92-99 | every cookie is kept in order with its other fields unchanged, and its value becomes `[REDACTED]` exactly when the lower-cased name contains token, auth or session |
| StorageUtils.RedactEach | src/utils/storage.js:102-113 | every key is kept, the value of each sensitive key visited becomes `[REDACTED]`, and every other value is unchanged |
| StorageUtils.RedactStorage | src/utils/storage.js:102-113 | the result has the same keys, redacts exactly the keys containing token, auth, password or secret, and keeps the other values |
| StorageUtils.SanitizeData | src/utils/storage.js:87-116 | the copy differs from the input only in redacted cookies and storage; the second component is the input after the in-place storage redaction that the shallow copy causes |
| StorageUtils.HandleError | src/utils/storage.js:80-84 | the message is `[Bug Reporter - <context>] <message>`, or `[Bug Reporter] <message>` when the context is empty |
| StorageUtils.DeepClone | src/utils/storage.js:149-163 | the clone equals the value |
| StorageUtils.CloneItems | src/utils/storage.js:156-157 | an array clones element by element into an equal array |
| StorageUtils.CloneFields | src/utils/storage.js:158-162 | an object clones key by key into an equal object |
| FileManager.DetectReport | src/popup/managers/FileManager.js:20-27 | an exported file's `report` wins when it has a URL; otherwise a bare record with a URL and an id is taken; otherwise `Invalid bug report file format` |
| FileManager.HandleFileImport | src/popup/managers/FileManager.js:11-44 | no file returns `undefined` and leaves the input alone; otherwise the input is cleared, success returns the fixed message exactly when reading, parsing, detection and restoration all succeed, and each failure returns its own error |
| FileManager.ExportedFileIsDetected | src/popup/managers/FileManager.js:21-22 | a file written by the export is detected as the exported report |
| FileManager.DetectAgreesWithUnwrap | src/popup/managers/FileManager.js:20-27 | when both detections accept a document they pick the same record exactly when there is no `report` or it has a URL |
| ConsoleInterceptor.Serialize | src/content/consoleInterceptor.js:32-64 | `[MaxDepth]` past the limit before any other test; non-objects unchanged; a seen object gives `[Circular]`; a dangerous object gives `[Unserializable:<tag>]` and is not descended into; an Error gives `{name, message, stack}`; otherwise the same keys, each serialized one level deeper; output height is bounded |
| ConsoleInterceptor.SerializeSlot | src/content/consoleInterceptor.js:55-60 | a throwing accessor gives `[Error extracting <key>]`; a value is serialized one level deeper |
| ConsoleInterceptor.SerializeProps | src/content/consoleInterceptor.js:53-63 | the output has the input's keys in order, throwing accessors become their sentinel, every value is at most one level shallower, and the seen-set only grows |
| ConsoleInterceptor.SeenBefore | src/content/consoleInterceptor.js:53-60 | the seen-set after the first `n` properties contains the starting set and only heap objects |
| ConsoleInterceptor.SerializePropsAt | src/content/consoleInterceptor.js:53-63 | property `i` is serialized one level deeper with the seen-set the properties before it left, and the loop ends with the set all of them leave |
| ConsoleInterceptor.SeenBeforeStep | src/content/consoleInterceptor.js:53-60 | each property takes the seen-set from the one before it to the one after it |
| ConsoleInterceptor.SeenGrowsAlongProps | src/content/consoleInterceptor.js:39-42 | the seen-set never shrinks along the loop |
| ConsoleInterceptor.SharedReferenceCircular | src/content/consoleInterceptor.js:39-60 | in any heap, when two properties refer to one serializable object below the depth limit, the later one gives `[Circular]` |
| ConsoleInterceptor.ObjectFieldAt | src/content/consoleInterceptor.js:39-63 | field `i` of a walked array or object has the property's key and the property serialized one level deeper, after the object itself and the earlier properties were marked seen |
| ConsoleInterceptor.ObjectSharedChildCircular | src/content/consoleInterceptor.js:39-63 | in any heap, an array or object with two properties referring to one serializable object shows the later one as `[Circular]` |
| ConsoleInterceptor.SerializeTop | src/content/consoleInterceptor.js:32 | a top-level call starts at depth 0 with an empty seen-set, so the output is at most four levels deep and primitives are unchanged |
| ConsoleInterceptor.Dangerous | src/content/consoleInterceptor.js:12-30 | an object is dangerous when it is a host object (window, document, console, a DOM node or window) or its tag is a window, global, document, WeakMap, WeakSet or function tag, or contains `Vue` or `Proxy` |
| ConsoleInterceptor.NonObjectMarkersUnreachable | src/content/consoleInterceptor.js:35-38 | functions, symbols and bigints are returned unchanged, so the `[function]` and `[symbol]` markers are unreachable |
| ConsoleInterceptor.MaxDepthFirst | src/content/consoleInterceptor.js:33 | past the depth limit every value, even a seen or dangerous one, gives `[MaxDepth]` |
| ConsoleInterceptor.SharedChildFirst | src/content/consoleInterceptor.js:39-42 | the first visit of a shared child serializes it and adds it to the seen-set |
| ConsoleInterceptor.SharedChildIsCircular | src/content/consoleInterceptor.js:39-42 | an acyclic object that references the same child twice shows that child as `[Circular]` on its second visit |
| ConsoleInterceptor.SafeStringify | src/content/consoleInterceptor.js:66-72 | the rendered serialization, or `[Unserializable Object]` when rendering throws |
| ConsoleInterceptor.ProcessArg | src/content/consoleInterceptor.js:82-86 | objects and null go through `safeStringify`; every other value goes through `String(arg)` |
| ConsoleInterceptor.StringArgVerbatim | src/content/consoleInterceptor.js:83-85 | a string argument, `[Vue warn]`-prefixed or not, appears verbatim |
| ConsoleInterceptor.Message | src/content/consoleInterceptor.js:82-91 | the processed arguments joined by a space: no arguments give `''`, one argument gives its processed form, and two or more give the first processed argument, a space, and the message of the rest |
| ConsoleInterceptor.Wrapped | src/content/consoleInterceptor.js:74-101 | while logging, a call does nothing; otherwise it calls through, dispatches an entry exactly when the original did not throw, and always clears the flag |
| ConsoleInterceptor.NestedCallsDropped | src/content/consoleInterceptor.js:76 | with the flag set, any run of calls dispatches nothing and leaves the flag set |
| ConsoleInterceptor.TopLevelFlagClear | src/content/consoleInterceptor.js:98-100 | from a clear flag, the flag is clear again after any run of calls |
| ConsoleInterceptor.TopLevelCallsDispatch | src/content/consoleInterceptor.js:74-101 | when no original throws, every top-level call dispatches exactly one entry with its level and message, in order |
| NetworkInterceptor.PageSettings | src/content/networkInterceptor.js:4-11 | the window's settings when present, else the four page defaults |
| NetworkInterceptor.MaxBodySize | src/content/networkInterceptor.js:18-21 | `maxRequestBodySize`, or 10240 when it is absent or 0; never 0 |
| NetworkInterceptor.StaticPath | src/content/networkInterceptor.js:40-43 | a pathname is static when, lower-cased, it ends with one of the twelve listed extensions |
| NetworkInterceptor.ShouldIgnore | src/content/networkInterceptor.js:32-47 | a request is ignored only when static resources are to be ignored, its URL parses, and its pathname is static |
| NetworkInterceptor.NoDotNotStatic | src/content/networkInterceptor.js:14 | a pathname without a dot is never a static resource, because every listed extension starts with a dot |
| NetworkInterceptor.StaticPathIgnoresCase | src/content/networkInterceptor.js:40-43 | the static test compares the pathname lower-cased, so case does not matter |
| NetworkInterceptor.DefaultsIgnoreScripts | src/content/networkInterceptor.js:32-47 | with default settings `/static/App.JS` is ignored and `/api/users` is not |
| NetworkInterceptor.Truncate | src/content/networkInterceptor.js:50-55 | a string whose `length` in UTF-16 code units is at most `maxSize` is unchanged; a longer one gives its first `maxSize` code units, as `Text.CutAt` fixes them, followed by `[TRUNCATED]` |
| NetworkInterceptor.TruncateBound | src/content/networkInterceptor.js:50-55 | a truncated result is never longer than `maxSize + 11` code units (for a non-negative size), and the text before the mark is a prefix of the data |
| NetworkInterceptor.TruncateBody | src/content/networkInterceptor.js:89-94 | an empty body is left alone and any other body is truncated |
| NetworkInterceptor.ShouldCapture | src/content/networkInterceptor.js:58-72 | true when capture-all is on; otherwise exactly when the status is 0, the status is 400 or more, or the status text is `Network Error` |
| NetworkInterceptor.AddNetworkRequest | src/content/networkInterceptor.js:75-99 | a record is dispatched exactly when it is neither ignored nor rejected by the capture rule, with only its two bodies truncated |
| NetworkInterceptor.IgnoredBeforePolicy | src/content/networkInterceptor.js:77-86 | with capture-all on, a record is dropped exactly when the static filter ignores it |
| NetworkInterceptor.HeaderLine | src/content/networkInterceptor.js:155-157 | a line gives a header exactly when it has a `': '` with a non-empty name before the first one and non-empty text between the first and the next one (or the end); the name is lower-cased and that text is the value, so a value never contains `': '` |
| NetworkInterceptor.SplitFirstTwo | src/content/networkInterceptor.js:155 | `[name, value]` of `split(': ')` are the text before the first separator and the text from it to the next separator |
| NetworkInterceptor.HeaderLineCutsValue | src/content/networkInterceptor.js:155 | for `name: value` whose value contains `': '`, the line as written does not give the header the line spells out, while the first-separator split does |
| NetworkInterceptor.HeaderField | src/content/networkInterceptor.js:155-157 | the corrected split at the first `': '` only, giving a non-empty lower-cased name and a non-empty value |
| NetworkInterceptor.FirstSeparator | src/content/networkInterceptor.js:155 | in `name: value` with no separator in the name, the first separator sits right after the name |
| NetworkInterceptor.HeaderFieldRoundTrip | src/content/networkInterceptor.js:151-160 | parsing `name + ': ' + value` gives back the lower-cased name and the value, whatever the value contains |
| NetworkInterceptor.HeaderLineRoundTrip | src/content/networkInterceptor.js:155-157 | `name: value` with no `': '` in either part is read back as the lower-cased name and the value, just as the corrected split reads it |
| NetworkInterceptor.FieldsOf | src/content/networkInterceptor.js:154-155 | the header lines read one by one, in order, by the given split |
| NetworkInterceptor.AddHeadersKeys | src/content/networkInterceptor.js:156-158 | a key is in the header map exactly when it was already there or some line gives it |
| NetworkInterceptor.AddHeadersLast | src/content/networkInterceptor.js:156-158 | a header name given by several lines holds the value of the last one |
| NetworkInterceptor.HeaderLines | src/content/networkInterceptor.js:152-154 | the CRLF-separated lines of the raw headers; joined back with CRLF they give the raw text |
| NetworkInterceptor.ParsedKeys | src/content/networkInterceptor.js:154-159 | the map folded from the lines has as keys exactly the names the lines give |
| NetworkInterceptor.ParseHeaders | src/content/networkInterceptor.js:151-160 | the response headers as the code builds them: the keys are exactly the names the CRLF-separated lines give under the split as written, each once |
| NetworkInterceptor.ParseHeadersLast | src/content/networkInterceptor.js:154-159 | each stored name holds the value, as the split as written reads it, of the last line naming it |
| NetworkInterceptor.ParseHeadersIntended | src/content/networkInterceptor.js:151-160 | the corrected parse: the keys are exactly the names the lines give under the first-separator split, each once |
| NetworkInterceptor.ParseHeadersIntendedLast | src/content/networkInterceptor.js:154-159 | under the corrected parse each stored name holds the whole value of the last line naming it |
| NetworkInterceptor.ParsersAgree | src/content/networkInterceptor.js:151-160 | when no line's value contains `': '`, the parse as written and the corrected parse give the same map |
| NetworkInterceptor.ParseHeadersCutsValue | src/content/networkInterceptor.js:155 | a response holding one `name: value` line whose value contains `': '` stores the value cut at that separator, while the corrected parse stores it whole |
| NetworkInterceptor.XhrRecord | src/content/networkInterceptor.js:103-179 | the XHR record: verb upper-cased and URL from `open` (`GET` and empty otherwise), the headers set, the sent body or `''`, status and timing, the response headers as the code parses them (`ParseHeaders`, which cuts a value at a second `': '`), and the response text or the non-text marker |
| NetworkInterceptor.ResponseBody | src/content/networkInterceptor.js:239-253 | a non-textual content type gives the marker; a textual one gives the text, or the read-error marker when reading fails |
| Dict.SpreadCopies | src/content/networkInterceptor.js:210 | `Object.assign({}, h)` of a header map without repeated names gives every name its value |
| NetworkInterceptor.FetchRecord | src/content/networkInterceptor.js:183-265 | the fetch record: URL, upper-cased verb (default `GET`), request and response headers with the caller's keys and each value copied, body kind and timing; a rejection gives status 0 and `Network Error` |
| NetworkInterceptor.Fetch | src/content/networkInterceptor.js:183-266 | the call resolves exactly when the fetch responded, and exactly one record goes through the capture policy on either path |
| NetworkInterceptor.RejectedFetchDispatched | src/content/networkInterceptor.js:256-265 | a rejected fetch that is not ignored is rethrown and always dispatched, with status 0 |
| NetworkInterceptor.DefaultsDropSuccess | src/content/networkInterceptor.js:58-72 | with default settings a successful response is never dispatched |
| ContentScript.PatternPrefixFiltered | src/content/content.js:89-108 | a message starting with a pattern, in any case, is the extension's own |
| ContentScript.IsExtensionLog | src/content/content.js:89-108 | a message is the extension's own when, lower-cased, it contains one of the eleven patterns lower-cased |
| ContentScript.ExtensionLogIgnoresCase | src/content/content.js:105-107 | lower-casing a message first does not change whether it is filtered |
| ContentScript.Last | src/content/content.js:78-83 | the last `n` elements, in order, or all of them when fewer |
| ContentScript.AddLogEntry | src/content/content.js:72-87 | the extension's own messages leave the buffer unchanged; any other entry is appended and the buffer cut to its last 100 |
| ContentScript.Accepted | src/content/content.js:89-108 | the entries the filter lets through, each from the input and none the extension's own |
| ContentScript.ReplayKeepsLastAccepted | src/content/content.js:5 | after any run of entries from an empty buffer, the buffer is the last 100 accepted entries in arrival order |
| ContentScript.ReplayBounded | src/content/content.js:5 | the buffer never exceeds 100 entries and holds only accepted input entries |
| ContentScript.Respond | src/content/content.js:112-115 | `getConsoleLog` is answered with the buffer and no other action is answered |
| ContentScript.SetItems | src/content/content.js:176-190 | the written keys are the old keys plus every given key that did not throw |
| ContentScript.SetItemsGet | src/content/content.js:176-190 | a given key that did not throw holds its given value; every other key keeps its old value |
| ContentScript.SetItemsAllWritten | src/content/content.js:176-190 | with no failures the writes equal the spread `{...area, ...entries}` |
| ContentScript.RestoreStorageData | src/content/content.js:166-194 | each area's keys are what survives the clear plus every given key that did not throw |
| ContentScript.RestoreExact | src/content/content.js:166-194 | when nothing throws, each storage area equals the given map |
| ContentScript.RestoreGet | src/content/content.js:166-194 | whatever fails, each key holds its given value, else its old value only if its area was not cleared |
| DataCollector.Dedup | src/background/modules/DataCollector.js:70-76 | every result is an input cookie, and every (name, domain, path) triple of the input is represented |
| DataCollector.DedupPositions | src/background/modules/DataCollector.js:72-74 | the positions of the kept cookies in the input, strictly increasing, each holding the cookie kept there |
| DataCollector.DedupInOrder | src/background/modules/DataCollector.js:72-74 | `filter` keeps input order: the kept cookies are a subsequence of the input |
| DataCollector.DedupUnique | src/background/modules/DataCollector.js:70-76 | no two results share a (name, domain, path) triple |
| DataCollector.DedupKeepsFirst | src/background/modules/DataCollector.js:70-76 | each result is the first input cookie with its triple |
| DataCollector.ExactCookiesWin | src/background/modules/DataCollector.js:64-76 | for a triple that the exact-URL query returned, the exact-URL cookie wins over the domain cookie |
| DataCollector.CollectCookies | src/background/modules/DataCollector.js:60-82 | the de-duplicated exact-URL cookies followed by the domain cookies; `[]` when the URL does not parse or a query fails |
| DataCollector.CaptureSettings | src/background/modules/DataCollector.js:21-28 | the stored settings, or `{}` when they are missing or unreadable |
| DataCollector.PageUrl | src/background/modules/DataCollector.js:30-43 | the in-page href replaces `tab.url` only when the probe returns a truthy value |
| DataCollector.CollectBrowserData | src/background/modules/DataCollector.js:84-148 | a reply without logs or requests gives `[]`; any probe failure resets both storages to `{}` and both lists to `[]` |
| DataCollector.CollectViewport | src/background/modules/DataCollector.js:150-170 | the measured viewport, or `{}` when the probe fails |
| DataCollector.TakeScreenshot | src/background/modules/DataCollector.js:172-184 | a screenshot exists exactly when `includeScreenshot` is truthy and the capture succeeds |
| DataCollector.CollectPageData | src/background/modules/DataCollector.js:8-58 | a missing tab fails with `No active tab found`; otherwise every field follows its rule above |
| DataCollector.MissingSettingsNoScreenshot | src/background/modules/DataCollector.js:21-28 | missing or unreadable settings mean no screenshot |
| DataCollector.CollectedCookiesUnique | src/background/modules/DataCollector.js:60-82 | the collected cookies are pairwise distinct by triple and cover every queried triple |
| BugDataRestorer.InjectedAppend | src/background/modules/BugDataRestorer.js:73-93 | the storage-injection count of a trace adds up over concatenation |
| BugDataRestorer.PersistIfNeeded | src/background/modules/BugDataRestorer.js:5-21 | a stored snapshot is not rewritten; one with no id or an unknown id is saved first, keeping its id and timestamp |
| BugDataRestorer.PersistKeepsOthers | src/background/modules/BugDataRestorer.js:5-21 | persisting changes no other stored report |
| BugDataRestorer.EmptyIdStoredUnderGeneratedKey | src/background/modules/BugDataRestorer.js:9-15 | a snapshot with an empty id is stored under the generated key while its own `id` stays empty |
| BugDataRestorer.CrossDomain | src/background/modules/BugDataRestorer.js:24-28 | a restore is cross-domain when the host name or the port differ; the scheme is not compared |
| BugDataRestorer.RouteFor | src/background/modules/BugDataRestorer.js:24-70 | the same URL string injects into the current tab; a different URL opens a new tab when hostname or port differs and navigates the current tab otherwise |
| BugDataRestorer.SchemeChangeStaysInTab | src/background/modules/BugDataRestorer.js:24-28 | a URL differing only in scheme is routed to the current tab, because the scheme is not compared |
| BugDataRestorer.OnUpdated | src/background/modules/BugDataRestorer.js:39-50 | the listener fires exactly on a `complete` event for its own tab while waiting, and then removes itself |
| BugDataRestorer.Deliver | src/background/modules/BugDataRestorer.js:39-50 | over any run of events the listener fires at most once and is removed once it fires |
| BugDataRestorer.DeliverFiresIff | src/background/modules/BugDataRestorer.js:39-50 | the listener fires exactly when some event completes its tab |
| BugDataRestorer.Removals | src/background/modules/BugDataRestorer.js:102-107 | cookies are removed in order at `origin + path` until the first failing removal, which ends the loop |
| BugDataRestorer.CookieWrites | src/background/modules/BugDataRestorer.js:141-163 | one cookie write per cookie, in order, each at its derived URL; a failing write does not stop the later ones |
| BugDataRestorer.ClearExistingData | src/background/modules/BugDataRestorer.js:95-139 | the cookie query comes first and the storage clear last; removals follow the query only when it succeeds |
| BugDataRestorer.InjectBugData | src/background/modules/BugDataRestorer.js:73-93 | an unparsable URL fails with `Invalid URL`; otherwise clear, then cookies at `reportOrigin + path`, then the storage call, then navigation to the snapshot URL |
| BugDataRestorer.InjectionShape | src/background/modules/BugDataRestorer.js:73-93 | every well-formed injection's trace is phase-ordered and injects storage exactly once |
| BugDataRestorer.InjectionOpensNoTab | src/background/modules/BugDataRestorer.js:73-93 | an injection never opens a tab or writes reports |
| BugDataRestorer.ClearingOrdered | src/background/modules/BugDataRestorer.js:95-139 | clearing is query, then removals, then storage clear |
| BugDataRestorer.InjectStepOrder | src/background/modules/BugDataRestorer.js:73-93 | in the injection trace every clearing step precedes every cookie write, which precedes the storage call, which precedes navigation |
| BugDataRestorer.CookieStepsOfTrace | src/background/modules/BugDataRestorer.js:141-163 | every cookie write in the trace is one of the restore-cookie steps |
| BugDataRestorer.WrittenCookiesFromReport | src/background/modules/BugDataRestorer.js:141-163 | every cookie written comes from the snapshot and is set at its origin plus the cookie's path |
| BugDataRestorer.FailuresOnlyCutClearing | src/background/modules/BugDataRestorer.js:97-163 | failures change only the clearing steps; the cookie writes, storage call and navigation are the same whatever fails |
| BugDataRestorer.AwaitAndInject | src/background/modules/BugDataRestorer.js:39-50 | injection runs at most once; the restore resolves only if it ran and otherwise stays pending |
| BugDataRestorer.CallAndInject | src/background/modules/BugDataRestorer.js:31-66 | the tab call comes first; when it fails nothing else happens and the restore rejects with its error |
| BugDataRestorer.RouteAndInject | src/background/modules/BugDataRestorer.js:31-70 | an unparsable URL rejects with no effect; any route injects at most once |
| BugDataRestorer.RestoreBugData | src/background/modules/BugDataRestorer.js:3-70 | a failed persist rejects with no effect and the store unchanged; a stored snapshot leaves the store unchanged and runs the routing; an unsaved one first writes the reports, rejecting with the store unchanged when that write fails and otherwise running the routing on the new store; at most one injection runs |
| BugDataRestorer.SameUrlInjectsHere | src/background/modules/BugDataRestorer.js:31-35 | the same URL string injects into the current tab with no tab call |
| BugDataRestorer.CrossDomainOpensTab | src/background/modules/BugDataRestorer.js:36-52 | a cross-domain URL opens a new tab first, and the restore resolves only if some event completes that new tab |
| BugDataRestorer.LocalCookie | src/background/modules/BugDataRestorer.js:213-221 | the cookie keeps its name, value, path, `httpOnly` and expiry, takes the local hostname as domain, and loses `secure` exactly when the endpoint is `http:` |
| BugDataRestorer.LocalCookies | src/background/modules/BugDataRestorer.js:213-221 | every cookie is rewritten in order |
| BugDataRestorer.OpaqueOriginCookieTargets | src/background/modules/BugDataRestorer.js:74-76 | a report from a page with an opaque origin sets each cookie at `null` followed by its path |
| BugDataRestorer.LocalAddress | src/background/modules/BugDataRestorer.js:224-231 | the URL starts with the local origin and ends with the original pathname, search and hash |
| BugDataRestorer.LocalRewrite | src/background/modules/BugDataRestorer.js:199-231 | no endpoint fails with its message; otherwise it succeeds exactly when the endpoint, the report URL and the combined URL parse, and the copy differs from the report only in its rewritten cookies and URL |
| BugDataRestorer.LocalUrlKeepsPath | src/background/modules/BugDataRestorer.js:224-231 | when the local origin is written out from its scheme and host and the parser reads the combined URL back into them, the replay URL is the local origin plus the original pathname, search and hash |
| BugDataRestorer.RestoreToLocal | src/background/modules/BugDataRestorer.js:199-253 | a failed rewrite rejects with no effect; otherwise the first step opens a new tab at the local URL; at most one injection runs |
| BugDataRestorer.LocalReplayWritesLocalCookies | src/background/modules/BugDataRestorer.js:213-252 | every cookie written in a local replay has the local hostname as domain and no `secure` flag when the endpoint is `http:` |
| Background.Answer | src/background/background.js:20-64 | a handler's result becomes `{success: true, data}` and its thrown message `{success: false, error}` |
| Background.InitializeStorage | src/background/background.js:71-92 | each missing key gets its default (the eight default settings) and present keys are kept |
| Background.InitializeIdempotent | src/background/background.js:71-92 | a second initialisation changes nothing and the report limit stays the manager's |
| Background.SaveBugReport | src/background/background.js:222-256 | a missing payload throws on reading its title; otherwise the report is stored with eviction to the stored limit, or 50 |
| Background.SaveAgreesWithManager | src/background/background.js:222-256 | with settings stored, the worker's save equals the report manager's |
| Background.CollectPageData | src/background/background.js:94-219 | a missing tab fails with `No active tab found`; no viewport is measured; the screenshot is always attempted and is null exactly when the capture fails |
| Background.CaptureAgreesWithCollector | src/background/background.js:121-142 | apart from viewport and screenshot the worker captures exactly what the collector does (de-duplicated cookies, emptied fields on a probe failure), and the screenshots agree when settings enable them |
| Background.MessageTab | src/background/background.js:45-52 | the sender's tab, else the active tab |
| Background.Inject | src/background/background.js:326-384 | cookies at `reportOrigin + path` with no prior clearing, then the storage call, then a reload |
| Background.InjectIsUnclearedRestorer | src/background/background.js:326-384 | the worker's injection is the restorer's without clearing, ending in a reload instead of navigation |
| Background.RestoreInPlace | src/background/background.js:306-324 | an identical URL injects directly; otherwise the same tab is updated and injection runs once after `complete` |
| Background.NoTabCreated | src/background/background.js:306-324 | the worker's restore never opens a tab |
| Background.RestoreBugData | src/background/background.js:306-324 | a missing tab or snapshot throws on reading its URL; an identical URL gives the injection trace (nothing when the URL does not parse); any other URL first navigates the same tab; at most one injection and never a new tab |
| Background.Settled | src/background/background.js:20-64 | an outcome that has settled becomes a handler result; a pending one gives no answer |
| Background.HandleMessage | src/background/background.js:20-64 | an unknown action answers `Unknown action` and changes nothing; only save and delete write the store; every failure answer carries an error message |
| Background.DeleteAlwaysSucceeds | src/background/background.js:268-274 | deleting answers success whatever the id |
| Background.CollectWithoutTabFails | src/background/background.js:95-97 | capture without a tab answers failure |
| Background.ExportUnknownFails | src/background/background.js:276-283 | exporting an unknown id answers `Bug report not found` |
| LegacyBackground.SaveEvictsToLimit | background/background.js:164-198 | a successful save answers success and leaves at most the stored limit of reports, or 50 without settings |
| LegacyBackground.InitializeStorage | background/background.js:62-79 | reports and settings are written only where missing; the cache is untouched |
| LegacyBackground.InitializeIdempotent | background/background.js:62-79 | a second initialisation changes nothing |
| LegacyBackground.CollectStorageData | background/background.js:129-162 | both storage areas and at most 100 logs |
| LegacyBackground.KeepsMostRecentLogs | background/background.js:157-159 | at most 100 logs are all kept; of more, exactly the last 100 |
| LegacyBackground.CollectPageData | background/background.js:81-126 | a missing tab throws; cookies come from the domain query as they are, or `[]` on failure; a storage failure empties all three fields; the screenshot is null exactly when the capture fails |
| LegacyBackground.RepeatedCookiesKept | background/background.js:89-97 | a repeated cookie is kept twice, where the newer collector keeps it once |
| LegacyBackground.CookieUrl | background/background.js:279 | the URL starts with `https://` exactly when the cookie is secure and with `http://` otherwise, ends with its domain and path, and has nothing in between |
| LegacyBackground.Inject | background/background.js:273-307 | cookie writes at their derived URLs, then the storage call, then a reload; never a clear |
| LegacyBackground.CookieSchemeFollowsSecure | background/background.js:276-287 | each cookie is written at an `https` URL exactly when it is secure |
| LegacyBackground.InjectStorageData | background/background.js:310-328 | the keys written are the old keys plus every given key that did not throw |
| LegacyBackground.InjectStorageMerges | background/background.js:310-328 | given keys that did not throw take their given values; all other keys keep the page's |
| LegacyBackground.RestoreBugData | background/background.js:253-271 | an identical URL injects directly; otherwise the tab is navigated first; at most one injection and never a new tab |
| LegacyBackground.HandleMessage | background/background.js:20-60 | an unknown action answers `Unknown action` and changes nothing; only save and delete write the store; every failure answer carries an error message |
| LegacyBackground.CollectWithoutSenderTabFails | background/background.js:20-60 | capture from a message without a sender tab answers failure |

## Findings

| source | as written | input that shows it | evidently intended | confidence | as-written member | corrected member |
|---|---|---|---|---|---|---|
| src/content/networkInterceptor.js:155 | `line.split(': ')` destructured into `[name, value]` keeps only the text up to the second separator | response header line `x-note: a: b` stores the value `a`; the line `x: : y` stores nothing | split at the first `': '` only, storing `a: b` and `: y` | not executed | NetworkInterceptor.ParseHeadersCutsValue | NetworkInterceptor.HeaderFieldRoundTrip |

`NetworkInterceptor.HeaderLine` and `NetworkInterceptor.ParseHeaders` model the
code as written, and `NetworkInterceptor.XhrRecord` uses them, so the record
holds what the extension stores. `NetworkInterceptor.HeaderField` and
`NetworkInterceptor.ParseHeadersIntended` are the corrected split and parse.
`NetworkInterceptor.ParsersAgree` shows that the two parses give the same map
whenever no header value contains `': '`.

## Left out

- Browser effects: every `chrome.*` call (storage, cookies, tabs, scripting, downloads, screenshots, runtime messaging) is an `Action` in a trace or an input parameter. Storage writes of the stores themselves are taken to succeed.
- Timing: the 1000 ms settle delay and the order in which tab events arrive are not modelled. Only the one-shot listener is kept, as a state machine over a given run of events.
- Ids and clock: `Date.now`, `Math.random` and ISO date strings become parameters and integer timestamps.
- Parsers: `new URL` (a parameter `parse`), `JSON.stringify` (a parameter `render`) and `JSON.parse` (a parameter `parseJson`).
- Deep copy in restoreBugDataToLocal: the JSON copy at src/background/modules/BugDataRestorer.js:210 is an immutable copy, because model values are never mutated.
- Object identity: `WeakSet` identity, `instanceof` and `Object.prototype.toString` tags are an abstract heap with a `dangerous` flag and a tag per object.
- Export download: the export file name's date part, `Blob`, object URLs and the download itself. Only the payload and the domain are modelled.
- Page probes: a page storage access that throws in the middle of a loop is modelled as a failed probe, not as a partial result.
- Helpers in `storage.js` with no contract of their own, or built on floating point, locale or timers: getStorageData, setStorageData, clearStorageData, formatFileSize, formatDate, formatDomain, isValidUrl, generateId, debounce, exportToJson and importFromJson. The helpers readFileAsText and triggerImport in `FileManager.js` are also left out.
- Content script plumbing: the console event bridge in `content.js` (setupConsoleCapture), its collectPageData and getPageState, and the older worker's network-request probe.
- Interception: the monkey-patching of `XMLHttpRequest` and `fetch` and the `CustomEvent` transport. The exchange each wrapper observes is an input record.
- Popup and options UI, the message-passing services, `MessageHandler.js` and `validate-project.js`: presentation and plumbing with no stated contract.
- Concurrency: read-modify-write races between two popups are out of scope.
- StorageManager.UpdateSettings: the spread property is stated only when the new settings' extra keys are distinct, because a record with a repeated key cannot arise from a JavaScript object.
- StorageUtils.RedactEach: requires every visited key to be in the map, because the source visits only `Object.keys` of that map.
- NetworkInterceptor.Truncate: lengths and the cut count UTF-16 code units as JavaScript does, but when unit `maxSize` is the first half of a surrogate pair, `substring` keeps that lone half, which a string of Unicode characters cannot hold. The model's cut stops before the pair, one code unit shorter (Text.CutLosesAtMostOneUnit).
- Utils.TruncateText: the same lone first half of a split surrogate pair is dropped; `truncateText("😀😀", 3)` gives the first emoji and `...` instead of the emoji, a lone surrogate and `...` (Utils.TruncateKeepsWholePairs).
- NetworkInterceptor.FetchRecord: header values are stated for header maps without repeated names, which is every JavaScript object and every `Headers` iteration the page's `fetch` exposes (`set-cookie`, the one repeatable response header, is hidden from pages).
- Records.Url.Origin: a file URL's origin is `file://`, as Chrome serializes it; the URL standard leaves it to the browser, and other browsers give `null`. A `blob:` URL's origin is its inner URL's origin, which the model does not derive and gives as `null`.
- NetworkInterceptor.XhrRecord: request headers are stated by key set only, because a repeated `setRequestHeader` overwrites the value in place.
- Object key order: `Object.keys` lists integer-like keys (`"0"`, `"42"`) first, in ascending numeric order, before the other keys in insertion order. The association lists keep every key in insertion order, so for objects with integer-like keys the modelled order of stored reports, storage areas and headers can differ from the browser's.
- Case mapping: `Text.LowerChar` and `Text.UpperChar` map only ASCII letters. JavaScript's `toLowerCase` and `toUpperCase` also map other letters (the Kelvin sign lower-cases to `k`), so header names, URL paths and log patterns that contain such letters are compared differently.
- Numbers: JavaScript numbers are integers in the model (`ConsoleInterceptor.Prim` has `Num(n: int)`, and `ConsoleInterceptor.PrimString` renders integers only). Fractions, `NaN`, the infinities and `-0` cannot be expressed, and their `String` forms are not modelled.

=== FILE: background.dfy ===
/** The single-file background worker that predates the split into
    modules: message dispatch, page capture, the report store and an
    in-place restore. Its store operations are those of the report
    manager; capture differs in taking the screenshot unconditionally and
    measuring no viewport; restore never opens a tab and never clears the
    page's data first. */
module Background {
  import opened Wrappers
  import opened Dict
  import opened Text
  import opened Records
  import opened LocalStorage
  import BugReportManager
  import DataCollector
  import opened BugDataRestorer

  // ----- messages -----

  /** A runtime message: its `action` and the two payload properties read. */
  datatype Message = Message(action: string, data: Option<Snapshot>, reportId: Option<string>)

  /** The `data` of a successful answer. */
  datatype Payload = SavedReport(report: Snapshot) | ReportList(reports: seq<Snapshot>) | PageData(page: Snapshot)

  /** The object handed to `sendResponse`. */
  datatype Response = Response(success: bool, data: Option<Payload>, error: Option<string>)

  const UnknownAction: string := "Unknown action"

  /** The actions the dispatcher knows. */
  const Actions: seq<string> :=
    ["saveBugReport", "getBugReports", "deleteBugReport", "exportBugReport", "collectPageData", "restoreBugData"]

  /** The message of the `TypeError` thrown on reading `prop` of `undefined`. */
  function UndefinedRead(prop: string): string {
    "Cannot read properties of undefined (reading '" + prop + "')"
  }

  /** A property key as JavaScript converts it: `undefined` becomes the
      string "undefined". */
  function PropertyKey(o: Option<string>): string {
    o.GetOr("undefined")
  }

  /** The answer for a known action: `{success: true, data}` when its handler
      returns, `{success: false, error: message}` when it throws; `None`
      while the handler never settles. */
  function Answer(handled: Option<Result<Option<Payload>>>): (r: Option<Response>)
    ensures r.Some? <==> handled.Some?
    ensures r.Some? ==> (r.value.success <==> handled.value.Ok?)
    ensures r.Some? && handled.value.Ok? ==> r.value.data == handled.value.value && r.value.error.None?
    ensures r.Some? && handled.value.Err? ==> r.value.data.None? && r.value.error == Some(handled.value.message)
  {
    match handled
    case None => None
    case Some(Ok(d)) => Some(Response(true, d, None))
    case Some(Err(m)) => Some(Response(false, None, Some(m)))
  }

  // ----- first run -----

  /** `initializeStorage()`: write `bugReports` and the eight default
      settings where they are missing; the cache is not touched. */
  function InitializeStorage(s: Persisted): (r: Persisted)
    ensures s.bugReports.Some? ==> r.bugReports == s.bugReports
    ensures s.settings.Some? ==> r.settings == s.settings
    ensures s.bugReports.None? ==> r.bugReports == Some([])
    ensures s.settings.None? ==> r.settings == Some(BugReportManager.Defaults)
    ensures r.bugReportCache == s.bugReportCache
  {
    s.(bugReports := if s.bugReports.None? then Some([]) else s.bugReports,
       settings := if s.settings.None? then Some(BugReportManager.Defaults) else s.settings)
  }

  /** A second first run changes nothing, and the settings it writes are
      the ones the report manager falls back to. */
  lemma InitializeIdempotent(s: Persisted)
    ensures InitializeStorage(InitializeStorage(s)) == InitializeStorage(s)
    ensures BugReportManager.LimitOf(InitializeStorage(s)) == BugReportManager.LimitOf(s)
  {
  }

  // ----- the store -----

  /** The settings assumed when none are stored. */
  const FallbackSettings: Settings := NoSettings.(maxStoredReports := Some(50))

  /** `saveBugReport(reportData)`: build the report, store it under the new
      id and evict beyond the stored limit, or 50 without settings. A missing
      `data` throws on reading its title. */
  function SaveBugReport(s: Persisted, data: Option<Snapshot>, newId: string, now: int,
                         parse: string -> Option<Url>): (r: (Persisted, Result<Snapshot>))
    ensures data.None? ==> r.0 == s && r.1 == Err(UndefinedRead("title"))
    ensures data.Some? ==> r.1 == BugReportManager.NewReport(data.value, newId, now, parse)
    ensures r.1.Err? ==> r.0 == s
    ensures r.1.Ok? ==> r.0.settings == s.settings && r.0.bugReportCache == s.bugReportCache
    ensures r.1.Ok? ==>
      Reports(r.0) == Store(Reports(s), newId, r.1.value, s.settings.GetOr(FallbackSettings).maxStoredReports)
  {
    if data.None? then (s, Err(UndefinedRead("title")))
    else
      match BugReportManager.NewReport(data.value, newId, now, parse)
      case Err(m) => (s, Err(m))
      case Ok(report) =>
        var limit := s.settings.GetOr(FallbackSettings).maxStoredReports;
        (s.(bugReports := Some(Store(Reports(s), newId, report, limit))), Ok(report))
  }

  /** The worker's save and the report manager's save store the same thing:
      their fallbacks differ, but both limit to 50 reports without settings. */
  lemma SaveAgreesWithManager(s: Persisted, data: Snapshot, newId: string, now: int, parse: string -> Option<Url>)
    ensures SaveBugReport(s, Some(data), newId, now, parse) == BugReportManager.Save(s, data, newId, now, parse)
  {
    assert BugReportManager.LimitOf(s) == s.settings.GetOr(FallbackSettings).maxStoredReports;
  }

  // ----- page capture -----

  /** `collectPageData(tab)`: as the collector module, except that no
      viewport is measured and the screenshot is always attempted, `null`
      only when the capture fails. The `settings` and `viewport` results in
      `p` are not read. */
  function CollectPageData(tab: Option<Tab>, now: int, userAgent: string,
                           parse: string -> Option<Url>, p: DataCollector.Probes): (r: Result<Snapshot>)
    ensures tab.None? <==> r.Err?
    ensures r.Err? ==> r.message == DataCollector.NoActiveTab
    ensures r.Ok? ==> r.value.viewport.None?
    ensures r.Ok? ==> (r.value.screenshot.Some? <==> p.screenshot.Ok?)
    ensures r.Ok? && p.screenshot.Ok? ==> r.value.screenshot == Some(p.screenshot.value)
  {
    if tab.None? then Err(DataCollector.NoActiveTab)
    else
      var t := tab.value;
      var url := DataCollector.PageUrl(t, p.href);
      var data := DataCollector.CollectBrowserData(p);
      Ok(EmptySnapshot.(
        url := url, title := t.title, timestamp := Some(now), userAgent := Some(userAgent),
        cookies := Some(DataCollector.CollectCookies(url, parse, p.exactCookies, p.domainCookies)),
        consoleLog := data.consoleLog, networkRequests := data.networkRequests,
        localStorage := data.localStorage, sessionStorage := data.sessionStorage,
        screenshot := if p.screenshot.Ok? then Some(p.screenshot.value) else None))
  }

  /** The worker captures what the collector module captures, field for
      field, apart from the viewport and the screenshot; where the stored
      settings enable screenshots the two agree on that too. */
  lemma CaptureAgreesWithCollector(tab: Tab, now: int, userAgent: string,
                                   parse: string -> Option<Url>, p: DataCollector.Probes)
    ensures var a := CollectPageData(Some(tab), now, userAgent, parse, p).value;
      var b := DataCollector.CollectPageData(Some(tab), now, userAgent, parse, p).value;
      && a.(viewport := b.viewport, screenshot := b.screenshot) == b
      && (On(DataCollector.CaptureSettings(p.settings).includeScreenshot) ==> a.screenshot == b.screenshot)
  {
  }

  /** The tab a message acts on: the sender's, else the active tab. */
  function MessageTab(sender: Option<Tab>, active: Option<Tab>): (r: Option<Tab>)
    ensures sender.Some? ==> r == sender
    ensures sender.None? ==> r == active
  {
    if sender.Some? then sender else active
  }

  // ----- restore -----

  /** `injectBugData(bugData, tabId)`: write the cookies at the report
      origin, inject storage, reload. Nothing is cleared first. */
  function Inject(bug: Snapshot, tabId: int, parse: string -> Option<Url>): (r: Result<Injection>)
    ensures r.Ok? <==> ParseUrl(parse, bug.url).Ok?
    ensures r.Ok? ==> WellFormed(r.value) && r.value.clearing == []
    ensures r.Ok? ==>
      && r.value.cookies == CookieWrites(bug.cookies.GetOr([]), (c: Cookie) => parse(bug.url.value).value.Origin() + c.path)
      && r.value.storage == StorageCall(tabId, bug)
      && r.value.finish == Reload(tabId)
  {
    var u :- ParseUrl(parse, bug.url);
    var origin := u.Origin();
    Ok(Injection([], CookieWrites(bug.cookies.GetOr([]), (c: Cookie) => origin + c.path), StorageCall(tabId, bug), Reload(tabId)))
  }

  /** The worker's injection is the report manager era's injection without
      its clearing step and with a reload in place of the navigation. */
  lemma InjectIsUnclearedRestorer(bug: Snapshot, tabId: int, parse: string -> Option<Url>, jar: seq<Cookie>,
                                  fault: Action -> Option<string>)
    requires ParseUrl(parse, bug.url).Ok?
    ensures var a := Inject(bug, tabId, parse).value;
      var b := InjectBugData(bug, tabId, parse, jar, fault).value;
      a == b.(clearing := [], finish := Reload(tabId))
    ensures Ordered(Inject(bug, tabId, parse).value.Trace(), 3, 5)
  {
    var a := Inject(bug, tabId, parse).value;
    InjectionShape(a);
    assert a.Trace() == a.cookies + [a.storage, a.finish];
    OrderedConcat(a.cookies, [a.storage, a.finish], 3, 3, 5);
  }

  /** `restoreBugData(bugData, tab)` for a tab and a report that are
      present, with `inject` the injection into that tab: the same URL
      injects at once, any other URL navigates the same tab and injects
      once it completes. */
  function RestoreInPlace(tab: Tab, bug: Snapshot, events: seq<TabEvent>, inject: Result<Injection>,
                          fault: Action -> Option<string>): (r: (seq<Action>, Outcome))
    requires inject.Ok? ==> WellFormed(inject.value)
    ensures Injected(r.0) <= 1
    ensures tab.url == bug.url ==> r.0 == (if inject.Ok? then inject.value.Trace() else [])
    ensures tab.url != bug.url ==> |r.0| > 0 && r.0[0] == Navigate(tab.id, bug.url)
    ensures forall i :: 0 <= i < |r.0| ==> !r.0[i].CreateTab?
  {
    if tab.url == bug.url then
      match inject
      case Err(m) => ([], Rejected(m))
      case Ok(inj) =>
        InjectionShape(inj);
        InjectionOpensNoTab(inj);
        (inj.Trace(), if fault(inj.finish).Some? then Rejected(fault(inj.finish).value) else Resolved)
    else
      var rest := CallAndInject(Navigate(tab.id, bug.url), tab.id, events, inject, fault);
      assert rest.0 == [Navigate(tab.id, bug.url)] + rest.0[1..];
      NoTabCreated(rest.0[1..], inject);
      rest
  }

  /** What follows the navigation, the injection if any, opens no tab. */
  lemma NoTabCreated(t: seq<Action>, inject: Result<Injection>)
    requires inject.Ok? ==> WellFormed(inject.value)
    requires t == [] || (inject.Ok? && t == inject.value.Trace())
    ensures forall i :: 0 <= i < |t| ==> !t[i].CreateTab?
  {
    if t != [] {
      InjectionOpensNoTab(inject.value);
    }
  }

  /** `restoreBugData` as dispatched: reading `url` of a missing tab or
      report throws. */
  function RestoreBugData(tab: Option<Tab>, bug: Option<Snapshot>, parse: string -> Option<Url>,
                          events: seq<TabEvent>, fault: Action -> Option<string>): (r: (seq<Action>, Outcome))
    ensures tab.None? || bug.None? ==> r.0 == [] && r.1 == Rejected(UndefinedRead("url"))
    ensures tab.Some? && bug.Some? && tab.value.url == bug.value.url ==>
      var inject := Inject(bug.value, tab.value.id, parse);
      r.0 == (if inject.Ok? then inject.value.Trace() else [])
    ensures tab.Some? && bug.Some? && tab.value.url != bug.value.url ==>
      |r.0| > 0 && r.0[0] == Navigate(tab.value.id, bug.value.url)
    ensures Injected(r.0) <= 1
    ensures forall i :: 0 <= i < |r.0| ==> !r.0[i].CreateTab?
  {
    if tab.None? || bug.None? then ([], Rejected(UndefinedRead("url")))
    else RestoreInPlace(tab.value, bug.value, events, Inject(bug.value, tab.value.id, parse), fault)
  }

  // ----- dispatch -----

  /** The results of the browser calls one message handling makes. */
  datatype Env = Env(
    newId: string, now: int, userAgent: string, parse: string -> Option<Url>,
    senderTab: Option<Tab>, activeTab: Option<Tab>, probes: DataCollector.Probes,
    events: seq<TabEvent>, fault: Action -> Option<string>)

  /** The outcome of a restore as a handler result. */
  function Settled(o: Outcome): (r: Option<Result<Option<Payload>>>)
    ensures o == Resolved ==> r == Some(Ok(None))
    ensures o == Pending ==> r.None?
    ensures o.Rejected? ==> r == Some(Err(o.message))
  {
    match o
    case Resolved => Some(Ok(None))
    case Pending => None
    case Rejected(m) => Some(Err(m))
  }

  /** `handleMessage(message, sender, sendResponse)`: the store after the
      message and the answer sent, if any. */
  function HandleMessage(s: Persisted, m: Message, env: Env): (r: (Persisted, Option<Response>))
    ensures m.action !in Actions ==> r.0 == s && r.1 == Some(Response(false, None, Some(UnknownAction)))
    ensures m.action != "saveBugReport" && m.action != "deleteBugReport" ==> r.0 == s
    ensures r.1.Some? && !r.1.value.success ==> r.1.value.error.Some?
  {
    match m.action
    case "saveBugReport" =>
      var saved := SaveBugReport(s, m.data, env.newId, env.now, env.parse);
      (saved.0, Answer(Some(if saved.1.Ok? then Ok(Some(SavedReport(saved.1.value))) else Err(saved.1.message))))
    case "getBugReports" => (s, Answer(Some(Ok(Some(ReportList(BugReportManager.List(s)))))))
    case "deleteBugReport" =>
      (BugReportManager.DeleteReport(s, PropertyKey(m.reportId)), Answer(Some(Ok(None))))
    case "exportBugReport" =>
      var exported := BugReportManager.Export(s, PropertyKey(m.reportId), env.now, env.parse);
      (s, Answer(Some(if exported.Ok? then Ok(None) else Err(exported.message))))
    case "collectPageData" =>
      var page := CollectPageData(MessageTab(env.senderTab, env.activeTab), env.now, env.userAgent, env.parse, env.probes);
      (s, Answer(Some(if page.Ok? then Ok(Some(PageData(page.value))) else Err(page.message))))
    case "restoreBugData" =>
      var restored := RestoreBugData(MessageTab(env.senderTab, env.activeTab), m.data, env.parse, env.events, env.fault);
      (s, Answer(Settled(restored.1)))
    case _ => (s, Some(Response(false, None, Some(UnknownAction))))
  }

  /** Deleting an id that is not stored still answers success and changes
      no report; a missing id deletes the key "undefined". */
  lemma DeleteAlwaysSucceeds(s: Persisted, m: Message, env: Env)
    requires m.action == "deleteBugReport"
    ensures HandleMessage(s, m, env).1 == Some(Response(true, None, None))
    ensures PropertyKey(m.reportId) !in KeySet(Reports(s)) ==> Reports(HandleMessage(s, m, env).0) == Reports(s)
    ensures m.reportId.None? ==> Get(Reports(HandleMessage(s, m, env).0), "undefined").None?
  {
  }

  /** Collecting with neither a sender tab nor an active tab answers the
      missing-tab error. */
  lemma CollectWithoutTabFails(s: Persisted, m: Message, env: Env)
    requires m.action == "collectPageData" && env.senderTab.None? && env.activeTab.None?
    ensures HandleMessage(s, m, env).1 == Some(Response(false, None, Some(DataCollector.NoActiveTab)))
  {
  }

  /** Exporting an id that is not stored answers the not-found error. */
  lemma ExportUnknownFails(s: Persisted, m: Message, env: Env)
    requires m.action == "exportBugReport" && Get(Reports(s), PropertyKey(m.reportId)).None?
    ensures HandleMessage(s, m, env).1 == Some(Response(false, None, Some(BugReportManager.NotFound)))
  {
  }
}

=== FILE: bug_data_restorer.dfy ===
/** Restoring a report into a browser tab: storing a report that is not yet
    saved, choosing between injecting in place, opening a new tab and
    navigating the same tab, the one-shot wait for the tab to finish
    loading, the fixed order of the injection steps, and the rewrite of a
    report for replay against a local server.

    Every browser call is an `Action` in the emitted trace. Which calls
    reject is the parameter `fault` (`Some(message)` for a call that
    rejects); the cookies the jar holds, the id of a created tab, the tab
    update events and the URL parser are parameters too. */
module BugDataRestorer {
  import opened Wrappers
  import opened Dict
  import opened Text
  import opened Records
  import opened LocalStorage
  import BugReportManager

  // ----- browser calls -----

  datatype Action =
    | WriteReports(reports: Dict<Snapshot>)     // chrome.storage.local.set({bugReports})
    | CreateTab(url: Option<string>)            // chrome.tabs.create
    | Navigate(tabId: int, url: Option<string>) // chrome.tabs.update
    | Reload(tabId: int)                        // chrome.tabs.reload
    | QueryCookies(target: string)              // chrome.cookies.getAll({url})
    | RemoveCookie(target: string, name: string) // chrome.cookies.remove
    | ClearStorage(tabId: int)                  // the script clearing both storage areas
    | SetCookie(target: string, cookie: Cookie) // chrome.cookies.set
    | InjectStorage(tabId: int, local: Dict<string>, session: Dict<string>)

  /** How a restore's promise ends up: resolved, rejected with a message, or
      never settled (the tab never completed loading, or the injection
      scheduled by the listener rejected). */
  datatype Outcome = Resolved | Pending | Rejected(message: string)

  /** The store after a restore, the browser calls it made, and its outcome. */
  datatype Run = Run(store: Persisted, trace: seq<Action>, outcome: Outcome)

  /** The number of storage injections in a trace. */
  function Injected(t: seq<Action>): nat
    decreases |t|
  {
    if |t| == 0 then 0
    else Injected(t[..|t| - 1]) + if t[|t| - 1].InjectStorage? then 1 else 0
  }

  lemma {:induction false} InjectedAppend(a: seq<Action>, b: seq<Action>)
    ensures Injected(a + b) == Injected(a) + Injected(b)
    decreases |b|
  {
    if |b| > 0 {
      assert (a + b)[..|a + b| - 1] == a + b[..|b| - 1];
      assert (a + b)[|a + b| - 1] == b[|b| - 1];
      var step := if b[|b| - 1].InjectStorage? then 1 else 0;
      assert Injected(a + b) == Injected(a + b[..|b| - 1]) + step;
      assert Injected(b) == Injected(b[..|b| - 1]) + step;
      InjectedAppend(a, b[..|b| - 1]);
    } else {
      assert a + b == a;
    }
  }

  lemma {:induction false} NoInjection(t: seq<Action>)
    requires forall i :: 0 <= i < |t| ==> !t[i].InjectStorage?
    ensures Injected(t) == 0
    decreases |t|
  {
    if |t| > 0 {
      NoInjection(t[..|t| - 1]);
    }
  }

  // ----- storing an unsaved report -----

  /** The report still has to be stored: it has no id, or nothing is stored
      under its id. */
  predicate Unsaved(reports: Dict<Snapshot>, bug: Snapshot) {
    !Filled(bug.id) || Get(reports, bug.id.value).None?
  }

  /** The key the report is stored under: its id, or a generated one. */
  function ReportKey(bug: Snapshot, genId: string): string {
    OrText(bug.id, genId)
  }

  /** The first step of `restoreBugData`: an unsaved report is stored with
      the same defaults `saveBugReport` fills in, and without eviction. */
  function PersistIfNeeded(s: Persisted, bug: Snapshot, genId: string, now: int,
                           parse: string -> Option<Url>): (r: Result<Persisted>)
    ensures !Unsaved(Reports(s), bug) ==> r == Ok(s)
    ensures Unsaved(Reports(s), bug) ==>
      (r.Ok? <==> BugReportManager.NewReport(bug, ReportKey(bug, genId), now, parse).Ok?)
    ensures r.Ok? ==> r.value.settings == s.settings && r.value.bugReportCache == s.bugReportCache
    ensures Unsaved(Reports(s), bug) && r.Ok? ==>
      Reports(r.value) == Set(Reports(s), ReportKey(bug, genId),
                              BugReportManager.NewReport(bug, ReportKey(bug, genId), now, parse).value)
  {
    if !Unsaved(Reports(s), bug) then Ok(s)
    else
      var key := ReportKey(bug, genId);
      var report :- BugReportManager.NewReport(bug, key, now, parse);
      Ok(s.(bugReports := Some(Set(Reports(s), key, report))))
  }

  /** A report already stored is not rewritten; an unsaved one is added
      under its key, keeping any supplied id and timestamp, and every other
      report stays as it was: nothing is evicted, whatever the limit. */
  lemma PersistKeepsOthers(s: Persisted, bug: Snapshot, genId: string, now: int, parse: string -> Option<Url>)
    requires PersistIfNeeded(s, bug, genId, now, parse).Ok?
    ensures var after := Reports(PersistIfNeeded(s, bug, genId, now, parse).value);
      && (forall k :: k != ReportKey(bug, genId) ==> Get(after, k) == Get(Reports(s), k))
      && (Unsaved(Reports(s), bug) ==>
            && Get(after, ReportKey(bug, genId)).Some?
            && Get(after, ReportKey(bug, genId)).value.id == (if bug.id.Some? then bug.id else Some(genId))
            && Get(after, ReportKey(bug, genId)).value.timestamp == (if bug.timestamp.Some? then bug.timestamp else Some(now))
            && |after| == |Reports(s)| + (if ReportKey(bug, genId) in KeySet(Reports(s)) then 0 else 1))
      && (!Unsaved(Reports(s), bug) ==> after == Reports(s))
  {
  }

  /** A report whose id is the empty string is stored under the generated
      key, while its own `id` stays empty, because the spread of the report
      comes after the default. */
  lemma EmptyIdStoredUnderGeneratedKey(s: Persisted, bug: Snapshot, genId: string, now: int, parse: string -> Option<Url>)
    requires bug.id == Some("") && PersistIfNeeded(s, bug, genId, now, parse).Ok?
    ensures Get(Reports(PersistIfNeeded(s, bug, genId, now, parse).value), genId).Some?
    ensures Get(Reports(PersistIfNeeded(s, bug, genId, now, parse).value), genId).value.id == Some("")
  {
  }

  // ----- routing -----

  /** The cross-domain test: host name or port differ; the scheme is not
      compared. */
  predicate CrossDomain(current: Url, target: Url) {
    current.hostname != target.hostname || current.port != target.port
  }

  /** Where the restore goes: inject into the tab as it is, open the report
      URL in a new tab, or navigate the tab to it. */
  datatype Route = InjectHere(tabId: int) | OpenTab(url: string) | NavigateHere(tabId: int, url: string)

  /** The routing of `restoreBugData`, after both URLs are parsed. */
  function RouteFor(tab: Tab, bug: Snapshot, parse: string -> Option<Url>): (r: Result<Route>)
    ensures r.Ok? <==> ParseUrl(parse, tab.url).Ok? && ParseUrl(parse, bug.url).Ok?
    ensures r.Err? ==> r.message == InvalidUrl
    ensures r.Ok? ==> (r.value.InjectHere? <==> tab.url == bug.url)
    ensures r.Ok? ==>
      (r.value.OpenTab? <==> tab.url != bug.url && CrossDomain(parse(tab.url.value).value, parse(bug.url.value).value))
    ensures r.Ok? && r.value.InjectHere? ==> r.value.tabId == tab.id
    ensures r.Ok? && r.value.OpenTab? ==> r.value.url == bug.url.value
    ensures r.Ok? && r.value.NavigateHere? ==> r.value.tabId == tab.id && r.value.url == bug.url.value
  {
    var current :- ParseUrl(parse, tab.url);
    var target :- ParseUrl(parse, bug.url);
    if tab.url == bug.url then Ok(InjectHere(tab.id))
    else if CrossDomain(current, target) then Ok(OpenTab(bug.url.value))
    else Ok(NavigateHere(tab.id, bug.url.value))
  }

  /** A page on the same host and port as the report but under another
      scheme is navigated in place: the scheme alone never opens a tab. */
  lemma SchemeChangeStaysInTab(tab: Tab, bug: Snapshot, parse: string -> Option<Url>)
    requires RouteFor(tab, bug, parse).Ok? && tab.url != bug.url
    requires var current := parse(tab.url.value).value; var target := parse(bug.url.value).value;
      current.hostname == target.hostname && current.port == target.port && current.protocol != target.protocol
    ensures RouteFor(tab, bug, parse) == Ok(NavigateHere(tab.id, bug.url.value))
  {
  }

  // ----- the one-shot completion listener -----

  /** `chrome.tabs.onUpdated(tabId, changeInfo)`; only the status matters. */
  datatype TabEvent = TabEvent(tabId: int, status: Option<string>)

  /** The listener: registered for one tab, or removed. */
  datatype Listener = Waiting(tabId: int) | Removed

  predicate Completes(e: TabEvent, tabId: int) {
    e.tabId == tabId && e.status == Some("complete")
  }

  /** One event: a waiting listener that sees its tab complete removes
      itself and schedules the injection (the second component). */
  function OnUpdated(l: Listener, e: TabEvent): (r: (Listener, bool))
    ensures r.1 <==> l.Waiting? && Completes(e, l.tabId)
    ensures r.0 == if r.1 then Removed else l
  {
    if l.Waiting? && Completes(e, l.tabId) then (Removed, true) else (l, false)
  }

  /** A run of events; the second component counts scheduled injections. */
  function Deliver(l: Listener, events: seq<TabEvent>): (r: (Listener, nat))
    ensures r.1 <= 1
    ensures l.Removed? ==> r.0 == Removed && r.1 == 0
    ensures r.1 == 1 ==> r.0 == Removed
    decreases |events|
  {
    if |events| == 0 then (l, 0)
    else
      var step := OnUpdated(l, events[0]);
      var rest := Deliver(step.0, events[1..]);
      (rest.0, rest.1 + if step.1 then 1 else 0)
  }

  /** The injection is scheduled exactly when some event reports the
      awaited tab complete; other tabs and other statuses are ignored. */
  lemma {:induction false} DeliverFiresIff(t: int, events: seq<TabEvent>)
    ensures Deliver(Waiting(t), events).1 == 1 <==> exists i :: 0 <= i < |events| && Completes(events[i], t)
    decreases |events|
  {
    if |events| > 0 && !Completes(events[0], t) {
      DeliverFiresIff(t, events[1..]);
      if exists i :: 0 <= i < |events| && Completes(events[i], t) {
        var i :| 0 <= i < |events| && Completes(events[i], t);
        assert Completes(events[1..][i - 1], t);
      }
      if exists i :: 0 <= i < |events| - 1 && Completes(events[1..][i], t) {
        var i :| 0 <= i < |events| - 1 && Completes(events[1..][i], t);
        assert Completes(events[i + 1], t);
      }
    }
  }

  // ----- the injection -----

  /** The calls of one injection: clearing, cookie writes, the storage
      script and the final navigation or reload. */
  datatype Injection = Injection(clearing: seq<Action>, cookies: seq<Action>, storage: Action, finish: Action)
  {
    function Trace(): seq<Action> {
      clearing + cookies + [storage, finish]
    }
  }

  /** The step an action belongs to in an injection, in the order they run. */
  function Phase(a: Action): nat {
    match a
    case QueryCookies(_) => 0
    case RemoveCookie(_, _) => 1
    case ClearStorage(_) => 2
    case SetCookie(_, _) => 3
    case InjectStorage(_, _, _) => 4
    case _ => 5
  }

  /** Every action in `t` belongs to a step in `lo..hi`, and the steps never
      go backwards. */
  predicate Ordered(t: seq<Action>, lo: nat, hi: nat) {
    && (forall i :: 0 <= i < |t| ==> lo <= Phase(t[i]) <= hi)
    && (forall i, j :: 0 <= i < j < |t| ==> Phase(t[i]) <= Phase(t[j]))
  }

  lemma OrderedConcat(a: seq<Action>, b: seq<Action>, lo: nat, mid: nat, hi: nat)
    requires lo <= mid <= hi
    requires Ordered(a, lo, mid) && Ordered(b, mid, hi)
    ensures Ordered(a + b, lo, hi)
  {
    var t := a + b;
    forall i | 0 <= i < |t|
      ensures lo <= Phase(t[i]) <= hi
    {
      if i >= |a| {
        assert t[i] == b[i - |a|];
      } else {
        assert t[i] == a[i];
      }
    }
    forall i, j | 0 <= i < j < |t|
      ensures Phase(t[i]) <= Phase(t[j])
    {
      if j < |a| {
      } else if i >= |a| {
        assert t[i] == b[i - |a|] && t[j] == b[j - |a|];
      } else {
        assert t[j] == b[j - |a|];
      }
    }
  }

  /** The removal loop of `_clearExistingData`: each cookie the jar returned
      is removed at the report origin and the cookie's path; the loop sits
      inside one `try`, so the first rejected removal ends it. */
  function Removals(origin: string, jar: seq<Cookie>, fault: Action -> Option<string>): (r: seq<Action>)
    ensures RemovalRun(origin, jar, fault, r)
    decreases |jar|
  {
    if |jar| == 0 then []
    else
      var call := RemoveCookie(origin + jar[0].path, jar[0].name);
      if fault(call).Some? then [call]
      else
        var rest := Removals(origin, jar[1..], fault);
        RemovalRunCons(origin, jar, fault, rest);
        [call] + rest
  }

  /** `r` removes the jar's cookies in order, stopping right after the first
      rejected removal. */
  predicate RemovalRun(origin: string, jar: seq<Cookie>, fault: Action -> Option<string>, r: seq<Action>) {
    && |r| <= |jar|
    && (forall i :: 0 <= i < |r| ==> r[i] == RemoveCookie(origin + jar[i].path, jar[i].name))
    && (forall i :: 0 <= i < |r| - 1 ==> fault(r[i]).None?)
    && (|r| < |jar| ==> |r| > 0 && fault(r[|r| - 1]).Some?)
  }

  /** An accepted first removal followed by a run over the rest of the jar
      is a run over the whole jar. */
  lemma RemovalRunCons(origin: string, jar: seq<Cookie>, fault: Action -> Option<string>, rest: seq<Action>)
    requires |jar| > 0 && fault(RemoveCookie(origin + jar[0].path, jar[0].name)).None?
    requires RemovalRun(origin, jar[1..], fault, rest)
    ensures RemovalRun(origin, jar, fault, [RemoveCookie(origin + jar[0].path, jar[0].name)] + rest)
  {
    var tail := jar[1..];
    var r := [RemoveCookie(origin + jar[0].path, jar[0].name)] + rest;
    assert forall i :: 0 < i < |r| ==> r[i] == rest[i - 1] && tail[i - 1] == jar[i];
    assert |r| < |jar| ==> r[|r| - 1] == rest[|rest| - 1];
  }

  /** The cookie writes of `_restoreCookies`: one call per report cookie, at
      the URL `at` gives it, copying the cookie whole; each call has its own
      `try`, so every cookie is attempted whatever the others do. */
  function CookieWrites(cookies: seq<Cookie>, at: Cookie -> string): (r: seq<Action>)
    ensures |r| == |cookies|
    ensures forall i :: 0 <= i < |r| ==> r[i].SetCookie? && r[i].cookie == cookies[i] && r[i].target == at(cookies[i])
    ensures Ordered(r, 3, 3)
  {
    seq(|cookies|, i requires 0 <= i < |cookies| => SetCookie(at(cookies[i]), cookies[i]))
  }

  /** `_clearExistingData(tabId, url)`: query the jar for the URL, remove
      what it returned (skipped when the query rejects), then run the
      storage-clearing script; each part swallows its own failure. */
  function ClearExistingData(tabId: int, url: string, origin: string, jar: seq<Cookie>,
                             fault: Action -> Option<string>): (r: seq<Action>)
    ensures |r| >= 2 && r[0] == QueryCookies(url) && r[|r| - 1] == ClearStorage(tabId)
    ensures fault(QueryCookies(url)).Some? ==> |r| == 2
    ensures fault(QueryCookies(url)).None? ==> r[1..|r| - 1] == Removals(origin, jar, fault)
  {
    var removals := if fault(QueryCookies(url)).Some? then [] else Removals(origin, jar, fault);
    [QueryCookies(url)] + removals + [ClearStorage(tabId)]
  }

  /** The storage script's arguments: each area of the report, or `{}`. */
  function StorageCall(tabId: int, bug: Snapshot): Action {
    InjectStorage(tabId, bug.localStorage.GetOr([]), bug.sessionStorage.GetOr([]))
  }

  /** `injectBugData(bugData, tabId)`: clear, restore cookies at the report
      origin, inject storage, navigate to the report URL. Only an
      unparsable report URL stops it before any call. */
  function InjectBugData(bug: Snapshot, tabId: int, parse: string -> Option<Url>, jar: seq<Cookie>,
                         fault: Action -> Option<string>): (r: Result<Injection>)
    ensures r.Ok? <==> ParseUrl(parse, bug.url).Ok?
    ensures r.Err? ==> r.message == InvalidUrl
    ensures r.Ok? ==>
      var origin := parse(bug.url.value).value.Origin();
      && r.value.clearing == ClearExistingData(tabId, bug.url.value, origin, jar, fault)
      && r.value.cookies == CookieWrites(bug.cookies.GetOr([]), (c: Cookie) => origin + c.path)
      && r.value.storage == StorageCall(tabId, bug)
      && r.value.finish == Navigate(tabId, bug.url)
    ensures r.Ok? ==> WellFormed(r.value)
  {
    var u :- ParseUrl(parse, bug.url);
    var origin := u.Origin();
    ClearingOrdered(tabId, bug.url.value, origin, jar, fault);
    Ok(Injection(ClearExistingData(tabId, bug.url.value, origin, jar, fault),
                 CookieWrites(bug.cookies.GetOr([]), (c: Cookie) => origin + c.path),
                 StorageCall(tabId, bug), Navigate(tabId, bug.url)))
  }

  /** The parts of an injection keep to their steps: clearing calls only,
      cookie writes only, the storage script, and a final call that is none
      of these. */
  predicate WellFormed(inj: Injection) {
    && Ordered(inj.clearing, 0, 2) && Ordered(inj.cookies, 3, 3)
    && inj.storage.InjectStorage? && (inj.finish.Navigate? || inj.finish.Reload?)
  }

  /** Any injection whose parts keep to their steps runs them in order and
      injects storage exactly once. */
  lemma InjectionShape(inj: Injection)
    requires WellFormed(inj)
    ensures Ordered(inj.Trace(), 0, 5) && Injected(inj.Trace()) == 1
  {
    var front := inj.clearing + inj.cookies;
    var back := [inj.storage, inj.finish];
    assert inj.Trace() == front + back;
    assert Ordered(front, 0, 4) by {
      OrderedConcat(inj.clearing, inj.cookies, 0, 3, 3);
    }
    assert Ordered(back, 4, 5) by {
      assert Phase(inj.storage) == 4 && Phase(inj.finish) == 5;
    }
    OrderedConcat(front, back, 0, 4, 5);
    assert Injected(front) == 0 by {
      NoInjection(front);
    }
    assert Injected(back) == 1 by {
      assert back[..1] == [inj.storage] && [inj.storage][..0] == [];
      assert Injected([inj.storage]) == 1;
    }
    InjectedAppend(front, back);
  }

  /** An injection neither opens a tab nor writes the store. */
  lemma InjectionOpensNoTab(inj: Injection)
    requires WellFormed(inj)
    ensures forall i :: 0 <= i < |inj.Trace()| ==> !inj.Trace()[i].CreateTab? && !inj.Trace()[i].WriteReports?
  {
    var t := inj.Trace();
    forall i | 0 <= i < |t|
      ensures !t[i].CreateTab? && !t[i].WriteReports?
    {
      if i < |inj.clearing| {
        assert t[i] == inj.clearing[i];
      } else if i < |inj.clearing| + |inj.cookies| {
        assert t[i] == inj.cookies[i - |inj.clearing|];
      } else if i == |t| - 2 {
        assert t[i] == inj.storage;
      } else {
        assert t[i] == inj.finish;
      }
    }
  }

  lemma ClearingOrdered(tabId: int, url: string, origin: string, jar: seq<Cookie>, fault: Action -> Option<string>)
    ensures Ordered(ClearExistingData(tabId, url, origin, jar, fault), 0, 2)
  {
    var removals := if fault(QueryCookies(url)).Some? then [] else Removals(origin, jar, fault);
    assert ClearExistingData(tabId, url, origin, jar, fault) == [QueryCookies(url)] + removals + [ClearStorage(tabId)];
    assert Ordered(removals, 1, 1) by {
      assert forall i :: 0 <= i < |removals| ==> Phase(removals[i]) == 1;
    }
    assert Ordered([QueryCookies(url)] + removals, 0, 1) by {
      OrderedConcat([QueryCookies(url)], removals, 0, 1, 1);
    }
    OrderedConcat([QueryCookies(url)] + removals, [ClearStorage(tabId)], 0, 1, 2);
  }

  /** The steps run in the fixed order clear → cookies → storage →
      navigate, with exactly one storage injection, starting with the
      cookie query and ending on the navigation to the report URL. */
  lemma InjectStepOrder(bug: Snapshot, tabId: int, parse: string -> Option<Url>, jar: seq<Cookie>,
                        fault: Action -> Option<string>)
    requires InjectBugData(bug, tabId, parse, jar, fault).Ok?
    ensures var t := InjectBugData(bug, tabId, parse, jar, fault).value.Trace();
      && Ordered(t, 0, 5)
      && Injected(t) == 1
      && t[0] == QueryCookies(bug.url.value)
      && t[|t| - 1] == Navigate(tabId, bug.url)
  {
    var inj := InjectBugData(bug, tabId, parse, jar, fault).value;
    InjectionShape(inj);
    assert inj.Trace()[0] == inj.clearing[0];
  }

  /** In an injection whose clearing keeps to its steps, every cookie
      write of the trace comes from the cookie part. */
  lemma CookieStepsOfTrace(inj: Injection, a: Action)
    requires Ordered(inj.clearing, 0, 2) && !inj.storage.SetCookie? && !inj.finish.SetCookie?
    requires a in inj.Trace() && a.SetCookie?
    ensures a in inj.cookies
  {
    var c, w := inj.clearing, inj.cookies;
    var t := inj.Trace();
    var i :| 0 <= i < |t| && t[i] == a;
    assert Phase(a) == 3;
    assert forall j :: 0 <= j < |c| ==> t[j] == c[j];
    assert i >= |c|;
    assert t[|t| - 2] == inj.storage && t[|t| - 1] == inj.finish;
    assert i < |c| + |w|;
    assert t[i] == w[i - |c|];
  }

  /** Every cookie an injection writes is one of the report's cookies, set
      at the report origin followed by the cookie's path. */
  lemma WrittenCookiesFromReport(bug: Snapshot, tabId: int, parse: string -> Option<Url>, jar: seq<Cookie>,
                                 fault: Action -> Option<string>, a: Action)
    requires InjectBugData(bug, tabId, parse, jar, fault).Ok?
    requires a in InjectBugData(bug, tabId, parse, jar, fault).value.Trace() && a.SetCookie?
    ensures bug.cookies.Some? && a.cookie in bug.cookies.value
    ensures a.target == parse(bug.url.value).value.Origin() + a.cookie.path
  {
    var inj := InjectBugData(bug, tabId, parse, jar, fault).value;
    CookieStepsOfTrace(inj, a);
    var i :| 0 <= i < |inj.cookies| && inj.cookies[i] == a;
  }

  /** A report taken on a page with an opaque origin (`data:`, `about:`)
      has `url.origin` equal to `"null"`, so its cookies are set at
      `"null"` followed by their path, which the cookie API rejects. */
  lemma OpaqueOriginCookieTargets(bug: Snapshot, tabId: int, parse: string -> Option<Url>, jar: seq<Cookie>,
                                  fault: Action -> Option<string>, a: Action)
    requires InjectBugData(bug, tabId, parse, jar, fault).Ok?
    requires a in InjectBugData(bug, tabId, parse, jar, fault).value.Trace() && a.SetCookie?
    requires !parse(bug.url.value).value.Special()
    ensures a.target == "null" + a.cookie.path
  {
    WrittenCookiesFromReport(bug, tabId, parse, jar, fault, a);
  }

  /** Failures are swallowed: whatever rejects, the same cookies are written
      at the same URLs, the same storage is injected and the same
      navigation follows; only the removal loop depends on failures. */
  lemma FailuresOnlyCutClearing(bug: Snapshot, tabId: int, parse: string -> Option<Url>, jar: seq<Cookie>,
                                f: Action -> Option<string>, g: Action -> Option<string>)
    requires InjectBugData(bug, tabId, parse, jar, f).Ok?
    ensures InjectBugData(bug, tabId, parse, jar, g).Ok?
    ensures var a := InjectBugData(bug, tabId, parse, jar, f).value;
      var b := InjectBugData(bug, tabId, parse, jar, g).value;
      a.cookies == b.cookies && a.storage == b.storage && a.finish == b.finish
    ensures (forall x :: f(x).None?) ==>
      var c := InjectBugData(bug, tabId, parse, jar, f).value.clearing;
      |c| == |jar| + 2
  {
    if forall x :: f(x).None? {
      var origin := parse(bug.url.value).value.Origin();
      var c := InjectBugData(bug, tabId, parse, jar, f).value.clearing;
      assert c[1..|c| - 1] == Removals(origin, jar, f);
    }
  }

  // ----- the whole restore -----

  /** After the tab is opened or navigated: wait on `tabId`, then inject
      once if it completes. A rejected injection leaves the promise pending,
      since it runs from a timer callback. */
  function AwaitAndInject(tabId: int, events: seq<TabEvent>, inject: Result<Injection>,
                          fault: Action -> Option<string>): (r: (seq<Action>, Outcome))
    requires inject.Ok? ==> WellFormed(inject.value)
    ensures Injected(r.0) <= 1
    ensures r.1 != Resolved ==> r.1 == Pending
    ensures r.1 == Resolved ==> Injected(r.0) == 1
  {
    if Deliver(Waiting(tabId), events).1 == 1 then
      match inject
      case Err(_) => ([], Pending)
      case Ok(inj) =>
        InjectionShape(inj);
        (inj.Trace(), if fault(inj.finish).Some? then Pending else Resolved)
    else ([], Pending)
  }

  /** Open or navigate a tab with `call`, then wait on `tabId` and inject. */
  function CallAndInject(call: Action, tabId: int, events: seq<TabEvent>, inject: Result<Injection>,
                         fault: Action -> Option<string>): (r: (seq<Action>, Outcome))
    requires !call.InjectStorage?
    requires inject.Ok? ==> WellFormed(inject.value)
    ensures Injected(r.0) <= 1
    ensures |r.0| > 0 && r.0[0] == call
    ensures fault(call).Some? ==> r.0 == [call] && r.1 == Rejected(fault(call).value)
  {
    NoInjection([call]);
    if fault(call).Some? then ([call], Rejected(fault(call).value))
    else
      var waited := AwaitAndInject(tabId, events, inject, fault);
      InjectedAppend([call], waited.0);
      ([call] + waited.0, waited.1)
  }

  /** `restoreBugData` after the store step: route, then inject at once or
      after the tab is opened or navigated. */
  function RouteAndInject(tab: Tab, bug: Snapshot, parse: string -> Option<Url>, newTabId: int,
                          events: seq<TabEvent>, jar: seq<Cookie>, fault: Action -> Option<string>): (r: (seq<Action>, Outcome))
    ensures Injected(r.0) <= 1
    ensures RouteFor(tab, bug, parse).Err? ==> r.0 == [] && r.1 == Rejected(InvalidUrl)
  {
    match RouteFor(tab, bug, parse)
    case Err(m) => ([], Rejected(m))
    case Ok(InjectHere(id)) =>
      var inj := InjectBugData(bug, id, parse, jar, fault).value;
      InjectStepOrder(bug, id, parse, jar, fault);
      (inj.Trace(), if fault(inj.finish).Some? then Rejected(fault(inj.finish).value) else Resolved)
    case Ok(OpenTab(url)) =>
      CallAndInject(CreateTab(Some(url)), newTabId, events, InjectBugData(bug, newTabId, parse, jar, fault), fault)
    case Ok(NavigateHere(id, url)) =>
      CallAndInject(Navigate(id, Some(url)), id, events, InjectBugData(bug, id, parse, jar, fault), fault)
  }

  /** `restoreBugData(bugData, tab)`: store the report if it is unsaved,
      then route and inject. */
  function RestoreBugData(s: Persisted, bug: Snapshot, tab: Tab, genId: string, now: int,
                          parse: string -> Option<Url>, newTabId: int, events: seq<TabEvent>,
                          jar: seq<Cookie>, fault: Action -> Option<string>): (r: Run)
    ensures Injected(r.trace) <= 1
    ensures PersistIfNeeded(s, bug, genId, now, parse).Err? ==>
      r == Run(s, [], Rejected(PersistIfNeeded(s, bug, genId, now, parse).message))
    ensures PersistIfNeeded(s, bug, genId, now, parse).Ok? && !Unsaved(Reports(s), bug) ==>
      r == Run(s, RouteAndInject(tab, bug, parse, newTabId, events, jar, fault).0,
               RouteAndInject(tab, bug, parse, newTabId, events, jar, fault).1)
    ensures var stored := PersistIfNeeded(s, bug, genId, now, parse);
      stored.Ok? && Unsaved(Reports(s), bug) ==>
        var write := WriteReports(Reports(stored.value));
        && (fault(write).Some? ==> r == Run(s, [write], Rejected(fault(write).value)))
        && (fault(write).None? ==>
              r == Run(stored.value, [write] + RouteAndInject(tab, bug, parse, newTabId, events, jar, fault).0,
                       RouteAndInject(tab, bug, parse, newTabId, events, jar, fault).1))
  {
    match PersistIfNeeded(s, bug, genId, now, parse)
    case Err(m) => Run(s, [], Rejected(m))
    case Ok(stored) =>
      var write := WriteReports(Reports(stored));
      var unsaved := Unsaved(Reports(s), bug);
      if unsaved && fault(write).Some? then
        NoInjection([write]);
        Run(s, [write], Rejected(fault(write).value))
      else
        var before := if unsaved then [write] else [];
        var rest := RouteAndInject(tab, bug, parse, newTabId, events, jar, fault);
        NoInjection(before);
        InjectedAppend(before, rest.0);
        assert before == [] ==> before + rest.0 == rest.0;
        Run(stored, before + rest.0, rest.1)
  }

  /** A tab showing exactly the report URL is injected at once: after the
      store write, if any, the trace is the injection into that tab. */
  lemma SameUrlInjectsHere(s: Persisted, bug: Snapshot, tab: Tab, genId: string, now: int,
                           parse: string -> Option<Url>, newTabId: int, events: seq<TabEvent>,
                           jar: seq<Cookie>, fault: Action -> Option<string>)
    requires PersistIfNeeded(s, bug, genId, now, parse).Ok? && !Unsaved(Reports(s), bug)
    requires tab.url == bug.url && ParseUrl(parse, bug.url).Ok?
    ensures RestoreBugData(s, bug, tab, genId, now, parse, newTabId, events, jar, fault).trace ==
      InjectBugData(bug, tab.id, parse, jar, fault).value.Trace()
  {
  }

  /** A report on another host or port opens a new tab and waits for that
      tab; events from the original tab do not trigger the injection. */
  lemma CrossDomainOpensTab(s: Persisted, bug: Snapshot, tab: Tab, genId: string, now: int,
                            parse: string -> Option<Url>, newTabId: int, events: seq<TabEvent>,
                            jar: seq<Cookie>, fault: Action -> Option<string>)
    requires PersistIfNeeded(s, bug, genId, now, parse).Ok? && !Unsaved(Reports(s), bug)
    requires RouteFor(tab, bug, parse).Ok? && tab.url != bug.url
    requires CrossDomain(parse(tab.url.value).value, parse(bug.url.value).value)
    requires fault(CreateTab(bug.url)).None?
    ensures var r := RestoreBugData(s, bug, tab, genId, now, parse, newTabId, events, jar, fault);
      && |r.trace| > 0 && r.trace[0] == CreateTab(bug.url)
      && (r.outcome == Resolved ==> exists i :: 0 <= i < |events| && Completes(events[i], newTabId))
  {
    var r := RestoreBugData(s, bug, tab, genId, now, parse, newTabId, events, jar, fault);
    if r.outcome == Resolved {
      DeliverFiresIff(newTabId, events);
    }
  }

  // ----- replay against a local server -----

  const NoEndpoint: string := "Localhost endpoint is not configured in settings."

  /** A cookie moved to the local host: its domain becomes the local host
      name, and `secure` is deleted when the local server speaks `http:`. */
  function LocalCookie(c: Cookie, local: Url): (r: Cookie)
    ensures r.name == c.name && r.value == c.value && r.path == c.path
    ensures r.httpOnly == c.httpOnly && r.expirationDate == c.expirationDate
    ensures r.domain == local.hostname
    ensures r.secure == if local.protocol == "http:" then None else c.secure
  {
    c.(domain := local.hostname, secure := if local.protocol == "http:" then None else c.secure)
  }

  /** Every cookie of the report, if it has any, moved to the local host. */
  function LocalCookies(cookies: Option<seq<Cookie>>, local: Url): (r: Option<seq<Cookie>>)
    ensures r.Some? <==> cookies.Some?
    ensures r.Some? ==> |r.value| == |cookies.value|
    ensures r.Some? ==> forall i :: 0 <= i < |r.value| ==> r.value[i] == LocalCookie(cookies.value[i], local)
  {
    match cookies
    case None => None
    case Some(cs) => Some(seq(|cs|, i requires 0 <= i < |cs| => LocalCookie(cs[i], local)))
  }

  /** The local URL before parsing: the local origin followed by the report
      URL's path, query and fragment. */
  function LocalAddress(local: Url, original: Url): (r: string)
    ensures StartsWith(r, local.Origin())
    ensures EndsWith(r, original.pathname + original.search + original.hash)
  {
    var tail := original.pathname + original.search + original.hash;
    assert (local.Origin() + tail)[..|local.Origin()|] == local.Origin();
    assert (local.Origin() + tail)[|local.Origin() + tail| - |tail|..] == tail;
    local.Origin() + tail
  }

  /** The report rewritten for the local server, and the URL it is opened at. */
  datatype LocalReplay = LocalReplay(report: Snapshot, url: string)

  /** The rewrite of `restoreBugDataToLocal`: it needs a configured
      endpoint and three parsable URLs; the report is copied, so the caller's
      report is never altered, and only `cookies` and `url` differ. */
  function LocalRewrite(bug: Snapshot, settings: Settings, parse: string -> Option<Url>): (r: Result<LocalReplay>)
    ensures !Filled(settings.localhostEndpoint) ==> r == Err(NoEndpoint)
    ensures Filled(settings.localhostEndpoint) ==>
      (r.Ok? <==>
        && parse(settings.localhostEndpoint.value).Some? && ParseUrl(parse, bug.url).Ok?
        && parse(LocalAddress(parse(settings.localhostEndpoint.value).value, parse(bug.url.value).value)).Some?)
    ensures r.Ok? ==>
      var local := parse(settings.localhostEndpoint.value).value;
      && r.value.url == parse(LocalAddress(local, parse(bug.url.value).value)).value.Href()
      && r.value.report == bug.(cookies := LocalCookies(bug.cookies, local), url := Some(r.value.url))
  {
    if !Filled(settings.localhostEndpoint) then Err(NoEndpoint)
    else
      var local :- ParseUrl(parse, settings.localhostEndpoint);
      var original :- ParseUrl(parse, bug.url);
      var target :- ParseUrl(parse, Some(LocalAddress(local, original)));
      var copy := bug.(cookies := LocalCookies(bug.cookies, local));
      Ok(LocalReplay(copy.(url := Some(target.Href())), target.Href()))
  }

  /** When the local origin is written out from its parts (a network
      scheme, or a file URL without a host) and the parser reads the
      combined URL back into them, the local URL is the local origin plus
      the report's path, query and fragment, and the rewritten report
      points at it. */
  lemma LocalUrlKeepsPath(bug: Snapshot, settings: Settings, parse: string -> Option<Url>)
    requires LocalRewrite(bug, settings, parse).Ok?
    requires var local := parse(settings.localhostEndpoint.value).value;
      local.Origin() == local.protocol + "//" + local.Host()
    requires var local := parse(settings.localhostEndpoint.value).value;
      var original := parse(bug.url.value).value;
      parse(LocalAddress(local, original)) ==
        Some(Url(local.protocol, local.hostname, local.port, original.pathname, original.search, original.hash))
    ensures var local := parse(settings.localhostEndpoint.value).value;
      var original := parse(bug.url.value).value;
      && LocalRewrite(bug, settings, parse).value.url == LocalAddress(local, original)
      && LocalRewrite(bug, settings, parse).value.report.url == Some(LocalAddress(local, original))
  {
    var local := parse(settings.localhostEndpoint.value).value;
    var original := parse(bug.url.value).value;
    ReadBackHref(local, original, parse(LocalAddress(local, original)).value);
  }

  /** The combined URL, read back into the local scheme and host and the
      original path parts, has the combined string as its `href`. */
  lemma ReadBackHref(local: Url, original: Url, u: Url)
    requires local.Origin() == local.protocol + "//" + local.Host()
    requires u == Url(local.protocol, local.hostname, local.port, original.pathname, original.search, original.hash)
    ensures u.Href() == LocalAddress(local, original)
  {
    HrefFromOrigin(u, local);
  }

  /** `restoreBugDataToLocal(bugData, settings)`: rewrite, open the local URL
      in a new tab, wait for it and inject the rewritten report there. The
      store is never written. */
  function RestoreToLocal(bug: Snapshot, settings: Settings, parse: string -> Option<Url>, newTabId: int,
                          events: seq<TabEvent>, jar: seq<Cookie>, fault: Action -> Option<string>): (r: (seq<Action>, Outcome))
    ensures LocalRewrite(bug, settings, parse).Err? ==> r.0 == [] && r.1 == Rejected(LocalRewrite(bug, settings, parse).message)
    ensures LocalRewrite(bug, settings, parse).Ok? ==>
      |r.0| > 0 && r.0[0] == CreateTab(Some(LocalRewrite(bug, settings, parse).value.url))
    ensures Injected(r.0) <= 1
  {
    match LocalRewrite(bug, settings, parse)
    case Err(m) => ([], Rejected(m))
    case Ok(replay) =>
      CallAndInject(CreateTab(Some(replay.url)), newTabId, events, InjectBugData(replay.report, newTabId, parse, jar, fault), fault)
  }

  /** Every cookie the local replay writes carries the local host name as
      its domain, and lacks `secure` when the local server uses `http:`. */
  lemma LocalReplayWritesLocalCookies(bug: Snapshot, settings: Settings, parse: string -> Option<Url>, newTabId: int,
                                      events: seq<TabEvent>, jar: seq<Cookie>, fault: Action -> Option<string>, a: Action)
    requires LocalRewrite(bug, settings, parse).Ok?
    requires a in RestoreToLocal(bug, settings, parse, newTabId, events, jar, fault).0 && a.SetCookie?
    ensures var local := parse(settings.localhostEndpoint.value).value;
      && a.cookie.domain == local.hostname
      && (local.protocol == "http:" ==> a.cookie.secure.None?)
  {
    var replay := LocalRewrite(bug, settings, parse).value;
    var local := parse(settings.localhostEndpoint.value).value;
    var call := CreateTab(Some(replay.url));
    var waited := AwaitAndInject(newTabId, events, InjectBugData(replay.report, newTabId, parse, jar, fault), fault);
    assert a in waited.0;
    var inj := InjectBugData(replay.report, newTabId, parse, jar, fault).value;
    assert waited.0 == inj.Trace();
    WrittenCookiesFromReport(replay.report, newTabId, parse, jar, fault, a);
    var cs := LocalCookies(bug.cookies, local);
    assert replay.report.cookies == cs;
    var i :| 0 <= i < |cs.value| && cs.value[i] == a.cookie;
    assert a.cookie == LocalCookie(bug.cookies.value[i], local);
  }
}

=== FILE: bug_report_manager.dfy ===
/** The background report store: saving with oldest-first eviction,
    newest-first listing, deletion, the export wrapper, import
    normalisation, and fetching a report from a URL through a 100-entry
    cache. Ids, the current instant and the URL parser are parameters. */
module BugReportManager {
  import opened Wrappers
  import opened Dict
  import opened Text
  import opened Records
  import opened LocalStorage

  /** The settings assumed when none are stored. */
  const Defaults: Settings :=
    Settings(Some(50), Some(true), Some(true), Some(false), Some(100), Some(50), Some(10240), Some(true), None, [])

  /** The report limit in force: that of the stored settings, or 50. */
  function LimitOf(s: Persisted): (r: Option<int>)
    ensures s.settings.None? ==> r == Some(50)
  {
    s.settings.GetOr(Defaults).maxStoredReports
  }

  /** `Bug Report - <hostname>`, which needs `url` to parse. */
  function DefaultTitle(parse: string -> Option<Url>, url: Option<string>): (r: Result<string>)
    ensures r.Ok? <==> ParseUrl(parse, url).Ok?
    ensures r.Ok? ==> r.value == "Bug Report - " + parse(url.value).value.hostname
  {
    var u :- ParseUrl(parse, url);
    Ok("Bug Report - " + u.hostname)
  }

  /** The record `saveBugReport` stores: `id`, `timestamp`, `title` and
      `description` defaults, then every key of `data` spread over them. */
  function NewReport(data: Snapshot, newId: string, now: int, parse: string -> Option<Url>): (r: Result<Snapshot>)
    ensures r.Ok? <==> Filled(data.title) || ParseUrl(parse, data.url).Ok?
    ensures r.Ok? ==>
      && r.value.id == (if data.id.Some? then data.id else Some(newId))
      && r.value.timestamp == (if data.timestamp.Some? then data.timestamp else Some(now))
      && r.value.title == (if data.title.Some? then data.title else Some("Bug Report - " + parse(data.url.value).value.hostname))
      && r.value.description == (if data.description.Some? then data.description else Some(""))
      && r.value.url == data.url && r.value.userAgent == data.userAgent
      && r.value.viewport == data.viewport
      && r.value.localStorage == data.localStorage && r.value.sessionStorage == data.sessionStorage
      && r.value.cookies == data.cookies && r.value.consoleLog == data.consoleLog
      && r.value.networkRequests == data.networkRequests && r.value.screenshot == data.screenshot
      && KeySet(r.value.extra) == KeySet(data.extra)
    ensures r.Ok? && Keyed(data.extra) ==> r.value.extra == data.extra
  {
    var title :- if Filled(data.title) then Ok(data.title.value) else DefaultTitle(parse, data.url);
    var base := EmptySnapshot.(id := Some(newId), timestamp := Some(now), title := Some(title),
                               description := Some(OrText(data.description, "")));
    if Keyed(data.extra) then
      MergeFresh([], data.extra);
      Ok(OverlaySnapshot(base, data))
    else
      Ok(OverlaySnapshot(base, data))
  }

  /** `saveBugReport(data)`: store the new report under `newId`, then evict
      the oldest reports beyond the limit. Only `bugReports` is written. */
  function Save(s: Persisted, data: Snapshot, newId: string, now: int, parse: string -> Option<Url>): (r: (Persisted, Result<Snapshot>))
    ensures r.1 == NewReport(data, newId, now, parse)
    ensures r.1.Err? ==> r.0 == s
    ensures r.1.Ok? ==> r.0.settings == s.settings && r.0.bugReportCache == s.bugReportCache
    ensures r.1.Ok? ==> Reports(r.0) == Store(Reports(s), newId, r.1.value, LimitOf(s))
    ensures r.1.Ok? && Valid(s) ==> Valid(r.0)
    ensures r.1.Ok? && Valid(s) && LimitOf(s).Some? ==>
      |Reports(r.0)| <= if LimitOf(s).value < 0 then 0 else LimitOf(s).value
    ensures r.1.Ok? && (LimitOf(s).None? || |Set(Reports(s), newId, r.1.value)| <= LimitOf(s).value) ==>
      && Get(Reports(r.0), newId) == Some(r.1.value)
      && forall k :: k != newId ==> Get(Reports(r.0), k) == Get(Reports(s), k)
  {
    match NewReport(data, newId, now, parse)
    case Err(m) => (s, Err(m))
    case Ok(report) =>
      var stored := Store(Reports(s), newId, report, LimitOf(s));
      (s.(bugReports := Some(stored)), Ok(report))
  }

  /** `getBugReports()`: every stored report, newest first. */
  function List(s: Persisted): (r: seq<Snapshot>)
    ensures multiset(r) == multiset(ValuesOf(Reports(s)))
    ensures forall i, j :: 0 <= i < j < |r| ==> TimeOf(r[i]) >= TimeOf(r[j])
  {
    var newestFirst := (x: Snapshot) => -TimeOf(x);
    SortBy(ValuesOf(Reports(s)), newestFirst)
  }

  /** `deleteBugReport(id)`: only `id` goes; an unknown id changes no report. */
  function DeleteReport(s: Persisted, id: string): (r: Persisted)
    ensures r.settings == s.settings && r.bugReportCache == s.bugReportCache
    ensures Get(Reports(r), id).None?
    ensures forall k :: k != id ==> Get(Reports(r), k) == Get(Reports(s), k)
    ensures id !in KeySet(Reports(s)) ==> Reports(r) == Reports(s)
    ensures Valid(s) ==> Valid(r)
  {
    s.(bugReports := Some(Delete(Reports(s), id)))
  }

  /** `deleteAllBugReports()`: the report map becomes empty. */
  function DeleteAllReports(s: Persisted): (r: Persisted)
    ensures r.settings == s.settings && r.bugReportCache == s.bugReportCache
    ensures Reports(r) == [] && r.bugReports.Some?
    ensures Valid(s) ==> Valid(r)
  {
    s.(bugReports := Some([]))
  }

  // ----- export -----

  datatype ExportFile = ExportFile(version: string, exportedAt: int, report: Snapshot)

  /** What is handed to the download: the payload, and the host name that
      goes into the file name. */
  datatype ExportPlan = ExportPlan(payload: ExportFile, domain: string)

  const NotFound: string := "Bug report not found"

  /** `exportBugReport(id)` up to the download. */
  function Export(s: Persisted, id: string, now: int, parse: string -> Option<Url>): (r: Result<ExportPlan>)
    ensures Get(Reports(s), id).None? ==> r == Err(NotFound)
    ensures Get(Reports(s), id).Some? ==> (r.Ok? <==> ParseUrl(parse, Get(Reports(s), id).value.url).Ok?)
    ensures r.Ok? ==> Get(Reports(s), id) == Some(r.value.payload.report)
    ensures r.Ok? ==> r.value.payload.version == "1.0.0" && r.value.payload.exportedAt == now
    ensures r.Ok? ==> r.value.domain == parse(r.value.payload.report.url.value).value.hostname
  {
    match Get(Reports(s), id)
    case None => Err(NotFound)
    case Some(report) =>
      var u :- ParseUrl(parse, report.url);
      Ok(ExportPlan(ExportFile("1.0.0", now, report), u.hostname))
  }

  /** The exported file read back as a JSON document. */
  function ExportDocument(f: ExportFile): Document {
    Document(Some(f.report), EmptySnapshot)
  }

  // ----- import -----

  const MissingFields: string := "Invalid bug report format: missing required fields"

  /** The answer of `importBugReport`. */
  datatype Receipt = Receipt(id: string, imported: bool)

  /** The record `importBugReport` stores: twelve listed keys with their
      defaults; every other key of `data`, the viewport included, is dropped. */
  function Normalize(data: Snapshot, reportId: string, parse: string -> Option<Url>): (r: Result<Snapshot>)
    ensures r.Ok? <==> Filled(data.title) || ParseUrl(parse, data.url).Ok?
    ensures r.Ok? ==>
      && r.value.id == Some(reportId) && r.value.timestamp == data.timestamp
      && r.value.title == Some(if Filled(data.title) then data.title.value else "Bug Report - " + parse(data.url.value).value.hostname)
      && r.value.description == Some(OrText(data.description, ""))
      && r.value.url == data.url
      && r.value.userAgent == Some(OrText(data.userAgent, "Unknown"))
      && r.value.viewport.None? && r.value.extra == []
      && r.value.localStorage == Some(data.localStorage.GetOr([]))
      && r.value.sessionStorage == Some(data.sessionStorage.GetOr([]))
      && r.value.cookies == Some(data.cookies.GetOr([]))
      && r.value.consoleLog == Some(data.consoleLog.GetOr([]))
      && r.value.networkRequests == Some(data.networkRequests.GetOr([]))
      && r.value.screenshot == (if Filled(data.screenshot) then data.screenshot else None)
  {
    var title :- if Filled(data.title) then Ok(data.title.value) else DefaultTitle(parse, data.url);
    Ok(Snapshot(
      Some(reportId), data.timestamp, Some(title), Some(OrText(data.description, "")), data.url,
      Some(OrText(data.userAgent, "Unknown")), None,
      Some(data.localStorage.GetOr([])), Some(data.sessionStorage.GetOr([])),
      Some(data.cookies.GetOr([])), Some(data.consoleLog.GetOr([])), Some(data.networkRequests.GetOr([])),
      if Filled(data.screenshot) then data.screenshot else None,
      []))
  }

  /** `importBugReport(data)`: validate, normalise, store under the supplied
      id (overwriting) or `genId`, then evict beyond the limit. */
  function Import(s: Persisted, data: Snapshot, genId: string, parse: string -> Option<Url>): (r: (Persisted, Result<Receipt>))
    ensures !Filled(data.url) || data.timestamp.None? ==> r == (s, Err(MissingFields))
    ensures r.1.Ok? <==> Filled(data.url) && data.timestamp.Some? && Normalize(data, OrText(data.id, genId), parse).Ok?
    ensures r.1.Err? ==> r.0 == s
    ensures r.1.Ok? ==> r.1.value == Receipt(OrText(data.id, genId), true)
    ensures r.1.Ok? ==> r.0.settings == s.settings && r.0.bugReportCache == s.bugReportCache
    ensures r.1.Ok? ==>
      Reports(r.0) == Store(Reports(s), r.1.value.id, Normalize(data, r.1.value.id, parse).value, LimitOf(s))
    ensures r.1.Ok? && Valid(s) ==> Valid(r.0)
  {
    if !Filled(data.url) || data.timestamp.None? then
      (s, Err(MissingFields))
    else
      var reportId := OrText(data.id, genId);
      match Normalize(data, reportId, parse)
      case Err(m) => (s, Err(m))
      case Ok(report) =>
        var stored := Store(Reports(s), reportId, report, LimitOf(s));
        (s.(bugReports := Some(stored)), Ok(Receipt(reportId, true)))
  }

  /** Import reports success even for a report its own eviction removes: an
      import older than every stored report into a full store is dropped. */
  lemma ImportMayEvictItself(s: Persisted, data: Snapshot, genId: string, parse: string -> Option<Url>)
    requires Valid(s)
    requires Filled(data.url) && data.timestamp.Some? && Filled(data.title)
    requires OrText(data.id, genId) !in KeySet(Reports(s))
    requires LimitOf(s).Some? && 0 < LimitOf(s).value <= |Reports(s)|
    requires forall e :: e in Reports(s) ==> data.timestamp.value < TimeOf(e.val)
    ensures Import(s, data, genId, parse).1 == Ok(Receipt(OrText(data.id, genId), true))
    ensures OrText(data.id, genId) !in KeySet(Reports(Import(s, data, genId, parse).0))
  {
    var id := OrText(data.id, genId);
    var report := Normalize(data, id, parse).value;
    var before := Set(Reports(s), id, report);
    var after := Reports(Import(s, data, genId, parse).0);
    assert before == Reports(s) + [Entry(id, report)];
    forall f | f in before && f != Entry(id, report)
      ensures TimeOf(report) < TimeOf(f.val)
    {
      assert f in Reports(s);
    }
    EvictDropsOldest(before, LimitOf(s), Entry(id, report));
  }

  // ----- fetching a report from a URL -----

  const CacheLimit: nat := 100
  const Unreachable: string := "无法访问该URL，请检查网络连接"
  const NotJson: string := "文件不是有效的JSON格式"
  const NotAReport: string := "不是有效的Bug报告格式"

  /** The body of a response read with `response.json()`. */
  datatype JsonBody = Parsed(doc: Document) | Unparsable(error: JsError)

  /** What `fetch(url)` did: rejected, or resolved with a response. */
  datatype FetchOutcome =
    | Rejected(error: JsError)
    | Responded(ok: bool, status: int, statusText: string, body: JsonBody)

  /** The translation of the error the catch block receives. */
  function FetchError(e: JsError): (r: string)
    ensures e.kind == TypeError && Contains(e.message, "fetch") ==> r == Unreachable
    ensures e.kind == SyntaxError ==> r == NotJson
    ensures e.kind == PlainError || (e.kind == TypeError && !Contains(e.message, "fetch")) ==> r == e.message
  {
    if e.kind == TypeError && Contains(e.message, "fetch") then Unreachable
    else if e.kind == SyntaxError then NotJson
    else e.message
  }

  /** Format detection: an exported file is unwrapped, a bare report needs
      a `url` and a `timestamp`, anything else is refused. */
  function Unwrap(doc: Document): (r: Result<Snapshot>)
    ensures doc.report.Some? ==> r == Ok(doc.report.value)
    ensures doc.report.None? ==>
      (r.Ok? <==> Filled(doc.body.url) && doc.body.timestamp.Some?) && (r.Ok? ==> r.value == doc.body)
    ensures r.Err? ==> r.message == NotAReport
  {
    if doc.report.Some? then Ok(doc.report.value)
    else if Filled(doc.body.url) && doc.body.timestamp.Some? then Ok(doc.body)
    else Err(NotAReport)
  }

  /** An exported file fetched back yields the report that was exported. */
  lemma ExportThenUnwrap(s: Persisted, id: string, now: int, parse: string -> Option<Url>)
    requires Export(s, id, now, parse).Ok?
    ensures Unwrap(ExportDocument(Export(s, id, now, parse).value.payload)) == Ok(Get(Reports(s), id).value)
  {
  }

  /** Keep at most 100 cache entries, dropping the least recently fetched. */
  function EvictCache(cache: Dict<CacheEntry>): (r: Dict<CacheEntry>)
    ensures forall e :: e in r ==> e in cache
    ensures Keyed(cache) ==> Keyed(r) && |r| <= CacheLimit
    ensures |cache| <= CacheLimit ==> r == cache
    ensures Keyed(cache) && |cache| > CacheLimit ==> |r| == CacheLimit
    ensures Keyed(cache) ==>
      forall e, f :: e in cache && e !in r && f in r ==> e.val.fetchedAt <= f.val.fetchedAt
  {
    var fetched := (c: CacheEntry) => c.fetchedAt;
    if |cache| > CacheLimit then RemoveSmallest(cache, |cache| - CacheLimit, fetched) else cache
  }

  /** `fetchBugReportFromUrl(url)`: a cached report is returned as it is;
      otherwise the fetched document is detected, cached at `now` and
      returned. Only `bugReportCache` is written, and only on success. */
  function Fetch(s: Persisted, url: string, outcome: FetchOutcome, now: int): (r: (Persisted, Result<Snapshot>))
    ensures Get(Cache(s), url).Some? ==> r == (s, Ok(Get(Cache(s), url).value.data))
    ensures r.1.Err? ==> r.0 == s
    ensures r.0.bugReports == s.bugReports && r.0.settings == s.settings
    ensures Get(Cache(s), url).None? ==> match outcome
      case Rejected(e) => r.1 == Err(FetchError(e))
      case Responded(ok, status, statusText, body) =>
        if !ok then r.1 == Err("HTTP " + IntToString(status) + ": " + statusText)
        else match body
          case Unparsable(e) => r.1 == Err(FetchError(e))
          case Parsed(doc) => r.1 == Unwrap(doc)
    ensures Get(Cache(s), url).None? && r.1.Ok? ==>
      Cache(r.0) == EvictCache(Set(Cache(s), url, CacheEntry(r.1.value, now)))
    ensures Valid(s) ==> Valid(r.0)
    ensures Valid(s) && Get(Cache(s), url).None? && r.1.Ok? ==>
      |Cache(r.0)| == if |Cache(s)| < CacheLimit then |Cache(s)| + 1 else CacheLimit
  {
    match Get(Cache(s), url)
    case Some(hit) => (s, Ok(hit.data))
    case None =>
      var fetched: Result<Snapshot> :=
        match outcome
        case Rejected(e) => Err(FetchError(e))
        case Responded(ok, status, statusText, body) =>
          if !ok then Err(FetchError(JsError(PlainError, "HTTP " + IntToString(status) + ": " + statusText)))
          else match body
            case Unparsable(e) => Err(FetchError(e))
            case Parsed(doc) => Unwrap(doc);
      match fetched
      case Err(m) => (s, Err(m))
      case Ok(data) =>
        (s.(bugReportCache := Some(EvictCache(Set(Cache(s), url, CacheEntry(data, now))))), Ok(data))
  }
}

=== FILE: console_interceptor.dfy ===
/** The page-side console hook: the depth-bounded serializer for logged
    objects, the fallback stringification, the message built from the
    arguments, and the re-entrancy guard around each wrapped console call.

    Page values live in a heap of objects addressed by ids. The objects a
    serialization has visited are threaded through it as a set (the
    `WeakSet`), left to right, so siblings share it. */
module ConsoleInterceptor {
  import opened Wrappers
  import opened Dict
  import opened Text
  import opened Records

  type ObjId = nat

  /** Values whose `typeof` is not `'object'` (and `null`, which is
      `'object'`): functions carry their source text, symbols their
      description. */
  datatype Prim =
    | Undefined
    | Null
    | Bool(b: bool)
    | Num(n: int)
    | Str(s: string)
    | Func(source: string)
    | Symbol(description: string)
    | BigInt(i: int)

  datatype JsVal = Prim(p: Prim) | Ref(id: ObjId)

  /** A property read: its value, or a getter that throws. */
  datatype Slot = Val(v: JsVal) | Throwing

  /** Arrays and plain objects are walked; an `Error` contributes three fields. */
  datatype ObjKind = Plain | Array | Error(name: JsVal, message: JsVal, stack: JsVal)

  /** A heap object: its `Object.prototype.toString` tag, whether it is a
      host object (`window`, `document`, `console`, a DOM node or window),
      its kind, and the enumerable properties `for…in` visits, in order. */
  datatype HeapObj = HeapObj(tag: string, host: bool, kind: ObjKind, props: Dict<Slot>)

  type Heap = map<ObjId, HeapObj>

  /** `isDangerousObject(value)`. */
  predicate Dangerous(o: HeapObj) {
    || o.host
    || o.tag == "[object Window]" || o.tag == "[object global]" || o.tag == "[object HTMLDocument]"
    || Contains(o.tag, "Vue") || Contains(o.tag, "Proxy")
    || o.tag == "[object WeakMap]" || o.tag == "[object WeakSet]" || o.tag == "[object Function]"
  }

  predicate SlotIn(h: Heap, s: Slot) {
    s.Val? && s.v.Ref? ==> s.v.id in h
  }

  /** Every reference stored in the heap points into it, and `for…in`
      never yields a key twice. */
  predicate Closed(h: Heap) {
    && (forall id, i | id in h && 0 <= i < |h[id].props| :: SlotIn(h, h[id].props[i].val))
    && (forall id | id in h :: Keyed(h[id].props))
  }

  /** What `safeSerialize` builds: a value passed through as it is, or a
      new array or object of serialized properties. */
  datatype Out = Raw(v: JsVal) | OutArray(items: Dict<Out>) | OutObject(fields: Dict<Out>)

  /** A marker string in the output. */
  function Sentinel(s: string): Out {
    Raw(Prim(Str(s)))
  }

  const DepthLimit: nat := 3
  const MaxDepth: string := "[MaxDepth]"
  const Circular: string := "[Circular]"

  function Unserializable(tag: string): string {
    "[Unserializable:" + tag + "]"
  }

  function ErrorExtracting(key: string): string {
    "[Error extracting " + key + "]"
  }

  /** The object written for an `Error`: its three fields, not serialized. */
  function ErrorOut(name: JsVal, message: JsVal, stack: JsVal): Out {
    OutObject([Entry("name", Raw(name)), Entry("message", Raw(message)), Entry("stack", Raw(stack))])
  }

  /** The output nests at most `n` arrays or objects deep. */
  predicate HeightAtMost(o: Out, n: nat) {
    match o
    case Raw(_) => true
    case OutArray(items) => n > 0 && forall i :: 0 <= i < |items| ==> HeightAtMost(items[i].val, n - 1)
    case OutObject(fields) => n > 0 && forall i :: 0 <= i < |fields| ==> HeightAtMost(fields[i].val, n - 1)
  }

  /** The nesting left to a value serialized at `depth`. */
  function Budget(depth: nat): nat {
    if depth > DepthLimit then 0 else DepthLimit + 1 - depth
  }

  /** `safeSerialize(v, depth, 3, seen)`: the output and the visited set
      afterwards. */
  function Serialize(h: Heap, v: JsVal, depth: nat, seen: set<ObjId>): (r: (Out, set<ObjId>))
    requires Closed(h) && (v.Ref? ==> v.id in h)
    ensures seen <= r.1 && r.1 - seen <= h.Keys
    ensures depth > DepthLimit ==> r == (Sentinel(MaxDepth), seen)
    ensures depth <= DepthLimit && v.Prim? ==> r == (Raw(v), seen)
    ensures depth <= DepthLimit && v.Ref? && v.id in seen ==> r == (Sentinel(Circular), seen)
    ensures depth <= DepthLimit && v.Ref? && v.id !in seen && Dangerous(h[v.id]) ==>
      r == (Sentinel(Unserializable(h[v.id].tag)), seen)
    ensures depth <= DepthLimit && v.Ref? && v.id !in seen && !Dangerous(h[v.id]) ==>
      && v.id in r.1
      && (h[v.id].kind.Error? ==>
            r == (ErrorOut(h[v.id].kind.name, h[v.id].kind.message, h[v.id].kind.stack), seen + {v.id}))
      && (h[v.id].kind.Array? ==> r.0.OutArray? && KeysOf(r.0.items) == KeysOf(h[v.id].props))
      && (h[v.id].kind.Plain? ==> r.0.OutObject? && KeysOf(r.0.fields) == KeysOf(h[v.id].props))
    ensures HeightAtMost(r.0, Budget(depth))
    decreases Budget(depth), 1, 0
  {
    if depth > DepthLimit then (Sentinel(MaxDepth), seen)
    else match v
      case Prim(_) => (Raw(v), seen)
      case Ref(id) =>
        if id in seen then (Sentinel(Circular), seen)
        else if Dangerous(h[id]) then (Sentinel(Unserializable(h[id].tag)), seen)
        else
          var seen' := seen + {id};
          match h[id].kind
          case Error(name, message, stack) => (ErrorOut(name, message, stack), seen')
          case Array =>
            var walked := SerializeProps(h, h[id].props, depth, seen');
            (OutArray(walked.0), walked.1)
          case Plain =>
            var walked := SerializeProps(h, h[id].props, depth, seen');
            (OutObject(walked.0), walked.1)
  }

  /** One property of the `for…in` loop: its value serialized at
      `depth + 1`, or the marker when reading it throws. */
  function SerializeSlot(h: Heap, key: string, slot: Slot, depth: nat, seen: set<ObjId>): (r: (Out, set<ObjId>))
    requires Closed(h) && depth <= DepthLimit && SlotIn(h, slot)
    ensures slot.Throwing? ==> r == (Sentinel(ErrorExtracting(key)), seen)
    ensures slot.Val? ==> r == Serialize(h, slot.v, depth + 1, seen)
    ensures seen <= r.1 && r.1 - seen <= h.Keys
    ensures HeightAtMost(r.0, Budget(depth) - 1)
    decreases Budget(depth), 0, 0
  {
    match slot
    case Throwing => (Sentinel(ErrorExtracting(key)), seen)
    case Val(x) => Serialize(h, x, depth + 1, seen)
  }

  /** The `for…in` loop of an object at `depth`: the same keys in the same
      order, each value serialized in turn with the visited set so far. */
  function SerializeProps(h: Heap, props: Dict<Slot>, depth: nat, seen: set<ObjId>): (r: (Dict<Out>, set<ObjId>))
    requires Closed(h) && depth <= DepthLimit
    requires forall i :: 0 <= i < |props| ==> SlotIn(h, props[i].val)
    ensures |r.0| == |props|
    ensures forall i :: 0 <= i < |props| ==>
      && r.0[i].key == props[i].key
      && (props[i].val.Throwing? ==> r.0[i].val == Sentinel(ErrorExtracting(props[i].key)))
      && HeightAtMost(r.0[i].val, Budget(depth) - 1)
    ensures seen <= r.1 && r.1 - seen <= h.Keys
    decreases Budget(depth), 0, |props|
  {
    if |props| == 0 then ([], seen)
    else
      var first := SerializeSlot(h, props[0].key, props[0].val, depth, seen);
      var tail := props[1..];
      assert forall i :: 0 <= i < |tail| ==> tail[i] == props[i + 1];
      var rest := SerializeProps(h, tail, depth, first.1);
      var out := [Entry(props[0].key, first.0)] + rest.0;
      assert forall i :: 0 < i < |out| ==> out[i] == rest.0[i - 1];
      (out, rest.1)
  }

  /** The visited set after the first `n` turns of the loop. */
  function SeenBefore(h: Heap, props: Dict<Slot>, depth: nat, seen: set<ObjId>, n: nat): (r: set<ObjId>)
    requires Closed(h) && depth <= DepthLimit
    requires forall i :: 0 <= i < |props| ==> SlotIn(h, props[i].val)
    requires n <= |props|
    ensures seen <= r && r - seen <= h.Keys
    decreases n
  {
    if n == 0 then seen
    else
      var tail := props[1..];
      assert forall i :: 0 <= i < |tail| ==> tail[i] == props[i + 1];
      SeenBefore(h, tail, depth, SerializeSlot(h, props[0].key, props[0].val, depth, seen).1, n - 1)
  }

  /** Property `i` is serialized with the visited set the properties
      before it left behind, and the loop ends with the set all of them
      leave behind. */
  lemma {:induction false} SerializePropsAt(h: Heap, props: Dict<Slot>, depth: nat, seen: set<ObjId>)
    requires Closed(h) && depth <= DepthLimit
    requires forall i :: 0 <= i < |props| ==> SlotIn(h, props[i].val)
    ensures forall i :: 0 <= i < |props| ==>
      SerializeProps(h, props, depth, seen).0[i].val ==
        SerializeSlot(h, props[i].key, props[i].val, depth, SeenBefore(h, props, depth, seen, i)).0
    ensures SerializeProps(h, props, depth, seen).1 == SeenBefore(h, props, depth, seen, |props|)
    decreases |props|
  {
    if |props| > 0 {
      var tail := props[1..];
      assert forall i :: 0 <= i < |tail| ==> tail[i] == props[i + 1];
      var first := SerializeSlot(h, props[0].key, props[0].val, depth, seen);
      var rest := SerializeProps(h, tail, depth, first.1);
      var out := [Entry(props[0].key, first.0)] + rest.0;
      assert SerializeProps(h, props, depth, seen) == (out, rest.1);
      SerializePropsAt(h, tail, depth, first.1);
      forall i | 0 <= i < |props|
        ensures out[i].val ==
          SerializeSlot(h, props[i].key, props[i].val, depth, SeenBefore(h, props, depth, seen, i)).0
      {
        if i > 0 {
          assert SeenBefore(h, props, depth, seen, i) == SeenBefore(h, tail, depth, first.1, i - 1);
          assert out[i] == rest.0[i - 1] && tail[i - 1] == props[i];
        }
      }
      assert SeenBefore(h, props, depth, seen, |props|) == SeenBefore(h, tail, depth, first.1, |tail|);
    }
  }

  /** Turn `n` of the loop takes the visited set from `n` turns to `n + 1`. */
  lemma {:induction false} SeenBeforeStep(h: Heap, props: Dict<Slot>, depth: nat, seen: set<ObjId>, n: nat)
    requires Closed(h) && depth <= DepthLimit
    requires forall i :: 0 <= i < |props| ==> SlotIn(h, props[i].val)
    requires n < |props|
    ensures SeenBefore(h, props, depth, seen, n + 1) ==
      SerializeSlot(h, props[n].key, props[n].val, depth, SeenBefore(h, props, depth, seen, n)).1
    decreases n
  {
    var tail := props[1..];
    assert forall i :: 0 <= i < |tail| ==> tail[i] == props[i + 1];
    if n > 0 {
      SeenBeforeStep(h, tail, depth, SerializeSlot(h, props[0].key, props[0].val, depth, seen).1, n - 1);
    }
  }

  /** The visited set only grows along the loop. */
  lemma {:induction false} SeenGrowsAlongProps(h: Heap, props: Dict<Slot>, depth: nat, seen: set<ObjId>, i: nat, j: nat)
    requires Closed(h) && depth <= DepthLimit
    requires forall k :: 0 <= k < |props| ==> SlotIn(h, props[k].val)
    requires i <= j <= |props|
    ensures SeenBefore(h, props, depth, seen, i) <= SeenBefore(h, props, depth, seen, j)
    decreases j - i
  {
    if i < j {
      SeenGrowsAlongProps(h, props, depth, seen, i, j - 1);
      SeenBeforeStep(h, props, depth, seen, j - 1);
    }
  }

  /** Any two properties of one walk that refer to the same serializable
      object, below the depth limit: the later one is `[Circular]`, whether
      or not the object had been visited before the walk, because the
      visited set is shared between siblings. */
  lemma SharedReferenceCircular(h: Heap, props: Dict<Slot>, depth: nat, seen: set<ObjId>, i: nat, j: nat, x: ObjId)
    requires Closed(h) && depth + 1 <= DepthLimit
    requires forall k :: 0 <= k < |props| ==> SlotIn(h, props[k].val)
    requires i < j < |props|
    requires props[i].val == Val(Ref(x)) && props[j].val == Val(Ref(x))
    requires x in h && !Dangerous(h[x])
    ensures SerializeProps(h, props, depth, seen).0[j].val == Sentinel(Circular)
  {
    var later := SeenBefore(h, props, depth, seen, j);
    assert x in later by {
      var earlier := SeenBefore(h, props, depth, seen, i);
      SeenBeforeStep(h, props, depth, seen, i);
      assert x in Serialize(h, Ref(x), depth + 1, earlier).1;
      SeenGrowsAlongProps(h, props, depth, seen, i + 1, j);
    }
    assert SerializeSlot(h, props[j].key, props[j].val, depth, later).0 == Sentinel(Circular);
    SerializePropsAt(h, props, depth, seen);
  }

  /** Field `i` of a walked array or object is its property serialized one
      level deeper, with the object itself and the properties before `i`
      already visited. */
  lemma ObjectFieldAt(h: Heap, id: ObjId, depth: nat, seen: set<ObjId>, i: nat)
    requires Closed(h) && id in h && depth <= DepthLimit
    requires id !in seen && !Dangerous(h[id]) && !h[id].kind.Error?
    requires i < |h[id].props|
    ensures var props := h[id].props;
      var out := Serialize(h, Ref(id), depth, seen).0;
      var fields := if out.OutArray? then out.items else out.fields;
      && i < |fields|
      && fields[i] == Entry(props[i].key,
           SerializeSlot(h, props[i].key, props[i].val, depth, SeenBefore(h, props, depth, seen + {id}, i)).0)
  {
    SerializePropsAt(h, h[id].props, depth, seen + {id});
  }

  /** The general form of `SharedChildIsCircular`: in any heap, an array or
      object two of whose properties refer to one serializable object shows
      the later of them as `[Circular]`. */
  lemma ObjectSharedChildCircular(h: Heap, id: ObjId, depth: nat, seen: set<ObjId>, i: nat, j: nat, x: ObjId)
    requires Closed(h) && id in h && depth + 1 <= DepthLimit
    requires id !in seen && !Dangerous(h[id]) && !h[id].kind.Error?
    requires i < j < |h[id].props|
    requires h[id].props[i].val == Val(Ref(x)) && h[id].props[j].val == Val(Ref(x))
    requires !Dangerous(h[x])
    ensures var out := Serialize(h, Ref(id), depth, seen).0;
      var fields := if out.OutArray? then out.items else out.fields;
      && j < |fields|
      && fields[j] == Entry(h[id].props[j].key, Sentinel(Circular))
  {
    var props := h[id].props;
    assert SlotIn(h, props[i].val);
    ObjectFieldAt(h, id, depth, seen, j);
    SharedReferenceCircular(h, props, depth, seen + {id}, i, j, x);
    SerializePropsAt(h, props, depth, seen + {id});
  }

  /** Serializing a value from the top. */
  function SerializeTop(h: Heap, v: JsVal): (r: Out)
    requires Closed(h) && (v.Ref? ==> v.id in h)
    ensures HeightAtMost(r, DepthLimit + 1)
    ensures v.Prim? ==> r == Raw(v)
  {
    Serialize(h, v, 0, {}).0
  }

  /** The `function`, `symbol` and `bigint` tests come after the `typeof obj
      !== 'object'` return, so such values pass through unchanged and the
      three markers are never produced for them. */
  lemma NonObjectMarkersUnreachable(h: Heap, p: Prim, depth: nat, seen: set<ObjId>)
    requires Closed(h) && depth <= DepthLimit
    requires p.Func? || p.Symbol? || p.BigInt?
    ensures Serialize(h, Prim(p), depth, seen).0 == Raw(Prim(p))
    ensures Serialize(h, Prim(p), depth, seen).0 != Sentinel("[function]")
    ensures Serialize(h, Prim(p), depth, seen).0 != Sentinel("[symbol]")
  {
  }

  /** The depth test comes first: below the limit even a primitive becomes
      the marker. */
  lemma MaxDepthFirst(h: Heap, v: JsVal, seen: set<ObjId>)
    requires Closed(h) && (v.Ref? ==> v.id in h)
    ensures Serialize(h, v, DepthLimit + 1, seen).0 == Sentinel(MaxDepth)
  {
  }

  /** A plain object with two properties referring to one empty plain
      object, which refers to nothing. */
  const PlainTag: string := "[object Object]"
  const SharedChild: HeapObj := HeapObj(PlainTag, false, Plain, [])
  const SharedParent: HeapObj :=
    HeapObj(PlainTag, false, Plain, [Entry("a", Val(Ref(2))), Entry("b", Val(Ref(2)))])

  function SharedHeap(): Heap {
    map[1 := SharedParent, 2 := SharedChild]
  }

  lemma PlainTagUnnamed()
    ensures && PlainTag != "[object Window]" && PlainTag != "[object global]"
            && PlainTag != "[object HTMLDocument]" && PlainTag != "[object WeakMap]"
            && PlainTag != "[object WeakSet]" && PlainTag != "[object Function]"
  {
    assert PlainTag[8] != "[object Window]"[8];
    assert PlainTag[8] != "[object global]"[8];
    assert |PlainTag| == 15;
  }

  lemma PlainTagSafe()
    ensures !Dangerous(SharedParent) && !Dangerous(SharedChild)
  {
    MissingFirstChar(PlainTag, "Vue");
    MissingFirstChar(PlainTag, "Proxy");
    PlainTagUnnamed();
  }

  lemma SharedHeapClosed()
    ensures Closed(SharedHeap())
  {
    var props := SharedParent.props;
    assert props[1..] == [props[1]] && [props[1]][1..] == [];
    assert Keyed(props);
  }

  /** The first visit of the child serializes it and marks it seen. */
  lemma SharedChildFirst()
    ensures Closed(SharedHeap())
    ensures Serialize(SharedHeap(), Ref(2), 1, {1}).0 == OutObject([])
    ensures Serialize(SharedHeap(), Ref(2), 1, {1}).1 == {1, 2}
  {
    SharedHeapClosed();
    PlainTagSafe();
    var walked := SerializeProps(SharedHeap(), [], 1, {1, 2});
    assert walked.0 == [] && walked.1 == {1, 2};
  }

  /** Two properties referring to the same acyclic object: because the
      visited set is shared, the second one is reported as circular. */
  lemma SharedChildIsCircular()
    ensures Closed(SharedHeap())
    ensures SerializeTop(SharedHeap(), Ref(1)) ==
      OutObject([Entry("a", OutObject([])), Entry("b", Sentinel(Circular))])
  {
    SharedChildFirst();
    PlainTagSafe();
    var h := SharedHeap();
    var circ := Sentinel(Circular);
    var b := SharedParent.props[1];
    assert SharedParent.props[1..] == [b] && [b][1..] == [];
    var again := Serialize(h, Ref(2), 1, {1, 2});
    assert again.0 == circ && again.1 == {1, 2};
    var none := SerializeProps(h, [], 0, {1, 2});
    assert none.0 == [] && none.1 == {1, 2};
    var second := SerializeProps(h, [b], 0, {1, 2});
    assert second.0 == [Entry("b", circ)] && second.1 == {1, 2};
    var both := SerializeProps(h, SharedParent.props, 0, {1});
    assert both.0 == [Entry("a", OutObject([])), Entry("b", circ)];
  }

  // ----- stringification and the message -----

  const Unstringifiable: string := "[Unserializable Object]"

  /** `safeStringify(input)`, given `JSON.stringify` of the serialized value
      as `render` (`None` where it throws). */
  function SafeStringify(h: Heap, v: JsVal, render: Out -> Option<string>): (r: string)
    requires Closed(h) && (v.Ref? ==> v.id in h)
    ensures render(SerializeTop(h, v)).Some? ==> r == render(SerializeTop(h, v)).value
    ensures render(SerializeTop(h, v)).None? ==> r == Unstringifiable
  {
    match render(SerializeTop(h, v))
    case Some(text) => text
    case None => Unstringifiable
  }

  /** `String(v)` for a value that is not an object. */
  function PrimString(p: Prim): string {
    match p
    case Undefined => "undefined"
    case Null => "null"
    case Bool(b) => if b then "true" else "false"
    case Num(n) => IntToString(n)
    case Str(s) => s
    case Func(source) => source
    case Symbol(d) => "Symbol(" + d + ")"
    case BigInt(i) => IntToString(i)
  }

  /** How one argument enters the message: a `[Vue warn]` string verbatim,
      an object (or `null`) stringified, anything else through `String`. */
  function ProcessArg(h: Heap, arg: JsVal, render: Out -> Option<string>): (r: string)
    requires Closed(h) && (arg.Ref? ==> arg.id in h)
    ensures arg.Ref? || arg == Prim(Null) ==> r == SafeStringify(h, arg, render)
    ensures arg.Prim? && arg.p != Null ==> r == PrimString(arg.p)
  {
    match arg
    case Prim(Str(s)) => if StartsWith(s, "[Vue warn]") then s else PrimString(arg.p)
    case Prim(Null) => SafeStringify(h, arg, render)
    case Prim(p) => PrimString(p)
    case Ref(_) => SafeStringify(h, arg, render)
  }

  /** The `[Vue warn]` test changes nothing: `String(s)` is `s` for a string. */
  lemma StringArgVerbatim(h: Heap, s: string, render: Out -> Option<string>)
    requires Closed(h)
    ensures ProcessArg(h, Prim(Str(s)), render) == s
  {
  }

  predicate ArgsIn(h: Heap, args: seq<JsVal>) {
    forall i :: 0 <= i < |args| ==> (args[i].Ref? ==> args[i].id in h)
  }

  /** `args.map(processArg)`. */
  function Processed(h: Heap, args: seq<JsVal>, render: Out -> Option<string>): (r: seq<string>)
    requires Closed(h) && ArgsIn(h, args)
    ensures |r| == |args|
    ensures forall i :: 0 <= i < |args| ==> r[i] == ProcessArg(h, args[i], render)
  {
    seq(|args|, i requires 0 <= i < |args| => ProcessArg(h, args[i], render))
  }

  /** The arguments after the first are in the heap too, and process to
      the rest of the processed list. */
  lemma ProcessedTail(h: Heap, args: seq<JsVal>, render: Out -> Option<string>)
    requires Closed(h) && ArgsIn(h, args) && |args| >= 1
    ensures ArgsIn(h, args[1..])
    ensures Processed(h, args, render)[1..] == Processed(h, args[1..], render)
  {
    forall i | 0 <= i < |args[1..]| ensures args[1..][i].Ref? ==> args[1..][i].id in h {
      assert args[1..][i] == args[i + 1];
    }
  }

  /** `processed.join(' ')`. */
  function Message(h: Heap, args: seq<JsVal>, render: Out -> Option<string>): (r: string)
    requires Closed(h) && ArgsIn(h, args)
    ensures |args| == 0 ==> r == ""
    ensures |args| == 1 ==> r == ProcessArg(h, args[0], render)
    ensures |args| >= 2 ==> ArgsIn(h, args[1..]) && r == ProcessArg(h, args[0], render) + " " + Message(h, args[1..], render)
    decreases |args|
  {
    if |args| >= 1 then
      ProcessedTail(h, args, render);
      Join(Processed(h, args, render), " ")
    else
      Join(Processed(h, args, render), " ")
  }

  // ----- the wrapped console call -----

  /** One call of a wrapped console method: its level, arguments, the
      instant, and whether the original method throws. */
  datatype Call = Call(level: string, args: seq<JsVal>, now: int, originalThrows: bool)

  /** What a call does: whether it reached the original method and the entry it dispatched. */
  datatype Effect = Effect(calledThrough: bool, dispatched: Option<LogEntry>)

  /** A wrapped call against the `_isLogging` flag: the flag afterwards and
      the call's effect. While the flag is set the call returns at once;
      otherwise the flag is set, the original runs, the entry is dispatched
      unless the original threw, and `finally` clears the flag. */
  function Wrapped(isLogging: bool, h: Heap, c: Call, render: Out -> Option<string>): (r: (bool, Effect))
    requires Closed(h) && ArgsIn(h, c.args)
    ensures isLogging ==> r == (true, Effect(false, None))
    ensures !isLogging ==> !r.0 && r.1.calledThrough
    ensures !isLogging ==> (r.1.dispatched.Some? <==> !c.originalThrows)
    ensures r.1.dispatched.Some? ==>
      r.1.dispatched.value == LogEntry(c.level, c.now, Message(h, c.args, render))
  {
    if isLogging then (true, Effect(false, None))
    else if c.originalThrows then (false, Effect(true, None))
    else (false, Effect(true, Some(LogEntry(c.level, c.now, Message(h, c.args, render)))))
  }

  predicate CallsIn(h: Heap, calls: seq<Call>) {
    forall i :: 0 <= i < |calls| ==> ArgsIn(h, calls[i].args)
  }

  /** A run of calls from a given flag: the flag afterwards and the
      entries dispatched, in order. */
  function Run(isLogging: bool, h: Heap, calls: seq<Call>, render: Out -> Option<string>): (bool, seq<LogEntry>)
    requires Closed(h) && CallsIn(h, calls)
    decreases |calls|
  {
    if |calls| == 0 then (isLogging, [])
    else
      var step := Wrapped(isLogging, h, calls[0], render);
      var rest := Run(step.0, h, calls[1..], render);
      (rest.0, (if step.1.dispatched.Some? then [step.1.dispatched.value] else []) + rest.1)
  }

  /** Calls made while a capture is in progress (from the original method
      or a getter the serializer reads) dispatch nothing and leave the flag set. */
  lemma {:induction false} NestedCallsDropped(h: Heap, calls: seq<Call>, render: Out -> Option<string>)
    requires Closed(h) && CallsIn(h, calls)
    ensures Run(true, h, calls, render).0 && Run(true, h, calls, render).1 == []
    decreases |calls|
  {
    if |calls| > 0 {
      var tail := calls[1..];
      assert forall i :: 0 <= i < |tail| ==> tail[i] == calls[i + 1];
      NestedCallsDropped(h, tail, render);
      assert Wrapped(true, h, calls[0], render) == (true, Effect(false, None));
    }
  }

  /** Top-level calls leave the flag clear after each one. */
  lemma {:induction false} TopLevelFlagClear(h: Heap, calls: seq<Call>, render: Out -> Option<string>)
    requires Closed(h) && CallsIn(h, calls)
    ensures !Run(false, h, calls, render).0
    decreases |calls|
  {
    if |calls| > 0 {
      var tail := calls[1..];
      assert forall i :: 0 <= i < |tail| ==> tail[i] == calls[i + 1];
      TopLevelFlagClear(h, tail, render);
    }
  }

  /** When no original method throws, each top-level call dispatches
      exactly its own entry, in call order. */
  lemma {:induction false} TopLevelCallsDispatch(h: Heap, calls: seq<Call>, render: Out -> Option<string>)
    requires Closed(h) && CallsIn(h, calls)
    requires forall i :: 0 <= i < |calls| ==> !calls[i].originalThrows
    ensures |Run(false, h, calls, render).1| == |calls|
    ensures forall i :: 0 <= i < |calls| ==>
      Run(false, h, calls, render).1[i] == LogEntry(calls[i].level, calls[i].now, Message(h, calls[i].args, render))
    decreases |calls|
  {
    if |calls| > 0 {
      var tail := calls[1..];
      assert forall i :: 0 <= i < |tail| ==> tail[i] == calls[i + 1];
      TopLevelCallsDispatch(h, tail, render);
      var first := LogEntry(calls[0].level, calls[0].now, Message(h, calls[0].args, render));
      var rest := Run(false, h, tail, render).1;
      assert Run(false, h, calls, render).1 == [first] + rest;
    }
  }
}

=== FILE: content_script.dfy ===
/** The isolated-world content script: the bounded console buffer with
    its filter for the extension's own messages, the answer to the
    background's log request, and the restoration of the page's two
    storage areas. */
module ContentScript {
  import opened Wrappers
  import opened Dict
  import opened Text
  import opened Records

  // ----- the console buffer -----

  const MaxLogEntries: nat := 100

  /** Messages the extension writes itself. */
  const ExtensionPatterns: seq<string> := [
    "Bug Reporter", "BugReporter", "bugReporter", "Chrome Bug Reporter", "Content Script Loaded",
    "Error accessing localStorage", "Error accessing sessionStorage", "Error clearing storage",
    "Error setting localStorage item", "Error setting sessionStorage item", "Storage data restored"]

  /** `isExtensionLog(message)`: the message, lower-cased, contains one of
      the patterns, lower-cased. */
  predicate IsExtensionLog(message: string) {
    exists i :: 0 <= i < |ExtensionPatterns| && Contains(ToLower(message), ToLower(ExtensionPatterns[i]))
  }

  /** A message that starts with one of the patterns, in any case, is the
      extension's own; this covers every message the script logs itself
      (`BugReporter: Error …`, `Bug Reporter: Storage data restored`). */
  lemma PatternPrefixFiltered(message: string, i: nat)
    requires i < |ExtensionPatterns| && StartsWith(ToLower(message), ToLower(ExtensionPatterns[i]))
    ensures IsExtensionLog(message)
  {
    var p := ToLower(ExtensionPatterns[i]);
    assert OccursAt(ToLower(message), p, 0);
  }

  /** The test lower-cases the message, so its case never matters. */
  lemma ExtensionLogIgnoresCase(message: string)
    ensures IsExtensionLog(ToLower(message)) <==> IsExtensionLog(message)
  {
    ToLowerIdempotent(message);
  }

  /** The last `n` elements of `s`, all of it when shorter. */
  function Last<T>(s: seq<T>, n: nat): (r: seq<T>)
    ensures |r| == if |s| <= n then |s| else n
    ensures forall i :: 0 <= i < |r| ==> r[i] == s[|s| - |r| + i]
    ensures forall x :: x in r ==> x in s
  {
    if |s| <= n then s else s[|s| - n..]
  }

  /** `addLogEntry(logEntry)`: the extension's own messages are dropped;
      any other entry is appended and the buffer cut to its last 100. */
  function AddLogEntry(buffer: seq<LogEntry>, entry: LogEntry): (r: seq<LogEntry>)
    ensures IsExtensionLog(entry.message) ==> r == buffer
    ensures !IsExtensionLog(entry.message) ==> r == Last(buffer + [entry], MaxLogEntries)
    ensures |buffer| <= MaxLogEntries ==> |r| <= MaxLogEntries
    ensures !IsExtensionLog(entry.message) ==> |r| > 0 && r[|r| - 1] == entry
  {
    if IsExtensionLog(entry.message) then buffer
    else
      var grown := buffer + [entry];
      if |grown| > MaxLogEntries then grown[|grown| - MaxLogEntries..] else grown
  }

  /** The entries the filter lets through, in arrival order. */
  function Accepted(entries: seq<LogEntry>): (r: seq<LogEntry>)
    ensures |r| <= |entries|
    ensures forall e :: e in r ==> e in entries && !IsExtensionLog(e.message)
    decreases |entries|
  {
    if |entries| == 0 then []
    else
      var last := entries[|entries| - 1];
      var init := Accepted(entries[..|entries| - 1]);
      if IsExtensionLog(last.message) then init else init + [last]
  }

  /** The buffer after a run of `addLogEntry` calls from `buffer`. */
  function Replay(buffer: seq<LogEntry>, entries: seq<LogEntry>): seq<LogEntry>
    decreases |entries|
  {
    if |entries| == 0 then buffer
    else AddLogEntry(Replay(buffer, entries[..|entries| - 1]), entries[|entries| - 1])
  }

  /** Cutting to the last `n` before or after appending one element gives
      the same result. */
  lemma LastAppend<T>(s: seq<T>, x: T, n: nat)
    requires n > 0
    ensures Last(Last(s, n) + [x], n) == Last(s + [x], n)
  {
    var t := Last(s, n);
    var u := t + [x];
    var sx := s + [x];
    var a := Last(u, n);
    var b := Last(sx, n);
    assert |a| == |b|;
    forall i | 0 <= i < |a|
      ensures a[i] == b[i]
    {
      var k := |u| - |a| + i;
      assert a[i] == u[k] && b[i] == sx[|sx| - |b| + i];
      if k < |t| {
        assert u[k] == t[k] == s[|s| - |t| + k];
        assert sx[|sx| - |b| + i] == s[|s| - |t| + k];
      } else {
        assert u[k] == x && sx[|sx| - |b| + i] == x;
      }
    }
  }

  /** From an empty buffer, the buffer always holds the last 100 accepted
      entries in arrival order. */
  lemma {:induction false} ReplayKeepsLastAccepted(entries: seq<LogEntry>)
    ensures Replay([], entries) == Last(Accepted(entries), MaxLogEntries)
    decreases |entries|
  {
    if |entries| > 0 {
      var init := entries[..|entries| - 1];
      var last := entries[|entries| - 1];
      ReplayKeepsLastAccepted(init);
      if !IsExtensionLog(last.message) {
        LastAppend(Accepted(init), last, MaxLogEntries);
      }
    }
  }

  /** The buffer never holds more than 100 entries. */
  lemma ReplayBounded(entries: seq<LogEntry>)
    ensures |Replay([], entries)| <= MaxLogEntries
    ensures forall e :: e in Replay([], entries) ==> e in entries && !IsExtensionLog(e.message)
  {
    ReplayKeepsLastAccepted(entries);
  }

  /** The answer to a runtime message: the buffer for `getConsoleLog`,
      nothing for any other action. */
  function Respond(action: string, buffer: seq<LogEntry>): (r: Option<seq<LogEntry>>)
    ensures r.Some? <==> action == "getConsoleLog"
    ensures r.Some? ==> r.value == buffer
  {
    if action == "getConsoleLog" then Some(buffer) else None
  }

  // ----- restoring the storage areas -----

  /** The page's `localStorage` and `sessionStorage`. */
  datatype PageStorage = PageStorage(local: Dict<string>, session: Dict<string>)

  /** How the `try` around the two `clear()` calls went: both ran, the
      first threw (nothing cleared), or the second threw (only `local`
      cleared). */
  datatype ClearOutcome = Cleared | LocalClearThrew | SessionClearThrew

  /** The `forEach` of `setItem` calls over one area's entries; a key in
      `failing` throws and is skipped, later keys are still written. */
  function SetItems(area: Dict<string>, entries: Dict<string>, failing: set<string>): (r: Dict<string>)
    ensures Keyed(area) ==> Keyed(r)
    ensures KeySet(r) == KeySet(area) + (KeySet(entries) - failing)
    decreases |entries|
  {
    if |entries| == 0 then area
    else
      var e := entries[0];
      var written := if e.key in failing then area else Set(area, e.key, e.val);
      SetItems(written, entries[1..], failing)
  }

  /** A written key holds its given value; every other key keeps its old one. */
  lemma {:induction false} SetItemsGet(area: Dict<string>, entries: Dict<string>, failing: set<string>, k: string)
    requires Keyed(entries)
    ensures Get(SetItems(area, entries, failing), k) ==
      if k in KeySet(entries) && k !in failing then Get(entries, k) else Get(area, k)
    decreases |entries|
  {
    if |entries| > 0 {
      var e := entries[0];
      var written := if e.key in failing then area else Set(area, e.key, e.val);
      SetItemsGet(written, entries[1..], failing, k);
    }
  }

  /** With no failing key, the writes are the spread `{...area, ...entries}`. */
  lemma {:induction false} SetItemsAllWritten(area: Dict<string>, entries: Dict<string>)
    ensures SetItems(area, entries, {}) == Merge(area, entries)
    decreases |entries|
  {
    if |entries| > 0 {
      SetItemsAllWritten(Set(area, entries[0].key, entries[0].val), entries[1..]);
    }
  }

  /** `restoreStorageData(localStorageData = {}, sessionStorageData = {})`. */
  function RestoreStorageData(st: PageStorage, localData: Option<Dict<string>>, sessionData: Option<Dict<string>>,
                              clear: ClearOutcome, failLocal: set<string>, failSession: set<string>): (r: PageStorage)
    ensures KeySet(r.local) ==
      (if clear == LocalClearThrew then KeySet(st.local) else {}) + (KeySet(localData.GetOr([])) - failLocal)
    ensures KeySet(r.session) ==
      (if clear == Cleared then {} else KeySet(st.session)) + (KeySet(sessionData.GetOr([])) - failSession)
  {
    var local := if clear == LocalClearThrew then st.local else [];
    var session := if clear == Cleared then [] else st.session;
    PageStorage(SetItems(local, localData.GetOr([]), failLocal), SetItems(session, sessionData.GetOr([]), failSession))
  }

  /** When clearing and every write succeed, each area ends up exactly the
      given map. */
  lemma RestoreExact(st: PageStorage, localData: Dict<string>, sessionData: Dict<string>)
    requires Keyed(localData) && Keyed(sessionData)
    ensures RestoreStorageData(st, Some(localData), Some(sessionData), Cleared, {}, {}) ==
      PageStorage(localData, sessionData)
  {
    SetItemsAllWritten([], localData);
    SetItemsAllWritten([], sessionData);
    MergeFresh([], localData);
    MergeFresh([], sessionData);
  }

  /** Whatever fails, a key that was given and did not fail holds its given
      value, and a key that was not given keeps its value only if its area
      was not cleared. */
  lemma RestoreGet(st: PageStorage, localData: Dict<string>, sessionData: Dict<string>,
                   clear: ClearOutcome, failLocal: set<string>, failSession: set<string>, k: string)
    requires Keyed(localData) && Keyed(sessionData)
    ensures var r := RestoreStorageData(st, Some(localData), Some(sessionData), clear, failLocal, failSession);
      && Get(r.local, k) == (if k in KeySet(localData) && k !in failLocal then Get(localData, k)
                             else if clear == LocalClearThrew then Get(st.local, k) else None)
      && Get(r.session, k) == (if k in KeySet(sessionData) && k !in failSession then Get(sessionData, k)
                               else if clear == Cleared then None else Get(st.session, k))
  {
    var local := if clear == LocalClearThrew then st.local else [];
    var session := if clear == Cleared then [] else st.session;
    SetItemsGet(local, localData, failLocal, k);
    SetItemsGet(session, sessionData, failSession, k);
  }
}

=== FILE: data_collector.dfy ===
/** The snapshot a capture builds from the active tab: the URL probe,
    the cookie query and its de-duplication, the content-script and
    storage replies with their empty fallbacks, the viewport, and the
    screenshot gated by the stored settings.

    Every browser call is an input: its result, `Err` where it rejects,
    and `None` inside `Ok` where it resolves to something falsy. */
module DataCollector {
  import opened Wrappers
  import opened Dict
  import opened Records

  // ----- cookie de-duplication -----

  /** The identity of a cookie: name, domain and path (section 5.3 of
      RFC 6265 keys the cookie store the same way). */
  datatype CookieId = CookieId(name: string, domain: string, path: string)

  function Key(c: Cookie): CookieId {
    CookieId(c.name, c.domain, c.path)
  }

  /** Some cookie of `s` has identity `k`. */
  predicate HasKey(s: seq<Cookie>, k: CookieId) {
    exists i :: 0 <= i < |s| && Key(s[i]) == k
  }

  lemma HasKeySnoc(s: seq<Cookie>, c: Cookie, k: CookieId)
    ensures HasKey(s + [c], k) <==> HasKey(s, k) || Key(c) == k
  {
    var t := s + [c];
    if HasKey(t, k) {
      var i :| 0 <= i < |t| && Key(t[i]) == k;
      if i < |s| {
        assert Key(s[i]) == k;
      }
    }
    if HasKey(s, k) {
      var i :| 0 <= i < |s| && Key(s[i]) == k;
      assert Key(t[i]) == k;
    }
    if Key(c) == k {
      assert Key(t[|s|]) == k;
    }
  }

  lemma MissingKeyAt(s: seq<Cookie>, k: CookieId, i: nat)
    requires !HasKey(s, k) && i < |s|
    ensures Key(s[i]) != k
  {
  }

  lemma HasKeyTail(s: seq<Cookie>, k: CookieId)
    requires HasKey(s, k) && |s| > 0 && Key(s[0]) != k
    ensures HasKey(s[1..], k)
  {
    var i :| 0 <= i < |s| && Key(s[i]) == k;
    assert Key(s[1..][i - 1]) == k;
  }

  /** The first cookie of `s` with identity `k`, as `findIndex` finds it. */
  function FirstWith(s: seq<Cookie>, k: CookieId): (r: Cookie)
    requires HasKey(s, k)
    ensures r in s && Key(r) == k
    decreases |s|
  {
    if Key(s[0]) == k then s[0]
    else
      HasKeyTail(s, k);
      FirstWith(s[1..], k)
  }

  /** The first occurrence in `a + b` of an identity `a` has is the one in `a`. */
  lemma {:induction false} FirstWithPrefix(a: seq<Cookie>, b: seq<Cookie>, k: CookieId)
    requires HasKey(a, k)
    ensures HasKey(a + b, k) && FirstWith(a + b, k) == FirstWith(a, k)
    decreases |a|
  {
    var i :| 0 <= i < |a| && Key(a[i]) == k;
    assert Key((a + b)[i]) == k;
    if Key(a[0]) != k {
      HasKeyTail(a, k);
      assert (a + b)[1..] == a[1..] + b;
      FirstWithPrefix(a[1..], b, k);
    }
  }

  /** A cookie whose identity is new is the first of its identity. */
  lemma {:induction false} FirstWithFresh(s: seq<Cookie>, c: Cookie)
    requires !HasKey(s, Key(c))
    ensures HasKey(s + [c], Key(c)) && FirstWith(s + [c], Key(c)) == c
    decreases |s|
  {
    HasKeySnoc(s, c, Key(c));
    if |s| > 0 {
      assert Key(s[0]) != Key(c);
      assert (s + [c])[1..] == s[1..] + [c];
      FirstWithFresh(s[1..], c);
    }
  }

  /** `all.filter((c, i, self) => i === self.findIndex(same identity))`:
      the first cookie of each identity, in order. */
  function Dedup(s: seq<Cookie>): (r: seq<Cookie>)
    ensures forall d :: d in r ==> d in s
    ensures forall k :: HasKey(r, k) <==> HasKey(s, k)
    decreases |s|
  {
    if |s| == 0 then []
    else
      var init := s[..|s| - 1];
      var last := s[|s| - 1];
      assert s == init + [last];
      var rest := Dedup(init);
      forall k ensures HasKey(s, k) <==> HasKey(init, k) || Key(last) == k {
        HasKeySnoc(init, last, k);
      }
      if HasKey(init, Key(last)) then rest
      else
        forall k ensures HasKey(rest + [last], k) <==> HasKey(rest, k) || Key(last) == k {
          HasKeySnoc(rest, last, k);
        }
        rest + [last]
  }

  /** `idx` picks `r` out of `s` in order: `r[k]` sits at position
      `idx[k]` of `s`, and the positions strictly increase. */
  predicate Picks(idx: seq<int>, r: seq<Cookie>, s: seq<Cookie>) {
    && |idx| == |r|
    && (forall k :: 0 <= k < |idx| ==> 0 <= idx[k] < |s| && r[k] == s[idx[k]])
    && (forall j, k :: 0 <= j < k < |idx| ==> idx[j] < idx[k])
  }

  /** The positions of `s` that `Dedup` keeps. */
  function DedupPositions(s: seq<Cookie>): (idx: seq<int>)
    ensures Picks(idx, Dedup(s), s)
    decreases |s|
  {
    if |s| == 0 then []
    else
      var init := s[..|s| - 1];
      var rest := DedupPositions(init);
      assert s == init + [s[|s| - 1]];
      if HasKey(init, Key(s[|s| - 1])) then rest
      else rest + [|s| - 1]
  }

  /** `filter` keeps the input order: the kept cookies are a subsequence
      of the input. */
  lemma DedupInOrder(s: seq<Cookie>)
    ensures exists idx :: Picks(idx, Dedup(s), s)
  {
    var idx := DedupPositions(s);
    assert Picks(idx, Dedup(s), s);
  }

  /** No two kept cookies share an identity. */
  lemma {:induction false} DedupUnique(s: seq<Cookie>)
    ensures forall i, j :: 0 <= i < j < |Dedup(s)| ==> Key(Dedup(s)[i]) != Key(Dedup(s)[j])
    decreases |s|
  {
    if |s| > 0 {
      var init := s[..|s| - 1];
      var last := s[|s| - 1];
      var rest := Dedup(init);
      DedupUnique(init);
      if !HasKey(init, Key(last)) {
        assert !HasKey(rest, Key(last));
        var r := rest + [last];
        forall i, j | 0 <= i < j < |r|
          ensures Key(r[i]) != Key(r[j])
        {
          if j == |rest| {
            assert r[i] == rest[i];
            MissingKeyAt(rest, Key(last), i);
          }
        }
      }
    }
  }

  /** Each kept cookie is the first of its identity in the input. */
  lemma {:induction false} DedupKeepsFirst(s: seq<Cookie>)
    ensures forall d :: d in Dedup(s) ==> FirstWith(s, Key(d)) == d
    decreases |s|
  {
    if |s| > 0 {
      var init := s[..|s| - 1];
      var last := s[|s| - 1];
      assert s == init + [last];
      DedupKeepsFirst(init);
      forall d | d in Dedup(s)
        ensures FirstWith(s, Key(d)) == d
      {
        if d in Dedup(init) {
          assert HasKey(init, Key(d)) by {
            var i :| 0 <= i < |Dedup(init)| && Dedup(init)[i] == d;
            assert Key(Dedup(init)[i]) == Key(d);
          }
          FirstWithPrefix(init, [last], Key(d));
        } else {
          assert d == last && !HasKey(init, Key(last));
          FirstWithFresh(init, last);
        }
      }
    }
  }

  /** In the combined list the exact-URL cookies come first, so for an
      identity both queries return, the exact-URL cookie is the one kept. */
  lemma ExactCookiesWin(exact: seq<Cookie>, domain: seq<Cookie>, c: Cookie)
    requires c in Dedup(exact + domain) && HasKey(exact, Key(c))
    ensures c == FirstWith(exact, Key(c))
  {
    DedupKeepsFirst(exact + domain);
    FirstWithPrefix(exact, domain, Key(c));
  }

  /** `_collectCookies(pageData)`: the URL must parse and both queries
      succeed; any failure leaves no cookies. */
  function CollectCookies(url: Option<string>, parse: string -> Option<Url>,
                          exact: Result<seq<Cookie>>, domain: Result<seq<Cookie>>): (r: seq<Cookie>)
    ensures ParseUrl(parse, url).Err? || exact.Err? || domain.Err? ==> r == []
    ensures ParseUrl(parse, url).Ok? && exact.Ok? && domain.Ok? ==> r == Dedup(exact.value + domain.value)
  {
    if ParseUrl(parse, url).Err? || exact.Err? || domain.Err? then []
    else Dedup(exact.value + domain.value)
  }

  // ----- the snapshot -----

  /** What the storage script returns: both areas. */
  datatype StorageData = StorageData(local: Dict<string>, session: Dict<string>)

  /** The results of the browser calls one capture makes, in call order. */
  datatype Probes = Probes(
    settings: Result<Option<Settings>>,
    href: Result<Option<string>>,
    exactCookies: Result<seq<Cookie>>,
    domainCookies: Result<seq<Cookie>>,
    consoleReply: Result<Option<seq<LogEntry>>>,
    networkReply: Result<Option<seq<NetworkRecord>>>,
    storage: Result<Option<StorageData>>,
    viewport: Result<Option<Viewport>>,
    screenshot: Result<string>)

  const NoActiveTab: string := "No active tab found"

  /** The settings the screenshot test reads: the stored record, or `{}`
      when it is missing or cannot be read. */
  function CaptureSettings(settings: Result<Option<Settings>>): (r: Settings)
    ensures settings.Ok? && settings.value.Some? ==> r == settings.value.value
    ensures !(settings.Ok? && settings.value.Some?) ==> r == NoSettings
  {
    match settings
    case Ok(Some(s)) => s
    case _ => NoSettings
  }

  /** The URL: the in-page `location.href` when the probe yields a
      non-empty string, else the tab's URL. */
  function PageUrl(tab: Tab, href: Result<Option<string>>): (r: Option<string>)
    ensures href.Ok? && Filled(href.value) ==> r == href.value
    ensures !(href.Ok? && Filled(href.value)) ==> r == tab.url
  {
    if href.Ok? && Filled(href.value) then href.value else tab.url
  }

  /** The four page-data fields after `_collectBrowserData`. */
  datatype BrowserData = BrowserData(
    consoleLog: Option<seq<LogEntry>>, networkRequests: Option<seq<NetworkRecord>>,
    localStorage: Option<Dict<string>>, sessionStorage: Option<Dict<string>>)

  /** `_collectBrowserData`: the log and request replies default to `[]`,
      the storage result is copied in when truthy, and a rejection at any
      of the three calls empties all four fields. */
  function CollectBrowserData(p: Probes): (r: BrowserData)
    ensures p.consoleReply.Err? || p.networkReply.Err? || p.storage.Err? ==>
      r == BrowserData(Some([]), Some([]), Some([]), Some([]))
    ensures p.consoleReply.Ok? && p.networkReply.Ok? && p.storage.Ok? ==>
      && r.consoleLog == Some(p.consoleReply.value.GetOr([]))
      && r.networkRequests == Some(p.networkReply.value.GetOr([]))
      && (p.storage.value.Some? ==>
            r.localStorage == Some(p.storage.value.value.local) && r.sessionStorage == Some(p.storage.value.value.session))
      && (p.storage.value.None? ==> r.localStorage.None? && r.sessionStorage.None?)
  {
    if p.consoleReply.Err? || p.networkReply.Err? || p.storage.Err? then
      BrowserData(Some([]), Some([]), Some([]), Some([]))
    else
      var logs := Some(p.consoleReply.value.GetOr([]));
      var requests := Some(p.networkReply.value.GetOr([]));
      match p.storage.value
      case Some(data) => BrowserData(logs, requests, Some(data.local), Some(data.session))
      case None => BrowserData(logs, requests, None, None)
  }

  /** `_collectViewportInfo`: the metrics when the script yields them, `{}`
      when it rejects, and no key when it yields nothing. */
  function CollectViewport(v: Result<Option<Viewport>>): (r: Option<Viewport>)
    ensures v.Err? ==> r == Some(NoMetrics)
    ensures v.Ok? ==> r == v.value
  {
    match v
    case Err(_) => Some(NoMetrics)
    case Ok(o) => o
  }

  /** `_takeScreenshot`: taken only when `includeScreenshot` is truthy;
      `null` otherwise and when the capture fails. */
  function TakeScreenshot(settings: Settings, shot: Result<string>): (r: Option<string>)
    ensures r.Some? <==> On(settings.includeScreenshot) && shot.Ok?
    ensures r.Some? ==> r.value == shot.value
  {
    if On(settings.includeScreenshot) && shot.Ok? then Some(shot.value) else None
  }

  /** `collectPageData(tab)`, given the tab (`None` when there is none),
      the clock, the user agent, the URL parser and the call results. */
  function CollectPageData(tab: Option<Tab>, now: int, userAgent: string,
                           parse: string -> Option<Url>, p: Probes): (r: Result<Snapshot>)
    ensures tab.None? <==> r.Err?
    ensures r.Err? ==> r.message == NoActiveTab
    ensures r.Ok? ==>
      var s := r.value;
      var data := CollectBrowserData(p);
      && s.url == PageUrl(tab.value, p.href)
      && s.title == tab.value.title && s.timestamp == Some(now) && s.userAgent == Some(userAgent)
      && s.cookies == Some(CollectCookies(s.url, parse, p.exactCookies, p.domainCookies))
      && s.consoleLog == data.consoleLog && s.networkRequests == data.networkRequests
      && s.localStorage == data.localStorage && s.sessionStorage == data.sessionStorage
      && s.viewport == CollectViewport(p.viewport)
      && s.screenshot == TakeScreenshot(CaptureSettings(p.settings), p.screenshot)
      && s.id.None? && s.description.None? && s.extra == []
  {
    if tab.None? then Err(NoActiveTab)
    else
      var t := tab.value;
      var url := PageUrl(t, p.href);
      var data := CollectBrowserData(p);
      Ok(EmptySnapshot.(
        url := url, title := t.title, timestamp := Some(now), userAgent := Some(userAgent),
        cookies := Some(CollectCookies(url, parse, p.exactCookies, p.domainCookies)),
        consoleLog := data.consoleLog, networkRequests := data.networkRequests,
        localStorage := data.localStorage, sessionStorage := data.sessionStorage,
        viewport := CollectViewport(p.viewport),
        screenshot := TakeScreenshot(CaptureSettings(p.settings), p.screenshot)))
  }

  /** Settings that are missing or unreadable disable the screenshot,
      although the code's own default before reading them enables it. */
  lemma MissingSettingsNoScreenshot(tab: Tab, now: int, userAgent: string, parse: string -> Option<Url>, p: Probes)
    requires p.settings.Err? || p.settings == Ok(None)
    ensures CollectPageData(Some(tab), now, userAgent, parse, p).value.screenshot.None?
  {
  }

  /** The kept cookies never repeat an identity, and every identity either
      query returned is kept. */
  lemma CollectedCookiesUnique(tab: Tab, now: int, userAgent: string, parse: string -> Option<Url>, p: Probes)
    requires p.exactCookies.Ok? && p.domainCookies.Ok? && ParseUrl(parse, PageUrl(tab, p.href)).Ok?
    ensures var cs := CollectPageData(Some(tab), now, userAgent, parse, p).value.cookies.value;
      && (forall i, j :: 0 <= i < j < |cs| ==> Key(cs[i]) != Key(cs[j]))
      && (forall c :: c in p.exactCookies.value + p.domainCookies.value ==> HasKey(cs, Key(c)))
  {
    var all := p.exactCookies.value + p.domainCookies.value;
    DedupUnique(all);
    forall c | c in all
      ensures HasKey(Dedup(all), Key(c))
    {
      var i :| 0 <= i < |all| && all[i] == c;
      assert HasKey(all, Key(c));
    }
  }
}

=== FILE: dict.dfy ===
/** JavaScript plain objects with string keys, as the extension uses them
    for the report map, the fetch cache, storage areas and header maps.
    An object is an association list in insertion order: `Object.keys`
    follows that order, assigning to an existing key overwrites it in
    place, and `delete` removes the key. Sorting is the stable
    `Array.prototype.sort` with an integer comparator key. */
module Dict {
  import opened Wrappers

  datatype Entry<V> = Entry(key: string, val: V)

  type Dict<V> = seq<Entry<V>>

  function KeySet<V>(d: Dict<V>): set<string> {
    if |d| == 0 then {} else {d[0].key} + KeySet(d[1..])
  }

  /** The representation invariant: no key appears twice. */
  predicate Keyed<V>(d: Dict<V>) {
    |d| == 0 || (d[0].key !in KeySet(d[1..]) && Keyed(d[1..]))
  }

  lemma {:induction false} KeySetMembers<V>(d: Dict<V>, k: string)
    ensures k in KeySet(d) <==> exists i :: 0 <= i < |d| && d[i].key == k
  {
    if |d| > 0 {
      KeySetMembers(d[1..], k);
      if k in KeySet(d[1..]) {
        var i :| 0 <= i < |d[1..]| && d[1..][i].key == k;
        assert d[i + 1].key == k;
      }
      if exists i :: 0 <= i < |d| && d[i].key == k {
        var i :| 0 <= i < |d| && d[i].key == k;
        if i > 0 {
          assert d[1..][i - 1].key == k;
        }
      }
    }
  }

  lemma EntryKeyInKeySet<V>(d: Dict<V>, e: Entry<V>)
    requires e in d
    ensures e.key in KeySet(d)
  {
    var i :| 0 <= i < |d| && d[i] == e;
    KeySetMembers(d, e.key);
  }

  /** Keyed, stated over positions. */
  lemma {:induction false} KeyedIndices<V>(d: Dict<V>)
    ensures Keyed(d) <==> forall i, j :: 0 <= i < j < |d| ==> d[i].key != d[j].key
  {
    if |d| > 0 {
      var tail := d[1..];
      KeyedIndices(tail);
      KeySetMembers(tail, d[0].key);
      if Keyed(d) {
        forall i, j | 0 <= i < j < |d|
          ensures d[i].key != d[j].key
        {
          if i == 0 {
            assert tail[j - 1] == d[j];
          } else {
            assert tail[i - 1] == d[i] && tail[j - 1] == d[j];
          }
        }
      }
      if forall i, j :: 0 <= i < j < |d| ==> d[i].key != d[j].key {
        forall i, j | 0 <= i < j < |tail|
          ensures tail[i].key != tail[j].key
        {
          assert tail[i] == d[i + 1] && tail[j] == d[j + 1];
        }
      }
    }
  }

  /** In a keyed object two entries with the same key are the same entry. */
  lemma KeyedUnique<V>(d: Dict<V>, e: Entry<V>, f: Entry<V>)
    requires Keyed(d) && e in d && f in d && e.key == f.key
    ensures e == f
  {
    KeyedIndices(d);
    var i :| 0 <= i < |d| && d[i] == e;
    var j :| 0 <= j < |d| && d[j] == f;
    assert i == j;
  }

  /** Keys are distinct exactly when there are as many keys as entries. */
  lemma {:induction false} KeyedIffCard<V>(d: Dict<V>)
    ensures |KeySet(d)| <= |d|
    ensures Keyed(d) <==> |KeySet(d)| == |d|
  {
    if |d| > 0 {
      KeyedIffCard(d[1..]);
    }
  }

  lemma SameMembersSameKeys<V>(a: Dict<V>, b: Dict<V>)
    requires forall e :: e in a <==> e in b
    ensures KeySet(a) == KeySet(b)
  {
    forall k ensures k in KeySet(a) <==> k in KeySet(b) {
      KeySetMembers(a, k);
      KeySetMembers(b, k);
      if k in KeySet(a) {
        var i :| 0 <= i < |a| && a[i].key == k;
        assert a[i] in b;
        var j :| 0 <= j < |b| && b[j] == a[i];
      }
      if k in KeySet(b) {
        var i :| 0 <= i < |b| && b[i].key == k;
        assert b[i] in a;
        var j :| 0 <= j < |a| && a[j] == b[i];
      }
    }
  }

  /** `Object.keys(d)`. */
  function KeysOf<V>(d: Dict<V>): (r: seq<string>)
    ensures |r| == |d|
    ensures forall i :: 0 <= i < |d| ==> r[i] == d[i].key
  {
    seq(|d|, i requires 0 <= i < |d| => d[i].key)
  }

  lemma KeysOfMembers<V>(d: Dict<V>)
    ensures forall k :: k in KeysOf(d) <==> k in KeySet(d)
  {
    forall k ensures k in KeysOf(d) <==> k in KeySet(d) {
      KeySetMembers(d, k);
    }
  }

  /** `Object.values(d)`. */
  function ValuesOf<V>(d: Dict<V>): (r: seq<V>)
    ensures |r| == |d|
    ensures forall i :: 0 <= i < |d| ==> r[i] == d[i].val
  {
    seq(|d|, i requires 0 <= i < |d| => d[i].val)
  }

  /** `d[k]`, `None` standing for `undefined`. */
  function Get<V>(d: Dict<V>, k: string): (r: Option<V>)
    ensures r.None? <==> k !in KeySet(d)
    ensures r.Some? ==> Entry(k, r.value) in d
  {
    if |d| == 0 then None
    else if d[0].key == k then Some(d[0].val)
    else Get(d[1..], k)
  }

  /** In a keyed object an entry is present exactly when lookup finds it. */
  lemma GetIffEntry<V>(d: Dict<V>, k: string, v: V)
    requires Keyed(d)
    ensures Get(d, k) == Some(v) <==> Entry(k, v) in d
  {
    if Entry(k, v) in d {
      EntryKeyInKeySet(d, Entry(k, v));
      KeyedUnique(d, Entry(k, v), Entry(k, Get(d, k).value));
    }
  }

  /** `d[k] = v`: overwrite in place, or append a new key at the end. */
  function Set<V>(d: Dict<V>, k: string, v: V): (r: Dict<V>)
    ensures Get(r, k) == Some(v)
    ensures forall k' :: k' != k ==> Get(r, k') == Get(d, k')
    ensures KeySet(r) == KeySet(d) + {k}
    ensures |r| == if k in KeySet(d) then |d| else |d| + 1
    ensures Keyed(d) ==> Keyed(r)
    ensures k !in KeySet(d) ==> r == d + [Entry(k, v)]
    ensures forall e :: e in r ==> e in d || e == Entry(k, v)
  {
    PutMembers(d, k, v);
    PutGet(d, k, v);
    PutKeys(d, k, v);
    PutLength(d, k, v);
    PutKeyed(d, k, v);
    PutFresh(d, k, v);
    Put(d, k, v)
  }

  /** The recursion behind `Set`; its properties are the lemmas below. */
  function Put<V>(d: Dict<V>, k: string, v: V): Dict<V> {
    if |d| == 0 then [Entry(k, v)]
    else if d[0].key == k then [Entry(k, v)] + d[1..]
    else [d[0]] + Put(d[1..], k, v)
  }

  lemma {:induction false} PutGet<V>(d: Dict<V>, k: string, v: V)
    ensures Get(Put(d, k, v), k) == Some(v)
    ensures forall k' :: k' != k ==> Get(Put(d, k, v), k') == Get(d, k')
  {
    if |d| > 0 {
      var r := Put(d, k, v);
      if d[0].key == k {
        assert r[1..] == d[1..];
      } else {
        PutGet(d[1..], k, v);
        assert r[1..] == Put(d[1..], k, v);
      }
    }
  }

  lemma {:induction false} PutKeys<V>(d: Dict<V>, k: string, v: V)
    ensures KeySet(Put(d, k, v)) == KeySet(d) + {k}
  {
    if |d| > 0 {
      var r := Put(d, k, v);
      if d[0].key == k {
        assert r[1..] == d[1..];
      } else {
        PutKeys(d[1..], k, v);
        assert r[1..] == Put(d[1..], k, v);
      }
    }
  }

  lemma {:induction false} PutLength<V>(d: Dict<V>, k: string, v: V)
    ensures |Put(d, k, v)| == if k in KeySet(d) then |d| else |d| + 1
  {
    if |d| > 0 && d[0].key != k {
      PutLength(d[1..], k, v);
    }
  }

  lemma {:induction false} PutKeyed<V>(d: Dict<V>, k: string, v: V)
    ensures Keyed(d) ==> Keyed(Put(d, k, v))
  {
    if |d| > 0 && Keyed(d) {
      var r := Put(d, k, v);
      if d[0].key == k {
        assert r[1..] == d[1..];
      } else {
        PutKeyed(d[1..], k, v);
        PutKeys(d[1..], k, v);
        assert r[1..] == Put(d[1..], k, v);
      }
    }
  }

  lemma {:induction false} PutMembers<V>(d: Dict<V>, k: string, v: V)
    ensures forall e :: e in Put(d, k, v) ==> e in d || e == Entry(k, v)
  {
    if |d| > 0 && d[0].key != k {
      PutMembers(d[1..], k, v);
    }
  }

  lemma {:induction false} PutFresh<V>(d: Dict<V>, k: string, v: V)
    ensures k !in KeySet(d) ==> Put(d, k, v) == d + [Entry(k, v)]
  {
    if |d| > 0 && k !in KeySet(d) {
      PutFresh(d[1..], k, v);
      assert d + [Entry(k, v)] == [d[0]] + (d[1..] + [Entry(k, v)]);
    }
  }

  lemma MembersSubsetKeys<V>(a: Dict<V>, b: Dict<V>)
    requires forall e :: e in a ==> e in b
    ensures KeySet(a) <= KeySet(b)
  {
    forall k | k in KeySet(a) ensures k in KeySet(b) {
      KeySetMembers(a, k);
      var i :| 0 <= i < |a| && a[i].key == k;
      EntryKeyInKeySet(b, a[i]);
    }
  }

  lemma {:induction false} SubsetCard<T>(a: set<T>, b: set<T>)
    requires a <= b
    ensures |a| <= |b|
    decreases |a|
  {
    if a != {} {
      var x :| x in a;
      SubsetCard(a - {x}, b - {x});
    }
  }

  /** A shorter object drawn from a keyed one misses one of its entries. */
  lemma ShorterMissesEntry<V>(a: Dict<V>, b: Dict<V>) returns (g: Entry<V>)
    requires Keyed(a) && |b| < |a|
    ensures g in a && g !in b
  {
    if forall e :: e in a ==> e in b {
      MembersSubsetKeys(a, b);
      SubsetCard(KeySet(a), KeySet(b));
      KeyedIffCard(a);
      KeyedIffCard(b);
      assert false;
    }
    g :| g in a && g !in b;
  }

  /** `delete d[k]`; deleting a missing key changes nothing. */
  function Delete<V>(d: Dict<V>, k: string): (r: Dict<V>)
    ensures Get(r, k) == None
    ensures forall k' :: k' != k ==> Get(r, k') == Get(d, k')
    ensures KeySet(r) == KeySet(d) - {k}
    ensures forall e :: e in r ==> e in d
    ensures Keyed(d) ==> Keyed(r)
    ensures k !in KeySet(d) ==> r == d
  {
    if |d| == 0 then []
    else
      var tail := Delete(d[1..], k);
      if d[0].key == k then tail
      else
        assert ([d[0]] + tail)[1..] == tail;
        [d[0]] + tail
  }

  /** `ks.forEach(k => delete d[k])`. */
  function DeleteAll<V>(d: Dict<V>, ks: seq<string>): (r: Dict<V>)
    ensures forall k :: k in KeySet(r) <==> k in KeySet(d) && k !in ks
    ensures forall k :: k !in ks ==> Get(r, k) == Get(d, k)
    ensures forall e :: e in r ==> e in d
    ensures Keyed(d) ==> Keyed(r)
    decreases |ks|
  {
    if |ks| == 0 then d
    else DeleteAll(Delete(d, ks[0]), ks[1..])
  }

  /** `{...a, ...b}`: the keys of `b` overwrite or extend `a`, in `b`'s order. */
  function Merge<V>(a: Dict<V>, b: Dict<V>): (r: Dict<V>)
    ensures KeySet(r) == KeySet(a) + KeySet(b)
    ensures Keyed(a) ==> Keyed(r)
    decreases |b|
  {
    if |b| == 0 then a
    else
      PutKeys(a, b[0].key, b[0].val);
      PutKeyed(a, b[0].key, b[0].val);
      Merge(Put(a, b[0].key, b[0].val), b[1..])
  }

  /** Spreading keys that are all new appends them in order. */
  lemma {:induction false} MergeFresh<V>(a: Dict<V>, b: Dict<V>)
    requires Keyed(b)
    requires KeySet(a) !! KeySet(b)
    ensures Merge(a, b) == a + b
    decreases |b|
  {
    if |b| > 0 {
      var e := b[0];
      assert KeySet(b) == {e.key} + KeySet(b[1..]);
      PutFresh(a, e.key, e.val);
      PutKeys(a, e.key, e.val);
      var a' := Put(a, e.key, e.val);
      MergeFresh(a', b[1..]);
      MoveHead(a, b);
    }
  }

  lemma MoveHead<T>(a: seq<T>, b: seq<T>)
    requires |b| > 0
    ensures (a + [b[0]]) + b[1..] == a + b
  {
    assert b == [b[0]] + b[1..];
  }

  /** In a spread, a key present in `b` takes `b`'s value and any other key keeps `a`'s. */
  lemma {:induction false} MergeGet<V>(a: Dict<V>, b: Dict<V>, k: string)
    requires Keyed(b)
    ensures Get(Merge(a, b), k) == if k in KeySet(b) then Get(b, k) else Get(a, k)
    decreases |b|
  {
    if |b| > 0 {
      PutGet(a, b[0].key, b[0].val);
      MergeGet(Put(a, b[0].key, b[0].val), b[1..], k);
    }
  }

  /** `{...b}` of a dictionary without repeated keys copies it value for value. */
  lemma SpreadCopies<V>(b: Dict<V>)
    ensures Keyed(b) ==> forall k :: Get(Merge([], b), k) == Get(b, k)
  {
    if Keyed(b) {
      forall k ensures Get(Merge([], b), k) == Get(b, k) {
        MergeGet([], b, k);
      }
    }
  }

  // ----- stable sort by an integer key -----

  predicate SortedBy<T>(s: seq<T>, key: T -> int) {
    forall i, j :: 0 <= i < j < |s| ==> key(s[i]) <= key(s[j])
  }

  /** Insert `e` after every element whose key is not greater than its own. */
  function Insert<T>(e: T, s: seq<T>, key: T -> int): (r: seq<T>)
    ensures |r| == |s| + 1
    ensures multiset(r) == multiset(s) + multiset{e}
  {
    if |s| == 0 then [e]
    else if key(e) < key(s[0]) then [e] + s
    else
      assert s == [s[0]] + s[1..];
      [s[0]] + Insert(e, s[1..], key)
  }

  lemma {:induction false} InsertKeepsSorted<T>(e: T, s: seq<T>, key: T -> int)
    requires SortedBy(s, key)
    ensures SortedBy(Insert(e, s, key), key)
    decreases |s|
  {
    if |s| > 0 && key(e) >= key(s[0]) {
      var tail := Insert(e, s[1..], key);
      InsertKeepsSorted(e, s[1..], key);
      var r := [s[0]] + tail;
      forall i, j | 0 <= i < j < |r|
        ensures key(r[i]) <= key(r[j])
      {
        if i == 0 {
          var x := tail[j - 1];
          assert x in multiset(tail);
          assert x in multiset(s[1..]) || x == e;
          if x != e {
            var l :| 0 <= l < |s[1..]| && s[1..][l] == x;
            assert s[l + 1] == x;
          }
        } else {
          assert r[i] == tail[i - 1] && r[j] == tail[j - 1];
        }
      }
    }
  }

  /** `[...s].sort((a, b) => key(a) - key(b))`: a stable sort, as insertion sort. */
  function SortBy<T>(s: seq<T>, key: T -> int): (r: seq<T>)
    ensures |r| == |s|
    ensures multiset(r) == multiset(s)
    ensures SortedBy(r, key)
  {
    if |s| == 0 then []
    else
      var last := |s| - 1;
      assert s == s[..last] + [s[last]];
      var prefix := SortBy(s[..last], key);
      InsertKeepsSorted(s[last], prefix, key);
      Insert(s[last], prefix, key)
  }

  /** The sort key of an entry: the key of its value. */
  function EntryKey<V>(key: V -> int): Entry<V> -> int {
    (e: Entry<V>) => key(e.val)
  }

  lemma SameMultisetSameMembers<V>(a: Dict<V>, b: Dict<V>)
    requires multiset(a) == multiset(b)
    ensures forall e :: e in a <==> e in b
  {
    forall e ensures e in a <==> e in b {
      assert e in a <==> e in multiset(a);
      assert e in b <==> e in multiset(b);
    }
  }

  /** The entries with the `count` smallest keys removed, ties broken by
      insertion order; the others keep their positions. When `count` is at
      least the size, everything is removed. */
  function RemoveSmallest<V>(d: Dict<V>, count: int, key: V -> int): (r: Dict<V>)
    ensures forall e :: e in r ==> e in d
    ensures Keyed(d) ==> Keyed(r)
    ensures Keyed(d) ==> |r| == if count <= 0 then |d| else if count >= |d| then 0 else |d| - count
    ensures Keyed(d) ==> forall e, f :: e in d && e !in r && f in r ==> key(e.val) <= key(f.val)
  {
    var sorted := SortBy(d, EntryKey(key));
    var m := if count <= 0 then 0 else if count >= |d| then |d| else count;
    var r := DeleteAll(d, KeysOf(sorted[..m]));
    if Keyed(d) then
      RemoveSmallestFacts(d, sorted, m, r, key);
      r
    else
      r
  }

  lemma RemoveSmallestFacts<V>(d: Dict<V>, sorted: Dict<V>, m: nat, r: Dict<V>, key: V -> int)
    requires Keyed(d)
    requires |sorted| == |d| && multiset(sorted) == multiset(d) && SortedBy(sorted, EntryKey(key))
    requires m <= |d|
    requires forall k :: k in KeySet(r) <==> k in KeySet(d) && k !in KeysOf(sorted[..m])
    requires forall e :: e in r ==> e in d
    requires Keyed(r)
    ensures |r| == |d| - m
    ensures forall e, f :: e in d && e !in r && f in r ==> key(e.val) <= key(f.val)
  {
    SameMultisetSameMembers(sorted, d);
    SameMembersSameKeys(sorted, d);
    KeyedIffCard(d);
    KeyedIffCard(sorted);
    RemovedCount(d, sorted, m, r);
    forall e, f | e in d && e !in r && f in r
      ensures key(e.val) <= key(f.val)
    {
      RemovedOrder(d, sorted, m, r, key, e, f);
    }
  }

  lemma KeyedPrefix<V>(s: Dict<V>, m: nat)
    requires Keyed(s) && m <= |s|
    ensures Keyed(s[..m])
    ensures KeySet(s[..m]) <= KeySet(s)
  {
    KeyedIndices(s);
    KeyedIndices(s[..m]);
    forall k | k in KeySet(s[..m]) ensures k in KeySet(s) {
      KeySetMembers(s[..m], k);
      var i :| 0 <= i < m && s[..m][i].key == k;
      EntryKeyInKeySet(s, s[i]);
    }
  }

  lemma RemovedCount<V>(d: Dict<V>, sorted: Dict<V>, m: nat, r: Dict<V>)
    requires Keyed(sorted) && Keyed(r)
    requires KeySet(sorted) == KeySet(d) && |KeySet(d)| == |d| && |sorted| == |d|
    requires m <= |d|
    requires forall k :: k in KeySet(r) <==> k in KeySet(d) && k !in KeysOf(sorted[..m])
    ensures |r| == |d| - m
  {
    var prefix := sorted[..m];
    KeyedPrefix(sorted, m);
    KeyedIffCard(prefix);
    KeyedIffCard(r);
    KeysOfMembers(prefix);
    assert KeySet(r) == KeySet(d) - KeySet(prefix);
  }

  lemma RemovedOrder<V>(d: Dict<V>, sorted: Dict<V>, m: nat, r: Dict<V>, key: V -> int, e: Entry<V>, f: Entry<V>)
    requires Keyed(d) && Keyed(sorted)
    requires |sorted| == |d| && (forall e :: e in sorted <==> e in d) && SortedBy(sorted, EntryKey(key))
    requires m <= |d|
    requires forall k :: k in KeySet(r) <==> k in KeySet(d) && k !in KeysOf(sorted[..m])
    requires forall e :: e in r ==> e in d
    requires e in d && e !in r && f in r
    ensures key(e.val) <= key(f.val)
  {
    var prefix := sorted[..m];
    KeysOfMembers(prefix);
    assert e in sorted && f in sorted;
    var i :| 0 <= i < |sorted| && sorted[i] == e;
    var j :| 0 <= j < |sorted| && sorted[j] == f;
    EntryKeyInKeySet(r, f);
    if j < m {
      EntryKeyInKeySet(prefix, prefix[j]);
      assert false;
    }
    if i >= m {
      KeyedIndices(sorted);
      KeySetMembers(prefix, e.key);
      EntryKeyInKeySet(d, e);
      KeySetMembers(r, e.key);
      var l :| 0 <= l < |r| && r[l].key == e.key;
      KeyedUnique(d, r[l], e);
      assert false;
    }
  }
}

=== FILE: file_manager.dfy ===
/** The popup's import of a report file: read, parse, detect the format
    (an exported file or a bare report), hand the report to restoration and
    clear the file input. Reading, `JSON.parse` and the restoration request
    are parameters. */
module FileManager {
  import opened Wrappers
  import opened Records
  import BugReportManager
  import LocalStorage
  import Dict

  const InvalidFormat: string := "Invalid bug report file format"
  const Restoring: string := "Bug现场还原中..."

  /** The reply of the restoration request; `error` may be missing. */
  datatype Reply = Reply(success: bool, error: Option<string>)

  /** The object `handleFileImport` resolves with. */
  datatype Answer = Succeeded(message: string) | Failed(error: string)

  /** What the call leaves behind: its answer (`None` for `undefined`) and
      whether the file input was cleared. */
  datatype Outcome = Outcome(answer: Option<Answer>, cleared: bool)

  /** Format detection: the `report` of an exported file when it has a URL,
      else the document itself when it has a URL and an id. */
  function DetectReport(doc: Document): (r: Result<Snapshot>)
    ensures doc.report.Some? && Filled(doc.report.value.url) ==> r == Ok(doc.report.value)
    ensures !(doc.report.Some? && Filled(doc.report.value.url)) ==>
      r == if Filled(doc.body.url) && Filled(doc.body.id) then Ok(doc.body) else Err(InvalidFormat)
    ensures r.Ok? ==> Filled(r.value.url)
  {
    if doc.report.Some? && Filled(doc.report.value.url) then Ok(doc.report.value)
    else if Filled(doc.body.url) && Filled(doc.body.id) then Ok(doc.body)
    else Err(InvalidFormat)
  }

  /** `handleFileImport(event)`. `file` is the selected file's text as read
      (`None` when no file is selected); `parseJson` throws with the
      returned message when the text is not a JSON object. */
  function HandleFileImport(file: Option<Result<string>>, parseJson: string -> Result<Document>,
                            restore: Snapshot -> Reply): (r: Outcome)
    ensures file.None? ==> r == Outcome(None, false)
    ensures file.Some? ==> r.cleared && r.answer.Some?
    ensures r.answer == Some(Succeeded(Restoring)) <==>
      && file.Some? && file.value.Ok? && parseJson(file.value.value).Ok?
      && DetectReport(parseJson(file.value.value).value).Ok?
      && restore(DetectReport(parseJson(file.value.value).value).value).success
    ensures file.Some? && file.value.Err? ==> r.answer == Some(Failed(file.value.message))
    ensures file.Some? && file.value.Ok? && parseJson(file.value.value).Err? ==>
      r.answer == Some(Failed(parseJson(file.value.value).message))
    ensures file.Some? && file.value.Ok? && parseJson(file.value.value).Ok? &&
            DetectReport(parseJson(file.value.value).value).Err? ==>
      r.answer == Some(Failed(InvalidFormat))
    ensures file.Some? && file.value.Ok? && parseJson(file.value.value).Ok? &&
            DetectReport(parseJson(file.value.value).value).Ok? &&
            !restore(DetectReport(parseJson(file.value.value).value).value).success ==>
      r.answer == Some(Failed(restore(DetectReport(parseJson(file.value.value).value).value).error.GetOr("")))
  {
    if file.None? then Outcome(None, false)
    else
      var answer :=
        match file.value
        case Err(m) => Failed(m)
        case Ok(text) =>
          match parseJson(text)
          case Err(m) => Failed(m)
          case Ok(doc) =>
            match DetectReport(doc)
            case Err(m) => Failed(m)
            case Ok(report) =>
              var reply := restore(report);
              if reply.success then Succeeded(Restoring) else Failed(reply.error.GetOr(""));
      Outcome(Some(answer), true)
  }

  /** A file written by the export, read back, hands over the exported
      report when that report has a URL. */
  lemma ExportedFileIsDetected(s: LocalStorage.Persisted, id: string, now: int, parse: string -> Option<Url>)
    requires BugReportManager.Export(s, id, now, parse).Ok?
    requires Filled(BugReportManager.Export(s, id, now, parse).value.payload.report.url)
    ensures DetectReport(BugReportManager.ExportDocument(BugReportManager.Export(s, id, now, parse).value.payload)) ==
      Ok(Dict.Get(LocalStorage.Reports(s), id).value)
  {
  }

  /** Where both the popup import and the URL fetch accept a document whose
      `report`, if any, has a URL, they pick the same report. A `report`
      without a URL is where they part: the fetch takes it, the import
      falls back to the document's own fields. */
  lemma DetectAgreesWithUnwrap(doc: Document)
    requires DetectReport(doc).Ok? && BugReportManager.Unwrap(doc).Ok?
    ensures doc.report.None? || Filled(doc.report.value.url) <==>
      DetectReport(doc) == BugReportManager.Unwrap(doc)
  {
    if doc.report.Some? && !Filled(doc.report.value.url) {
      assert DetectReport(doc).value == doc.body;
      assert BugReportManager.Unwrap(doc).value == doc.report.value;
      assert Filled(doc.body.url);
    }
  }
}

=== FILE: json.dfy ===
/** JSON-like values: the shape of every plain object the extension keeps
    in `chrome.storage.local` or passes between contexts. */
module Json {
  import opened Dict

  datatype Value =
    | Null
    | Bool(b: bool)
    | Num(n: int)
    | Str(s: string)
    | Arr(items: seq<Value>)
    | Obj(fields: Dict<Value>)

  /** JavaScript truthiness of a value. Objects and arrays are always truthy. */
  predicate Truthy(v: Value) {
    match v
    case Null => false
    case Bool(b) => b
    case Num(n) => n != 0
    case Str(s) => s != ""
    case Arr(_) => true
    case Obj(_) => true
  }
}

=== FILE: legacy_background.dfy ===
/** The oldest background worker: the same dispatcher and report store,
    a capture that asks for the page host's cookies only and reads the last
    100 logs the page kept, and an injection that derives each cookie's URL
    from the cookie itself. It acts only on the sender's tab. */
module LegacyBackground {
  import opened Wrappers
  import opened Dict
  import opened Text
  import opened Records
  import opened LocalStorage
  import BugReportManager
  import ContentScript
  import DataCollector
  import opened BugDataRestorer
  import opened Background

  // ----- first run -----

  /** The settings written on first run. */
  const FirstRunSettings: Settings :=
    Settings(Some(50), Some(true), Some(false), None, Some(100), None, None, None, None, [])

  /** `initializeStorage()`: write `bugReports` and `settings` where they are
      missing; nothing else is touched. */
  function InitializeStorage(s: Persisted): (r: Persisted)
    ensures s.bugReports.Some? ==> r.bugReports == s.bugReports
    ensures s.settings.Some? ==> r.settings == s.settings
    ensures s.bugReports.None? ==> r.bugReports == Some([])
    ensures s.settings.None? ==> r.settings == Some(FirstRunSettings)
    ensures r.bugReportCache == s.bugReportCache
  {
    s.(bugReports := if s.bugReports.None? then Some([]) else s.bugReports,
       settings := if s.settings.None? then Some(FirstRunSettings) else s.settings)
  }

  /** A second first run changes nothing. */
  lemma InitializeIdempotent(s: Persisted)
    ensures InitializeStorage(InitializeStorage(s)) == InitializeStorage(s)
  {
  }

  // ----- page capture -----

  /** What the page holds when the storage script runs: both storage areas
      and the captured logs, if the page kept any. */
  datatype PageState = PageState(local: Dict<string>, session: Dict<string>, logs: Option<seq<LogEntry>>)

  /** The object the storage script returns. */
  datatype StorageResult = StorageResult(localStorage: Dict<string>, sessionStorage: Dict<string>,
                                         consoleLog: seq<LogEntry>)

  /** `collectStorageData()`, run in the page: both areas as they are, and
      the last 100 of the page's logs, or none. */
  function CollectStorageData(page: PageState): (r: StorageResult)
    ensures r.localStorage == page.local && r.sessionStorage == page.session
    ensures |r.consoleLog| <= 100
    ensures page.logs.None? ==> r.consoleLog == []
    ensures page.logs.Some? ==> r.consoleLog == ContentScript.Last(page.logs.value, 100)
  {
    StorageResult(page.local, page.session, if page.logs.Some? then ContentScript.Last(page.logs.value, 100) else [])
  }

  /** The kept logs are the page's most recent ones, in order, and all of
      them when there are at most 100. */
  lemma KeepsMostRecentLogs(page: PageState)
    requires page.logs.Some?
    ensures var kept := CollectStorageData(page).consoleLog; var logs := page.logs.value;
      && (|logs| <= 100 ==> kept == logs)
      && (|logs| > 100 ==> |kept| == 100 && kept == logs[|logs| - 100..])
  {
    var kept := CollectStorageData(page).consoleLog;
    var logs := page.logs.value;
    if |logs| > 100 {
      assert |kept| == 100;
      forall i | 0 <= i < 100
        ensures kept[i] == logs[|logs| - 100..][i]
      {
      }
    }
  }

  /** `collectPageData(tab)`: reading the URL of a missing tab throws. The
      cookies are the domain query's answer as it is, `[]` when the URL does
      not parse or the query rejects; a rejected storage script leaves both
      areas `{}` and the log `[]`; the screenshot is `null` when the
      capture fails. No network requests are collected. */
  function CollectPageData(tab: Option<Tab>, now: int, userAgent: string, parse: string -> Option<Url>,
                           domainCookies: Result<seq<Cookie>>, storage: Result<Option<PageState>>,
                           screenshot: Result<string>): (r: Result<Snapshot>)
    ensures tab.None? <==> r.Err?
    ensures r.Err? ==> r.message == UndefinedRead("url")
    ensures r.Ok? ==> r.value.url == tab.value.url && r.value.title == tab.value.title
    ensures r.Ok? ==> r.value.timestamp == Some(now) && r.value.userAgent == Some(userAgent)
    ensures r.Ok? ==>
      r.value.cookies == Some(if ParseUrl(parse, tab.value.url).Ok? && domainCookies.Ok? then domainCookies.value else [])
    ensures r.Ok? && storage.Err? ==>
      r.value.localStorage == Some([]) && r.value.sessionStorage == Some([]) && r.value.consoleLog == Some([])
    ensures r.Ok? && storage.Ok? && storage.value.Some? ==>
      && r.value.localStorage == Some(storage.value.value.local)
      && r.value.sessionStorage == Some(storage.value.value.session)
      && r.value.consoleLog == Some(CollectStorageData(storage.value.value).consoleLog)
    ensures r.Ok? && storage == Ok(None) ==>
      r.value.localStorage.None? && r.value.sessionStorage.None? && r.value.consoleLog.None?
    ensures r.Ok? ==> r.value.networkRequests.None? && r.value.viewport.None?
    ensures r.Ok? ==> r.value.screenshot == if screenshot.Ok? then Some(screenshot.value) else None
  {
    if tab.None? then Err(UndefinedRead("url"))
    else
      var t := tab.value;
      var cookies := if ParseUrl(parse, t.url).Ok? && domainCookies.Ok? then domainCookies.value else [];
      var page := EmptySnapshot.(url := t.url, title := t.title, timestamp := Some(now), userAgent := Some(userAgent),
                                 cookies := Some(cookies),
                                 screenshot := if screenshot.Ok? then Some(screenshot.value) else None);
      match storage
      case Err(_) => Ok(page.(localStorage := Some([]), sessionStorage := Some([]), consoleLog := Some([])))
      case Ok(None) => Ok(page)
      case Ok(Some(state)) =>
        var data := CollectStorageData(state);
        Ok(page.(localStorage := Some(data.localStorage), sessionStorage := Some(data.sessionStorage),
                 consoleLog := Some(data.consoleLog)))
  }

  /** Unlike the later capture, the oldest keeps repeated cookies: two
      answers with the same name, domain and path both stay. */
  lemma RepeatedCookiesKept(tab: Tab, now: int, userAgent: string, parse: string -> Option<Url>,
                            c: Cookie, storage: Result<Option<PageState>>, screenshot: Result<string>)
    requires ParseUrl(parse, tab.url).Ok?
    ensures var cs := CollectPageData(Some(tab), now, userAgent, parse, Ok([c, c]), storage, screenshot).value.cookies.value;
      |cs| == 2 && DataCollector.Key(cs[0]) == DataCollector.Key(cs[1])
    ensures DataCollector.Dedup([c, c]) == [c]
  {
    assert [c][..0] == [];
    assert !DataCollector.HasKey([], DataCollector.Key(c));
    assert DataCollector.Dedup([c]) == [c];
    assert [c, c][..1] == [c];
    assert DataCollector.Key([c][0]) == DataCollector.Key(c);
    assert DataCollector.HasKey([c], DataCollector.Key(c));
  }

  // ----- restore -----

  /** The cookie's own URL: `https` exactly when the cookie is secure, then
      its domain and path. */
  function CookieUrl(c: Cookie): (r: string)
    ensures StartsWith(r, "https://") <==> On(c.secure)
    ensures !On(c.secure) ==> StartsWith(r, "http://")
    ensures EndsWith(r, c.domain + c.path)
    ensures |r| == (if On(c.secure) then 8 else 7) + |c.domain| + |c.path|
  {
    var scheme := if On(c.secure) then "https" else "http";
    var url := scheme + "://" + c.domain + c.path;
    assert url == scheme + "://" + (c.domain + c.path);
    assert url[|url| - |c.domain + c.path|..] == c.domain + c.path;
    if On(c.secure) then
      assert url[..8] == "https://";
      url
    else
      assert url[..7] == "http://";
      assert url[4] == ':' && "https://"[4] == 's';
      url
  }

  /** `injectBugData(bugData, tabId)`: each cookie at its own URL, storage,
      then a reload; no URL is parsed, so it never throws before a call. */
  function Inject(bug: Snapshot, tabId: int): (r: Injection)
    ensures WellFormed(r) && r.clearing == []
    ensures r.cookies == CookieWrites(bug.cookies.GetOr([]), CookieUrl)
    ensures r.storage == StorageCall(tabId, bug) && r.finish == Reload(tabId)
  {
    Injection([], CookieWrites(bug.cookies.GetOr([]), CookieUrl), StorageCall(tabId, bug), Reload(tabId))
  }

  /** Every cookie write goes to `https` exactly when that cookie is secure,
      at the cookie's own domain and path, whatever host the report was
      captured on. */
  lemma CookieSchemeFollowsSecure(bug: Snapshot, tabId: int, i: nat)
    requires bug.cookies.Some? && i < |bug.cookies.value|
    ensures var w := Inject(bug, tabId).cookies[i];
      && w.cookie == bug.cookies.value[i]
      && (StartsWith(w.target, "https://") <==> On(bug.cookies.value[i].secure))
      && EndsWith(w.target, bug.cookies.value[i].domain + bug.cookies.value[i].path)
  {
  }

  /** `injectStorageData(localStorageData, sessionStorageData)`, run in the
      page: `setItem` for every given entry, a throwing key skipped, and
      nothing cleared first. */
  function InjectStorageData(st: ContentScript.PageStorage, localData: Dict<string>, sessionData: Dict<string>,
                             failLocal: set<string>, failSession: set<string>): (r: ContentScript.PageStorage)
    ensures KeySet(r.local) == KeySet(st.local) + (KeySet(localData) - failLocal)
    ensures KeySet(r.session) == KeySet(st.session) + (KeySet(sessionData) - failSession)
  {
    ContentScript.PageStorage(ContentScript.SetItems(st.local, localData, failLocal),
                              ContentScript.SetItems(st.session, sessionData, failSession))
  }

  /** A written key holds the report's value and every other key of the
      page keeps its own: the oldest restore merges into the page's storage
      instead of replacing it. */
  lemma InjectStorageMerges(st: ContentScript.PageStorage, localData: Dict<string>, sessionData: Dict<string>,
                            failLocal: set<string>, failSession: set<string>, k: string)
    requires Keyed(localData) && Keyed(sessionData)
    ensures var r := InjectStorageData(st, localData, sessionData, failLocal, failSession);
      && Get(r.local, k) == (if k in KeySet(localData) && k !in failLocal then Get(localData, k) else Get(st.local, k))
      && Get(r.session, k) == (if k in KeySet(sessionData) && k !in failSession then Get(sessionData, k) else Get(st.session, k))
  {
    ContentScript.SetItemsGet(st.local, localData, failLocal, k);
    ContentScript.SetItemsGet(st.session, sessionData, failSession, k);
  }

  /** `restoreBugData(bugData, tab)` with the sender's tab. */
  function RestoreBugData(tab: Option<Tab>, bug: Option<Snapshot>, events: seq<TabEvent>,
                          fault: Action -> Option<string>): (r: (seq<Action>, Outcome))
    ensures tab.None? || bug.None? ==> r.0 == [] && r.1 == Rejected(UndefinedRead("url"))
    ensures tab.Some? && bug.Some? && tab.value.url == bug.value.url ==> r.0 == Inject(bug.value, tab.value.id).Trace()
    ensures tab.Some? && bug.Some? && tab.value.url != bug.value.url ==>
      |r.0| > 0 && r.0[0] == Navigate(tab.value.id, bug.value.url)
    ensures Injected(r.0) <= 1
    ensures forall i :: 0 <= i < |r.0| ==> !r.0[i].CreateTab?
  {
    if tab.None? || bug.None? then ([], Rejected(UndefinedRead("url")))
    else RestoreInPlace(tab.value, bug.value, events, Ok(Inject(bug.value, tab.value.id)), fault)
  }

  // ----- dispatch -----

  /** The results of the browser calls one message handling makes. */
  datatype LegacyEnv = LegacyEnv(
    newId: string, now: int, userAgent: string, parse: string -> Option<Url>, senderTab: Option<Tab>,
    domainCookies: Result<seq<Cookie>>, storage: Result<Option<PageState>>, screenshot: Result<string>,
    events: seq<TabEvent>, fault: Action -> Option<string>)

  /** `handleMessage(message, sender, sendResponse)`, acting on the sender's
      tab only. */
  function HandleMessage(s: Persisted, m: Message, env: LegacyEnv): (r: (Persisted, Option<Response>))
    ensures m.action !in Actions ==> r.0 == s && r.1 == Some(Response(false, None, Some(UnknownAction)))
    ensures m.action != "saveBugReport" && m.action != "deleteBugReport" ==> r.0 == s
    ensures r.1.Some? && !r.1.value.success ==> r.1.value.error.Some?
  {
    match m.action
    case "saveBugReport" =>
      var saved := SaveBugReport(s, m.data, env.newId, env.now, env.parse);
      (saved.0, Answer(Some(if saved.1.Ok? then Ok(Some(SavedReport(saved.1.value))) else Err(saved.1.message))))
    case "getBugReports" => (s, Answer(Some(Ok(Some(ReportList(BugReportManager.List(s)))))))
    case "deleteBugReport" =>
      (BugReportManager.DeleteReport(s, PropertyKey(m.reportId)), Answer(Some(Ok(None))))
    case "exportBugReport" =>
      var exported := BugReportManager.Export(s, PropertyKey(m.reportId), env.now, env.parse);
      (s, Answer(Some(if exported.Ok? then Ok(None) else Err(exported.message))))
    case "collectPageData" =>
      var page := CollectPageData(env.senderTab, env.now, env.userAgent, env.parse,
                                  env.domainCookies, env.storage, env.screenshot);
      (s, Answer(Some(if page.Ok? then Ok(Some(PageData(page.value))) else Err(page.message))))
    case "restoreBugData" =>
      var restored := RestoreBugData(env.senderTab, m.data, env.events, env.fault);
      (s, Answer(Settled(restored.1)))
    case _ => (s, Some(Response(false, None, Some(UnknownAction))))
  }

  /** A saved report is stored under the new id with the oldest reports
      evicted, so the store never exceeds the stored limit, or 50. */
  lemma SaveEvictsToLimit(s: Persisted, m: Message, env: LegacyEnv)
    requires m.action == "saveBugReport" && m.data.Some?
    requires BugReportManager.NewReport(m.data.value, env.newId, env.now, env.parse).Ok?
    requires Keyed(Reports(s))
    ensures var limit := s.settings.GetOr(FallbackSettings).maxStoredReports;
      && limit.Some? ==> |Reports(HandleMessage(s, m, env).0)| <= if limit.value < 0 then 0 else limit.value
    ensures s.settings.None? ==> |Reports(HandleMessage(s, m, env).0)| <= 50
    ensures HandleMessage(s, m, env).1.Some? && HandleMessage(s, m, env).1.value.success
  {
  }

  /** A message from a page-less sender, such as the popup, cannot capture:
      the missing tab's URL read throws and the error is answered. */
  lemma CollectWithoutSenderTabFails(s: Persisted, m: Message, env: LegacyEnv)
    requires m.action == "collectPageData" && env.senderTab.None?
    ensures HandleMessage(s, m, env).1 == Some(Response(false, None, Some(UndefinedRead("url"))))
  {
  }
}

=== FILE: local_storage.dfy ===
/** The layout of `chrome.storage.local` shared by the background modules:
    the report map, the settings record and the URL fetch cache, together
    with the oldest-first eviction every report writer applies. */
module LocalStorage {
  import opened Wrappers
  import opened Dict
  import opened Records

  datatype CacheEntry = CacheEntry(data: Snapshot, fetchedAt: int)

  /** The three keys of the storage area; `None` is a key never written. */
  datatype Persisted = Persisted(
    bugReports: Option<Dict<Snapshot>>,
    settings: Option<Settings>,
    bugReportCache: Option<Dict<CacheEntry>>)

  /** `result.bugReports || {}`. */
  function Reports(s: Persisted): Dict<Snapshot> {
    s.bugReports.GetOr([])
  }

  /** `bugReportCache = {}` as a destructuring default. */
  function Cache(s: Persisted): Dict<CacheEntry> {
    s.bugReportCache.GetOr([])
  }

  /** Every stored report carries a timestamp. */
  predicate Timestamped(d: Dict<Snapshot>) {
    forall e :: e in d ==> e.val.timestamp.Some?
  }

  /** What any sequence of the modelled writers keeps true: the maps have
      distinct keys and every report is timestamped. */
  predicate Valid(s: Persisted) {
    Keyed(Reports(s)) && Timestamped(Reports(s)) && Keyed(Cache(s))
  }

  /** `new Date(report.timestamp)` as an instant. */
  function TimeOf(r: Snapshot): int {
    r.timestamp.GetOr(0)
  }

  /** When there are more reports than `limit`, sort the ids by timestamp
      and delete the `count - limit` oldest; a missing limit compares false
      and removes nothing. */
  function Evict(reports: Dict<Snapshot>, limit: Option<int>): (r: Dict<Snapshot>)
    ensures forall e :: e in r ==> e in reports
    ensures Keyed(reports) ==> Keyed(r)
    ensures Timestamped(reports) ==> Timestamped(r)
    ensures limit.None? || |reports| <= limit.value ==> r == reports
    ensures Keyed(reports) && limit.Some? && |reports| > limit.value ==>
      |r| == if limit.value < 0 then 0 else limit.value
    ensures Keyed(reports) ==>
      forall e, f :: e in reports && e !in r && f in r ==> TimeOf(e.val) <= TimeOf(f.val)
  {
    if limit.Some? && |reports| > limit.value then
      RemoveSmallest(reports, |reports| - limit.value, TimeOf)
    else
      reports
  }

  /** When more reports than the limit are stored, a report strictly older
      than every other one is among those evicted. */
  lemma EvictDropsOldest(reports: Dict<Snapshot>, limit: Option<int>, e: Entry<Snapshot>)
    requires Keyed(reports) && e in reports
    requires limit.Some? && |reports| > limit.value
    requires forall f :: f in reports && f != e ==> TimeOf(e.val) < TimeOf(f.val)
    ensures e !in Evict(reports, limit)
  {
    var r := Evict(reports, limit);
    if e in r {
      assert |r| < |reports|;
      assert forall g :: g in reports && g !in r ==> TimeOf(g.val) <= TimeOf(e.val) && g != e;
      var gone := ShorterMissesEntry(reports, r);
      assert false;
    }
  }

  /** `reports[id] = report` followed by eviction, as every writer does it. */
  function Store(reports: Dict<Snapshot>, id: string, report: Snapshot, limit: Option<int>): (r: Dict<Snapshot>)
    ensures forall e :: e in r ==> e in reports || e == Entry(id, report)
    ensures Keyed(reports) ==> Keyed(r)
    ensures Timestamped(reports) && report.timestamp.Some? ==> Timestamped(r)
    ensures limit.None? || |Set(reports, id, report)| <= limit.value ==> r == Set(reports, id, report)
    ensures Keyed(reports) && limit.Some? ==> |r| <= if limit.value < 0 then 0 else limit.value
  {
    Evict(Set(reports, id, report), limit)
  }
}

=== FILE: network_interceptor.dfy ===
/** The page-side network hook: the capture policy applied to every
    finished XHR and `fetch` (static-resource filter, failures-only
    predicate, body truncation), the parsing of XHR response headers, and
    the record each kind of request produces.

    The settings object the content script publishes on `window` is a
    parameter (`None` when it is not set); so are the URL parser, the
    request id and the clock readings. */
module NetworkInterceptor {
  import opened Wrappers
  import opened Dict
  import opened Text
  import opened Records

  // ----- settings -----

  /** The settings used when the page has none. */
  const PageDefaults: Settings :=
    NoSettings.(maxNetworkRequests := Some(50), maxRequestBodySize := Some(10240),
                captureAllNetworkRequests := Some(false), ignoreStaticResources := Some(true))

  /** `getSettings()`: the published object as it is, or the defaults. */
  function PageSettings(window: Option<Settings>): (r: Settings)
    ensures window.Some? ==> r == window.value
    ensures window.None? ==> r == PageDefaults
  {
    window.GetOr(PageDefaults)
  }

  const DefaultBodySize: int := 10240

  /** `updateConfig()`: the body limit is `maxRequestBodySize`, or 10 KiB
      when that is missing or 0. It is recomputed on every settings event
      and read by every later capture. */
  function MaxBodySize(window: Option<Settings>): (r: int)
    ensures r != 0
    ensures PageSettings(window).maxRequestBodySize.Some? && PageSettings(window).maxRequestBodySize.value != 0 ==>
      r == PageSettings(window).maxRequestBodySize.value
    ensures PageSettings(window).maxRequestBodySize.None? || PageSettings(window).maxRequestBodySize == Some(0) ==>
      r == DefaultBodySize
    ensures window.None? ==> r == DefaultBodySize
  {
    var size := PageSettings(window).maxRequestBodySize;
    if size.Some? && size.value != 0 then size.value else DefaultBodySize
  }

  // ----- the static-resource filter -----

  const IgnoredExtensions: seq<string> :=
    [".css", ".js", ".png", ".jpg", ".jpeg", ".gif", ".ico", ".svg", ".woff", ".woff2", ".ttf", ".eot"]

  /** `pathname` ends, ignoring case, with one of the listed extensions. */
  predicate StaticPath(pathname: string) {
    exists i :: 0 <= i < |IgnoredExtensions| && EndsWith(ToLower(pathname), IgnoredExtensions[i])
  }

  /** `shouldIgnoreRequest(url)`: only when static resources are to be
      ignored and the URL parses, by the extension of its path. */
  predicate ShouldIgnore(window: Option<Settings>, url: string, parse: string -> Option<Url>) {
    && On(PageSettings(window).ignoreStaticResources)
    && parse(url).Some?
    && StaticPath(parse(url).value.pathname)
  }

  /** Every listed extension starts with a dot. */
  lemma ExtensionsStartWithDot()
    ensures forall i :: 0 <= i < |IgnoredExtensions| ==> |IgnoredExtensions[i]| > 0 && IgnoredExtensions[i][0] == '.'
  {
  }

  /** A path without a dot is never a static resource. */
  lemma NoDotNotStatic(pathname: string)
    requires '.' !in pathname
    ensures !StaticPath(pathname)
  {
    ExtensionsStartWithDot();
    ToLowerKeepsOthers(pathname, '.');
    var low := ToLower(pathname);
    forall i | 0 <= i < |IgnoredExtensions|
      ensures !EndsWith(low, IgnoredExtensions[i])
    {
      var ext := IgnoredExtensions[i];
      if |ext| <= |low| {
        assert low[|low| - |ext|..][0] == low[|low| - |ext|];
      }
    }
  }

  /** The extension test ignores case: a path that lower-cases to the same
      text gets the same answer. */
  lemma StaticPathIgnoresCase(p: string, q: string)
    requires ToLower(p) == ToLower(q)
    ensures StaticPath(p) <==> StaticPath(q)
  {
  }

  /** With the page defaults, an upper-case script path is ignored and an
      API path is not. */
  lemma DefaultsIgnoreScripts(parse: string -> Option<Url>, url: string)
    requires parse(url).Some?
    ensures parse(url).value.pathname == "/static/App.JS" ==> ShouldIgnore(None, url, parse)
    ensures parse(url).value.pathname == "/api/users" ==> !ShouldIgnore(None, url, parse)
  {
    if parse(url).value.pathname == "/static/App.JS" {
      var low := ToLower("/static/App.JS");
      assert low == "/static/app.js";
      assert EndsWith(low, IgnoredExtensions[1]);
    }
    if parse(url).value.pathname == "/api/users" {
      NoDotNotStatic("/api/users");
    }
  }

  // ----- truncation -----

  const TruncatedMark: string := "[TRUNCATED]"

  /** `truncateData(data, maxSize)` for a string: `length` and `substring`
      count UTF-16 code units, so a string that fits is kept, and a longer
      one gives its first `maxSize` units and the mark (`substring` reads a
      negative length as 0). */
  function Truncate(data: string, maxSize: int): (r: string)
    ensures Utf16Length(data) <= maxSize ==> r == data
    ensures Utf16Length(data) > maxSize ==>
      && EndsWith(r, TruncatedMark)
      && CutAt(data, r[..|r| - |TruncatedMark|], if maxSize < 0 then 0 else maxSize)
  {
    if Utf16Length(data) <= maxSize then data
    else
      var kept := UnitPrefix(data, if maxSize < 0 then 0 else maxSize);
      var r := kept + TruncatedMark;
      assert r[..|kept|] == kept && r[|kept|..] == TruncatedMark;
      r
  }

  /** A truncated body never exceeds the limit by more than the mark's
      units, and the text it keeps is the start of the original. */
  lemma TruncateBound(data: string, maxSize: int)
    ensures var r := Truncate(data, maxSize);
      || r == data
      || (&& Utf16Length(r) <= (if maxSize < 0 then 0 else maxSize) + |TruncatedMark|
          && StartsWith(data, r[..|r| - |TruncatedMark|]))
  {
    var r := Truncate(data, maxSize);
    if r != data {
      var kept := r[..|r| - |TruncatedMark|];
      assert r == kept + TruncatedMark;
      Utf16LengthAppend(kept, TruncatedMark);
      MarkUnits();
    }
  }

  /** The mark is ASCII, one unit per character. */
  lemma MarkUnits()
    ensures Utf16Length(TruncatedMark) == |TruncatedMark|
  {
    BmpLength(TruncatedMark);
  }

  /** `if (body) body = truncateData(body, MAX_BODY_SIZE)`: an empty body is
      left alone even when the limit is negative. */
  function TruncateBody(body: string, maxSize: int): (r: string)
    ensures body == "" ==> r == ""
    ensures body != "" ==> r == Truncate(body, maxSize)
  {
    if body != "" then Truncate(body, maxSize) else body
  }

  // ----- the capture policy -----

  const NetworkError: string := "Network Error"

  /** A response that counts as a failure: no status, an HTTP error, or the
      status text of a rejected `fetch`. */
  predicate Failed(status: int, statusText: string) {
    status == 0 || status >= 400 || statusText == NetworkError
  }

  /** `shouldCaptureRequest(requestData)`: every request when capturing all
      is on, otherwise the failures only. */
  function ShouldCapture(window: Option<Settings>, status: int, statusText: string): (r: bool)
    ensures On(PageSettings(window).captureAllNetworkRequests) ==> r
    ensures !On(PageSettings(window).captureAllNetworkRequests) ==> (r <==> Failed(status, statusText))
    ensures window.None? ==> (r <==> Failed(status, statusText))
  {
    On(PageSettings(window).captureAllNetworkRequests) || Failed(status, statusText)
  }

  /** `addNetworkRequest(requestData)` given the body limit in force: the
      static filter first, then the policy, then both bodies truncated;
      `Some` is the record dispatched to the extension. */
  function AddNetworkRequest(window: Option<Settings>, maxBody: int, parse: string -> Option<Url>,
                             rec: NetworkRecord): (r: Option<NetworkRecord>)
    ensures r.Some? <==> !ShouldIgnore(window, rec.url, parse) && ShouldCapture(window, rec.status, rec.statusText)
    ensures r.Some? ==> r.value.(requestBody := rec.requestBody, responseBody := rec.responseBody) == rec
    ensures r.Some? ==> r.value.requestBody == TruncateBody(rec.requestBody, maxBody)
    ensures r.Some? ==> r.value.responseBody == TruncateBody(rec.responseBody, maxBody)
  {
    if ShouldIgnore(window, rec.url, parse) then None
    else if !ShouldCapture(window, rec.status, rec.statusText) then None
    else Some(rec.(requestBody := TruncateBody(rec.requestBody, maxBody),
                   responseBody := TruncateBody(rec.responseBody, maxBody)))
  }

  /** The static filter comes first: an ignored request is dropped even
      when every request is to be captured. */
  lemma IgnoredBeforePolicy(window: Option<Settings>, maxBody: int, parse: string -> Option<Url>, rec: NetworkRecord)
    requires On(PageSettings(window).captureAllNetworkRequests)
    ensures AddNetworkRequest(window, maxBody, parse, rec).None? <==> ShouldIgnore(window, rec.url, parse)
  {
  }

  // ----- XHR response headers -----

  /** A header as stored: the lower-cased name and the value. */
  datatype Header = Header(name: string, value: string)

  const HeaderSep: string := ": "

  /** The text of `s` before its first `": "`, or all of it when there is none. */
  function UpToSeparator(s: string): (r: string)
    ensures !Contains(r, HeaderSep)
    ensures !Contains(s, HeaderSep) ==> r == s
    ensures Contains(s, HeaderSep) ==> |r| < |s| && OccursAt(s, HeaderSep, |r|) && r == s[..|r|]
  {
    match IndexOf(s, HeaderSep)
    case None => s
    case Some(j) =>
      PrefixBeforeFirstOccurrence(s, HeaderSep, j);
      s[..j]
  }

  /** One line of `getAllResponseHeaders()` as the code reads it:
      `const [name, value] = line.split(': ')`, kept when both are
      non-empty. The name is the text before the first `": "`, the value
      the text after it up to the next `": "`, so a value that itself
      holds `": "` is cut there and one that starts with it is lost. */
  function HeaderLine(line: string): (r: Option<Header>)
    ensures var at := IndexOf(line, HeaderSep);
      r.Some? <==> at.Some? && at.value > 0 && UpToSeparator(line[at.value + 2..]) != ""
    ensures var at := IndexOf(line, HeaderSep);
      r.Some? ==> at.Some? && r.value == Header(ToLower(line[..at.value]), UpToSeparator(line[at.value + 2..]))
    ensures r.Some? ==> r.value.name != "" && r.value.value != "" && ToLower(r.value.name) == r.value.name
    ensures r.Some? ==> !Contains(r.value.value, HeaderSep)
  {
    var parts := Split(line, HeaderSep);
    SplitFirstTwo(line);
    if parts[0] != "" && |parts| >= 2 && parts[1] != "" then
      ToLowerIdempotent(parts[0]);
      Some(Header(ToLower(parts[0]), parts[1]))
    else None
  }

  /** The first two pieces `split(': ')` gives, in terms of the first
      separator and the next one. */
  lemma SplitFirstTwo(line: string)
    ensures var parts := Split(line, HeaderSep);
      match IndexOf(line, HeaderSep)
      case None => parts == [line]
      case Some(i) =>
        && |parts| >= 2 && parts[0] == line[..i]
        && parts[1] == UpToSeparator(line[i + 2..])
  {
    match IndexOf(line, HeaderSep)
    case None =>
    case Some(i) =>
      var rest := line[i + 2..];
      match IndexOf(rest, HeaderSep)
      case None =>
      case Some(j) =>
  }

  /** One header line split at its first `": "` only: the name before it
      and the whole rest as the value, kept when both are non-empty. */
  function HeaderField(line: string): (r: Option<Header>)
    ensures r.Some? ==> r.value.name != "" && r.value.value != "" && ToLower(r.value.name) == r.value.name
  {
    match IndexOf(line, HeaderSep)
    case None => None
    case Some(i) =>
      if i > 0 && i + 2 < |line| then
        ToLowerIdempotent(line[..i]);
        Some(Header(ToLower(line[..i]), line[i + 2..]))
      else None
  }

  /** In `name: value` with a name free of `": "`, the first separator is
      the one after the name. */
  lemma FirstSeparator(name: string, value: string)
    requires !Contains(name, HeaderSep)
    ensures IndexOf(name + HeaderSep + value, HeaderSep) == Some(|name|)
  {
    var s := name + HeaderSep + value;
    assert s[|name|..|name| + 2] == HeaderSep;
    assert OccursAt(s, HeaderSep, |name|);
    forall j | 0 <= j < |name|
      ensures !OccursAt(s, HeaderSep, j)
    {
      if j + 2 <= |name| {
        assert s[j..j + 2] == name[j..j + 2];
        assert !OccursAt(name, HeaderSep, j);
        assert s[j..j + 2] != HeaderSep;
      } else {
        assert j + 1 == |name| && s[j + 1] == ':';
        assert s[j..j + 2][1] == ':' && HeaderSep[1] == ' ';
        assert s[j..j + 2] != HeaderSep;
      }
    }
  }

  /** The corrected split gives back exactly the name (lower-cased) and
      the value a `name: value` line was made from. */
  lemma HeaderFieldRoundTrip(name: string, value: string)
    requires name != "" && value != "" && !Contains(name, HeaderSep)
    ensures HeaderField(name + HeaderSep + value) == Some(Header(ToLower(name), value))
  {
    var s := name + HeaderSep + value;
    FirstSeparator(name, value);
    assert s[..|name|] == name && s[|name| + 2..] == value;
  }

  /** The split as written loses the part of a value after its own `": "`:
      for `x-note: a: b` it stores `a`, where the line means `a: b`. */
  lemma HeaderLineCutsValue(name: string, value: string)
    requires name != "" && !Contains(name, HeaderSep) && Contains(value, HeaderSep)
    ensures HeaderField(name + HeaderSep + value) == Some(Header(ToLower(name), value))
    ensures HeaderLine(name + HeaderSep + value) != HeaderField(name + HeaderSep + value)
  {
    var s := name + HeaderSep + value;
    HeaderFieldRoundTrip(name, value);
    FirstSeparator(name, value);
    assert s[..|name|] == name && s[|name| + 2..] == value;
    var parts := Split(s, HeaderSep);
    assert parts == [name] + Split(value, HeaderSep);
    var i := IndexOf(value, HeaderSep).value;
    assert Split(value, HeaderSep)[0] == value[..i];
    assert |value[..i]| < |value|;
  }

  /** Where no value holds `": "`, the line as written and the corrected
      split agree: `name: value` gives back the lower-cased name and the value. */
  lemma HeaderLineRoundTrip(name: string, value: string)
    requires name != "" && value != "" && !Contains(name, HeaderSep) && !Contains(value, HeaderSep)
    ensures HeaderLine(name + HeaderSep + value) == Some(Header(ToLower(name), value))
    ensures HeaderLine(name + HeaderSep + value) == HeaderField(name + HeaderSep + value)
  {
    var s := name + HeaderSep + value;
    HeaderFieldRoundTrip(name, value);
    FirstSeparator(name, value);
    assert s[..|name|] == name && s[|name| + 2..] == value;
  }

  /** The text after the first `": "` of `line`, if any, holds no other. */
  predicate Uncut(line: string) {
    IndexOf(line, HeaderSep).Some? ==> !Contains(line[IndexOf(line, HeaderSep).value + 2..], HeaderSep)
  }

  /** On a line that is not cut the two splits agree. */
  lemma HeaderLineAgreesUncut(line: string)
    requires Uncut(line)
    ensures HeaderLine(line) == HeaderField(line)
  {
  }

  /** The header each line gives under `split`, in order. */
  function FieldsOf(lines: seq<string>, split: string -> Option<Header>): (r: seq<Option<Header>>)
    ensures |r| == |lines|
    ensures forall i :: 0 <= i < |lines| ==> r[i] == split(lines[i])
  {
    seq(|lines|, i requires 0 <= i < |lines| => split(lines[i]))
  }

  /** `f` is a header named `k`. */
  predicate Gives(f: Option<Header>, k: string) {
    f.Some? && f.value.name == k
  }

  /** The `forEach` over the header lines, each kept header written into
      the map: the headers before the last first, then the last. */
  function AddHeaders(acc: Dict<string>, fields: seq<Option<Header>>): (r: Dict<string>)
    ensures Keyed(acc) ==> Keyed(r)
    decreases |fields|
  {
    if |fields| == 0 then acc
    else
      var before := AddHeaders(acc, fields[..|fields| - 1]);
      match fields[|fields| - 1]
      case None => before
      case Some(f) => Set(before, f.name, f.value)
  }

  /** The keys after the loop: the ones before it and every name a line gives. */
  lemma {:induction false} AddHeadersKeys(acc: Dict<string>, fields: seq<Option<Header>>, k: string)
    ensures k in KeySet(AddHeaders(acc, fields)) <==>
      k in KeySet(acc) || exists i :: 0 <= i < |fields| && Gives(fields[i], k)
    decreases |fields|
  {
    if |fields| > 0 {
      var init := fields[..|fields| - 1];
      AddHeadersKeys(acc, init, k);
      AddHeadersStepKeys(acc, fields, k);
      GivesSplit(fields, k);
    }
  }

  /** One turn of the loop adds the name of its line, if it gives one. */
  lemma AddHeadersStepKeys(acc: Dict<string>, fields: seq<Option<Header>>, k: string)
    requires |fields| > 0
    ensures k in KeySet(AddHeaders(acc, fields)) <==>
      k in KeySet(AddHeaders(acc, fields[..|fields| - 1])) || Gives(fields[|fields| - 1], k)
  {
  }

  /** Some line of `fields` gives `k`. */
  predicate SomeGives(fields: seq<Option<Header>>, k: string) {
    exists i :: 0 <= i < |fields| && Gives(fields[i], k)
  }

  /** Some line gives `k` exactly when one before the last does or the last does. */
  lemma GivesSplit(fields: seq<Option<Header>>, k: string)
    requires |fields| > 0
    ensures SomeGives(fields, k) <==> SomeGives(fields[..|fields| - 1], k) || Gives(fields[|fields| - 1], k)
  {
    var init := fields[..|fields| - 1];
    if exists i :: 0 <= i < |fields| && Gives(fields[i], k) {
      var i :| 0 <= i < |fields| && Gives(fields[i], k);
      if i < |init| {
        assert Gives(init[i], k);
      }
    }
    if exists i :: 0 <= i < |init| && Gives(init[i], k) {
      var i :| 0 <= i < |init| && Gives(init[i], k);
      assert Gives(fields[i], k);
    }
  }

  /** The last line naming a header decides its value. */
  lemma {:induction false} AddHeadersLast(acc: Dict<string>, fields: seq<Option<Header>>, i: nat)
    requires i < |fields| && fields[i].Some?
    requires forall j :: i < j < |fields| ==> !Gives(fields[j], fields[i].value.name)
    ensures Get(AddHeaders(acc, fields), fields[i].value.name) == Some(fields[i].value.value)
    decreases |fields|
  {
    if i < |fields| - 1 {
      var init := fields[..|fields| - 1];
      assert init[i] == fields[i];
      assert !Gives(fields[|fields| - 1], fields[i].value.name);
      AddHeadersLast(acc, init, i);
    }
  }

  /** The lines of `getAllResponseHeaders()` (`""` for none), split at CRLF. */
  function HeaderLines(raw: string): (r: seq<string>)
    ensures |r| >= 1
    ensures Join(r, "\r\n") == raw
  {
    JoinSplit(raw, "\r\n");
    Split(raw, "\r\n")
  }

  /** The header lines read with `split`, folded into a map: its keys are
      exactly the names the lines give. */
  lemma ParsedKeys(lines: seq<string>, split: string -> Option<Header>, k: string)
    ensures k in KeySet(AddHeaders([], FieldsOf(lines, split))) <==>
      exists i :: 0 <= i < |lines| && Gives(split(lines[i]), k)
  {
    var fields := FieldsOf(lines, split);
    AddHeadersKeys([], fields, k);
    if exists i :: 0 <= i < |fields| && Gives(fields[i], k) {
      var i :| 0 <= i < |fields| && Gives(fields[i], k);
      assert Gives(split(lines[i]), k);
    }
  }

  /** The response headers of a finished XHR as the code builds them, each
      line read by the split as written; the keys are exactly the names the
      lines give, each lower-case. */
  function ParseHeaders(raw: string): (r: Dict<string>)
    ensures Keyed(r)
    ensures forall k :: k in KeySet(r) <==>
      exists i :: 0 <= i < |HeaderLines(raw)| && Gives(HeaderLine(HeaderLines(raw)[i]), k)
  {
    forall k {
      ParsedKeys(HeaderLines(raw), HeaderLine, k);
    }
    AddHeaders([], FieldsOf(HeaderLines(raw), HeaderLine))
  }

  /** Every stored header comes from the last line that names it. */
  lemma ParseHeadersLast(raw: string, i: nat)
    requires i < |HeaderLines(raw)| && HeaderLine(HeaderLines(raw)[i]).Some?
    requires forall j :: i < j < |HeaderLines(raw)| ==>
      !Gives(HeaderLine(HeaderLines(raw)[j]), HeaderLine(HeaderLines(raw)[i]).value.name)
    ensures Get(ParseHeaders(raw), HeaderLine(HeaderLines(raw)[i]).value.name) ==
      Some(HeaderLine(HeaderLines(raw)[i]).value.value)
  {
    AddHeadersLast([], FieldsOf(HeaderLines(raw), HeaderLine), i);
  }

  /** The response headers as evidently intended: each line split at its
      first `": "` only, so every value is kept whole. */
  function ParseHeadersIntended(raw: string): (r: Dict<string>)
    ensures Keyed(r)
    ensures forall k :: k in KeySet(r) <==>
      exists i :: 0 <= i < |HeaderLines(raw)| && Gives(HeaderField(HeaderLines(raw)[i]), k)
  {
    forall k {
      ParsedKeys(HeaderLines(raw), HeaderField, k);
    }
    AddHeaders([], FieldsOf(HeaderLines(raw), HeaderField))
  }

  /** Under the intended parse, each header holds the whole value of the last
      line that names it. */
  lemma ParseHeadersIntendedLast(raw: string, i: nat)
    requires i < |HeaderLines(raw)| && HeaderField(HeaderLines(raw)[i]).Some?
    requires forall j :: i < j < |HeaderLines(raw)| ==>
      !Gives(HeaderField(HeaderLines(raw)[j]), HeaderField(HeaderLines(raw)[i]).value.name)
    ensures Get(ParseHeadersIntended(raw), HeaderField(HeaderLines(raw)[i]).value.name) ==
      Some(HeaderField(HeaderLines(raw)[i]).value.value)
  {
    AddHeadersLast([], FieldsOf(HeaderLines(raw), HeaderField), i);
  }

  /** The two parses give the same map when no line's value holds `": "`. */
  lemma ParsersAgree(raw: string)
    requires forall i :: 0 <= i < |HeaderLines(raw)| ==> Uncut(HeaderLines(raw)[i])
    ensures ParseHeaders(raw) == ParseHeadersIntended(raw)
  {
    var lines := HeaderLines(raw);
    forall i | 0 <= i < |lines|
      ensures HeaderLine(lines[i]) == HeaderField(lines[i])
    {
      HeaderLineAgreesUncut(lines[i]);
    }
    assert FieldsOf(lines, HeaderLine) == FieldsOf(lines, HeaderField);
  }

  /** The finding on a whole response: a single `name: value` line whose
      value holds `": "` is stored cut at it, where the intended parse
      stores the whole value. */
  lemma ParseHeadersCutsValue(name: string, value: string)
    requires name != "" && !Contains(name, HeaderSep) && Contains(value, HeaderSep)
    requires UpToSeparator(value) != ""
    requires !Contains(name + HeaderSep + value, "\r\n")
    ensures Get(ParseHeadersIntended(name + HeaderSep + value), ToLower(name)) == Some(value)
    ensures Get(ParseHeaders(name + HeaderSep + value), ToLower(name)) == Some(UpToSeparator(value))
    ensures UpToSeparator(value) != value
  {
    var raw := name + HeaderSep + value;
    assert HeaderLines(raw) == [raw];
    HeaderFieldRoundTrip(name, value);
    FirstSeparator(name, value);
    assert raw[..|name|] == name && raw[|name| + 2..] == value;
    assert HeaderLine(raw) == Some(Header(ToLower(name), UpToSeparator(value)));
    AddHeadersLast([], FieldsOf([raw], HeaderLine), 0);
    AddHeadersLast([], FieldsOf([raw], HeaderField), 0);
  }

  // ----- the records of finished requests -----

  /** What `open(method, url)` recorded. */
  datatype XhrOpen = XhrOpen(verb: string, url: string, startTime: int)

  /** One XHR as the wrapper sees it: the `open` call (if any), the
      `setRequestHeader` calls in order, the sent body (`None` when falsy,
      else `String(body)`), and at `loadend` the clock, the status, the raw
      response headers and `responseText` (`Err` when reading it throws). */
  datatype XhrExchange = XhrExchange(
    openCall: Option<XhrOpen>, headersSet: Dict<string>, body: Option<string>,
    endTime: int, status: int, statusText: string, rawHeaders: string,
    responseText: Result<string>)

  const NonText: string := "[Binary or Non-Text Response]"

  /** The record an XHR hands to `addNetworkRequest` at `loadend`. */
  function XhrRecord(id: string, x: XhrExchange): (r: NetworkRecord)
    ensures r.kind == "xhr" && r.status == x.status && r.statusText == x.statusText
    ensures x.openCall.Some? ==> r.verb == ToUpper(x.openCall.value.verb) && r.url == x.openCall.value.url
    ensures x.openCall.None? ==> r.verb == "GET" && r.url == "" && r.startTime == 0
    ensures r.responseTime == r.endTime - r.startTime && r.endTime == x.endTime
    ensures KeySet(r.requestHeaders) == KeySet(x.headersSet)
    ensures r.responseHeaders == ParseHeaders(x.rawHeaders)
    ensures r.requestBody == x.body.GetOr("")
    ensures x.responseText.Err? ==> r.responseBody == NonText
    ensures x.responseText.Ok? ==> r.responseBody == x.responseText.value
  {
    var verb := if x.openCall.Some? then ToUpper(x.openCall.value.verb) else "GET";
    var url := if x.openCall.Some? then x.openCall.value.url else "";
    var start := if x.openCall.Some? then x.openCall.value.startTime else 0;
    var responseBody := match x.responseText
      case Err(_) => NonText
      case Ok(text) => text;
    NetworkRecord(id, "xhr", url, verb, Merge([], x.headersSet), ParseHeaders(x.rawHeaders),
                  x.body.GetOr(""), responseBody, x.status, x.statusText, start, x.endTime, x.endTime - start)
  }

  /** A `fetch` body: a string, or anything else that is truthy. */
  datatype FetchBody = TextBody(text: string) | OtherBody

  /** How the original `fetch` settled: with a response (its status, its
      headers as `entries()` lists them, and what `text()` of the clone
      yields), or rejected with an error whose `message` may be missing. */
  datatype FetchReply =
    | Responded(status: int, statusText: string, headers: Dict<string>, text: Result<string>)
    | Rejected(message: Option<string>)

  /** One call `fetch(resource, options)`: the URL, `options.method`,
      `options.headers`, a truthy `options.body`, the clock readings and
      the settlement. */
  datatype FetchCall = FetchCall(
    url: string, verb: Option<string>, headers: Dict<string>, body: Option<FetchBody>,
    startTime: int, endTime: int, reply: FetchReply)

  const NonStringBody: string := "[Non-String Body]"
  const ReadError: string := "[Error Reading Response]"

  /** A content type whose body is read as text. */
  predicate Textual(contentType: string) {
    Contains(contentType, "application/json") || Contains(contentType, "text/") || Contains(contentType, "application/xml")
  }

  /** The response body recorded for a settled response. */
  function ResponseBody(headers: Dict<string>, text: Result<string>): (r: string)
    ensures !Textual(Get(headers, "content-type").GetOr("")) ==> r == NonText
    ensures Textual(Get(headers, "content-type").GetOr("")) && text.Ok? ==> r == text.value
    ensures Textual(Get(headers, "content-type").GetOr("")) && text.Err? ==> r == ReadError
  {
    if !Textual(Get(headers, "content-type").GetOr("")) then NonText
    else match text
      case Ok(t) => t
      case Err(_) => ReadError
  }

  /** The record a `fetch` hands to `addNetworkRequest`, on whichever
      branch settles it. */
  function FetchRecord(id: string, c: FetchCall): (r: NetworkRecord)
    ensures r.kind == "fetch" && r.url == c.url && r.verb == ToUpper(OrText(c.verb, "GET"))
    ensures KeySet(r.requestHeaders) == KeySet(c.headers)
    ensures Keyed(c.headers) ==> forall k :: Get(r.requestHeaders, k) == Get(c.headers, k)
    ensures c.body.None? ==> r.requestBody == ""
    ensures c.body == Some(OtherBody) ==> r.requestBody == NonStringBody
    ensures c.body.Some? && c.body.value.TextBody? ==> r.requestBody == c.body.value.text
    ensures r.startTime == c.startTime && r.endTime == c.endTime && r.responseTime == c.endTime - c.startTime
    ensures c.reply.Rejected? ==>
      && r.status == 0 && r.statusText == NetworkError && r.responseHeaders == []
      && r.responseBody == OrText(c.reply.message, NetworkError)
    ensures c.reply.Responded? ==>
      && r.status == c.reply.status && r.statusText == c.reply.statusText
      && KeySet(r.responseHeaders) == KeySet(c.reply.headers)
      && (Keyed(c.reply.headers) ==> forall k :: Get(r.responseHeaders, k) == Get(c.reply.headers, k))
      && r.responseBody == ResponseBody(Merge([], c.reply.headers), c.reply.text)
  {
    var requestBody := match c.body
      case None => ""
      case Some(TextBody(t)) => t
      case Some(OtherBody) => NonStringBody;
    SpreadCopies(c.headers);
    var base := NetworkRecord(id, "fetch", c.url, ToUpper(OrText(c.verb, "GET")), Merge([], c.headers), [],
                              requestBody, "", 0, "", c.startTime, 0, 0);
    var ended := base.(endTime := c.endTime, responseTime := c.endTime - c.startTime);
    match c.reply
    case Responded(status, statusText, headers, text) =>
      SpreadCopies(headers);
      var responseHeaders := Merge([], headers);
      ended.(status := status, statusText := statusText, responseHeaders := responseHeaders,
             responseBody := ResponseBody(responseHeaders, text))
    case Rejected(message) =>
      ended.(status := 0, statusText := NetworkError, responseBody := OrText(message, NetworkError))
  }

  /** What the wrapped `fetch` does: whether it resolves with the original
      response (otherwise it rethrows the original error) and the one
      record it offers the extension. */
  datatype FetchOutcome = FetchOutcome(resolves: bool, dispatched: Option<NetworkRecord>)

  function Fetch(window: Option<Settings>, maxBody: int, parse: string -> Option<Url>,
                 id: string, c: FetchCall): (r: FetchOutcome)
    ensures r.resolves <==> c.reply.Responded?
    ensures r.dispatched == AddNetworkRequest(window, maxBody, parse, FetchRecord(id, c))
  {
    FetchOutcome(c.reply.Responded?, AddNetworkRequest(window, maxBody, parse, FetchRecord(id, c)))
  }

  /** A rejected `fetch` of a non-static URL is always dispatched, as a
      network error, whatever the capture setting. */
  lemma RejectedFetchDispatched(window: Option<Settings>, maxBody: int, parse: string -> Option<Url>,
                                id: string, c: FetchCall)
    requires c.reply.Rejected? && !ShouldIgnore(window, c.url, parse)
    ensures !Fetch(window, maxBody, parse, id, c).resolves
    ensures Fetch(window, maxBody, parse, id, c).dispatched.Some?
    ensures Fetch(window, maxBody, parse, id, c).dispatched.value.status == 0
  {
  }

  /** Under the page defaults a successful request is never dispatched. */
  lemma DefaultsDropSuccess(maxBody: int, parse: string -> Option<Url>, rec: NetworkRecord)
    requires 0 < rec.status < 400 && rec.statusText != NetworkError
    ensures AddNetworkRequest(None, maxBody, parse, rec).None?
  {
  }
}

=== FILE: records.dfy ===
/** The records the extension passes around: parsed URLs, cookies, console
    entries, captured network requests, tabs, settings and the bug report
    snapshot itself.

    A JavaScript property that may be missing is an `Option`; `None` stands
    for an absent key (and for `null` where the code only tests
    truthiness). Known keys are record fields; any other key an object
    carries is kept, in insertion order, in its `extra` part. */
module Records {
  import opened Wrappers
  import opened Dict
  import Json
  import opened Text

  // ----- truthiness of optional fields -----

  /** `o` is a truthy string: present and not empty. */
  predicate Filled(o: Option<string>) {
    o.Some? && o.value != ""
  }

  /** `o || d` for an optional string. */
  function OrText(o: Option<string>, d: string): string {
    if Filled(o) then o.value else d
  }

  /** An optional flag is truthy exactly when it is present and `true`. */
  predicate On(o: Option<bool>) {
    o == Some(true)
  }

  /** `{...a, ...b}` for one property: `b`'s value wins when `b` has the key. */
  function Over<T>(a: Option<T>, b: Option<T>): Option<T> {
    if b.Some? then b else a
  }

  // ----- URLs -----

  /** The schemes whose origin is their scheme, host and port. */
  const TupleSchemes: set<string> := {"http:", "https:", "ws:", "wss:", "ftp:"}

  /** The components of a parsed URL as `new URL(s)` exposes them. */
  datatype Url = Url(protocol: string, hostname: string, port: string,
                     pathname: string, search: string, hash: string)
  {
    /** `url.host`: the host name and, when not the default, the port. */
    function Host(): string {
      hostname + (if port == "" then "" else ":" + port)
    }

    /** The special schemes of the URL standard, which always carry `//`. */
    predicate Special() {
      protocol in TupleSchemes || protocol == "file:"
    }

    /** `url.origin` as Chrome serializes it: scheme, host and port for the
        network schemes, `file://` for a file URL, and `null` for every
        other scheme (`data:`, `about:`, `javascript:`), whose origin is
        opaque. */
    function Origin(): (r: string)
      ensures !Special() ==> r == "null"
      ensures Special() ==> StartsWith(r, protocol + "//") && StartsWith(Href(), r)
    {
      if protocol in TupleSchemes then protocol + "//" + Host()
      else if protocol == "file:" then "file://"
      else "null"
    }

    /** `url.href` of a URL without credentials: the `//` and the host
        appear for a special scheme or a URL with a host. */
    function Href(): string {
      protocol + (if Special() || hostname != "" then "//" + Host() else "") + pathname + search + hash
    }
  }

  /** A URL with the scheme and host of `v`, whose origin is written out
      from them, has `v`'s origin followed by its own path, query and
      fragment as its `href`. */
  lemma HrefFromOrigin(u: Url, v: Url)
    requires v.Origin() == v.protocol + "//" + v.Host()
    requires u.protocol == v.protocol && u.hostname == v.hostname && u.port == v.port
    ensures u.Href() == v.Origin() + u.pathname + u.search + u.hash
  {
    assert v.Special() by {
      assert (v.protocol + "//" + v.Host())[|v.protocol|] == '/';
      assert forall i :: 0 <= i < |"null"| ==> "null"[i] != '/';
    }
  }

  /** The message `new URL` throws for an unparsable string, as Chrome words it. */
  const InvalidUrl: string := "Failed to construct 'URL': Invalid URL"

  /** `new URL(s)`, given the URL parser `parse` (`None` where it throws). */
  function ParseUrl(parse: string -> Option<Url>, s: Option<string>): (r: Result<Url>)
    ensures r.Ok? <==> s.Some? && parse(s.value).Some?
    ensures r.Ok? ==> r.value == parse(s.value).value
    ensures r.Err? ==> r.message == InvalidUrl
  {
    if s.Some? && parse(s.value).Some? then Ok(parse(s.value).value) else Err(InvalidUrl)
  }

  // ----- captured data -----

  datatype Cookie = Cookie(name: string, value: string, domain: string, path: string,
                           secure: Option<bool>, httpOnly: Option<bool>,
                           expirationDate: Option<int>)

  datatype LogEntry = LogEntry(level: string, timestamp: int, message: string)

  /** A captured request; `verb` is the HTTP method (`method` in the page). */
  datatype NetworkRecord = NetworkRecord(
    id: string, kind: string, url: string, verb: string,
    requestHeaders: Dict<string>, responseHeaders: Dict<string>,
    requestBody: string, responseBody: string,
    status: int, statusText: string,
    startTime: int, endTime: int, responseTime: int)

  /** The page metrics, or the empty object written when measuring failed. */
  datatype Viewport = Measured(width: int, height: int, scrollX: int, scrollY: int) | NoMetrics

  datatype Tab = Tab(id: int, url: Option<string>, title: Option<string>, windowId: int)

  /** A bug report: what collection produces and the store keeps. Timestamps
      are instants as integers. */
  datatype Snapshot = Snapshot(
    id: Option<string>, timestamp: Option<int>, title: Option<string>,
    description: Option<string>, url: Option<string>, userAgent: Option<string>,
    viewport: Option<Viewport>,
    localStorage: Option<Dict<string>>, sessionStorage: Option<Dict<string>>,
    cookies: Option<seq<Cookie>>, consoleLog: Option<seq<LogEntry>>,
    networkRequests: Option<seq<NetworkRecord>>,
    screenshot: Option<string>,
    extra: Dict<Json.Value>)

  const EmptySnapshot: Snapshot :=
    Snapshot(None, None, None, None, None, None, None, None, None, None, None, None, None, [])

  /** `{...base, ...top}` for snapshots: every key of `top` wins. */
  function OverlaySnapshot(base: Snapshot, top: Snapshot): Snapshot {
    Snapshot(
      Over(base.id, top.id), Over(base.timestamp, top.timestamp), Over(base.title, top.title),
      Over(base.description, top.description), Over(base.url, top.url),
      Over(base.userAgent, top.userAgent), Over(base.viewport, top.viewport),
      Over(base.localStorage, top.localStorage), Over(base.sessionStorage, top.sessionStorage),
      Over(base.cookies, top.cookies), Over(base.consoleLog, top.consoleLog),
      Over(base.networkRequests, top.networkRequests), Over(base.screenshot, top.screenshot),
      Merge(base.extra, top.extra))
  }

  // ----- settings -----

  datatype Settings = Settings(
    maxStoredReports: Option<int>, includeScreenshot: Option<bool>,
    includeNetworkRequests: Option<bool>, captureAllNetworkRequests: Option<bool>,
    maxConsoleLines: Option<int>, maxNetworkRequests: Option<int>,
    maxRequestBodySize: Option<int>, ignoreStaticResources: Option<bool>,
    localhostEndpoint: Option<string>,
    extra: Dict<Json.Value>)

  /** `{}` as settings. */
  const NoSettings: Settings := Settings(None, None, None, None, None, None, None, None, None, [])

  /** `{...base, ...top}` for settings: every key of `top` wins. */
  function OverlaySettings(base: Settings, top: Settings): Settings {
    Settings(
      Over(base.maxStoredReports, top.maxStoredReports),
      Over(base.includeScreenshot, top.includeScreenshot),
      Over(base.includeNetworkRequests, top.includeNetworkRequests),
      Over(base.captureAllNetworkRequests, top.captureAllNetworkRequests),
      Over(base.maxConsoleLines, top.maxConsoleLines),
      Over(base.maxNetworkRequests, top.maxNetworkRequests),
      Over(base.maxRequestBodySize, top.maxRequestBodySize),
      Over(base.ignoreStaticResources, top.ignoreStaticResources),
      Over(base.localhostEndpoint, top.localhostEndpoint),
      Merge(base.extra, top.extra))
  }

  /** A parsed JSON document that may hold a report: its `report` property,
      if any, and the document's own top-level properties read as a report. */
  datatype Document = Document(report: Option<Snapshot>, body: Snapshot)

  function IntValue(o: Option<int>): Option<Json.Value> {
    if o.Some? then Some(Json.Num(o.value)) else None
  }

  function BoolValue(o: Option<bool>): Option<Json.Value> {
    if o.Some? then Some(Json.Bool(o.value)) else None
  }

  function StrValue(o: Option<string>): Option<Json.Value> {
    if o.Some? then Some(Json.Str(o.value)) else None
  }

  /** `settings[k]`: the value stored under key `k`, if any. */
  function SettingsField(st: Settings, k: string): Option<Json.Value> {
    match k
    case "maxStoredReports" => IntValue(st.maxStoredReports)
    case "includeScreenshot" => BoolValue(st.includeScreenshot)
    case "includeNetworkRequests" => BoolValue(st.includeNetworkRequests)
    case "captureAllNetworkRequests" => BoolValue(st.captureAllNetworkRequests)
    case "maxConsoleLines" => IntValue(st.maxConsoleLines)
    case "maxNetworkRequests" => IntValue(st.maxNetworkRequests)
    case "maxRequestBodySize" => IntValue(st.maxRequestBodySize)
    case "ignoreStaticResources" => BoolValue(st.ignoreStaticResources)
    case "localhostEndpoint" => StrValue(st.localhostEndpoint)
    case _ => Get(st.extra, k)
  }

  /** `result` holds, under every key, `top`'s value when `top` has the key
      and `base`'s otherwise. */
  ghost predicate SpreadOf(result: Settings, base: Settings, top: Settings) {
    forall k :: SettingsField(result, k) ==
      (if SettingsField(top, k).Some? then SettingsField(top, k) else SettingsField(base, k))
  }

  /** The settings spread, key by key: a key `top` holds takes `top`'s
      value, every other key keeps `base`'s. */
  lemma OverlaySettingsField(base: Settings, top: Settings, k: string)
    requires Keyed(top.extra)
    ensures SettingsField(OverlaySettings(base, top), k) ==
      if SettingsField(top, k).Some? then SettingsField(top, k) else SettingsField(base, k)
  {
    var merged := OverlaySettings(base, top);
    assert merged.extra == Merge(base.extra, top.extra);
    match k
    case "maxStoredReports" =>
    case "includeScreenshot" =>
    case "includeNetworkRequests" =>
    case "captureAllNetworkRequests" =>
    case "maxConsoleLines" =>
    case "maxNetworkRequests" =>
    case "maxRequestBodySize" =>
    case "ignoreStaticResources" =>
    case "localhostEndpoint" =>
    case _ => MergeGet(base.extra, top.extra, k);
  }

  /** The thrown value of a failing step: its constructor and message. */
  datatype ErrorKind = TypeError | SyntaxError | PlainError
  datatype JsError = JsError(kind: ErrorKind, message: string)
}

=== FILE: storage_manager.dfy ===
/** The settings side of the background store: defaults, reading and
    merging settings, first-run initialisation and the fetch cache
    housekeeping. */
module StorageManager {
  import opened Wrappers
  import opened Dict
  import opened Records
  import opened Text
  import opened LocalStorage

  /** The defaults written on first run and read when nothing is stored. */
  const Defaults: Settings :=
    Settings(Some(50), Some(true), Some(true), Some(false), Some(100), Some(50), Some(10240), Some(true),
             Some("http://localhost:8080"), [])

  /** `getSettings()`: the stored record as it is, never merged with the
      defaults; the defaults only when nothing is stored. */
  function GetSettings(s: Persisted): (r: Settings)
    ensures s.settings.Some? ==> r == s.settings.value
    ensures s.settings.None? ==> r == Defaults && r.localhostEndpoint == Some("http://localhost:8080")
  {
    s.settings.GetOr(Defaults)
  }

  /** `updateSettings(newSettings)`: the stored record becomes
      `{...current, ...newSettings}` and is returned. */
  function UpdateSettings(s: Persisted, newSettings: Settings): (r: (Persisted, Settings))
    ensures r.0.settings == Some(r.1)
    ensures r.0.bugReports == s.bugReports && r.0.bugReportCache == s.bugReportCache
    ensures Keyed(newSettings.extra) ==> SpreadOf(r.1, GetSettings(s), newSettings)
  {
    var updated := OverlaySettings(GetSettings(s), newSettings);
    if Keyed(newSettings.extra) then
      assert SpreadOf(updated, GetSettings(s), newSettings) by {
        forall k {
          OverlaySettingsField(GetSettings(s), newSettings, k);
        }
      }
      (s.(settings := Some(updated)), updated)
    else
      (s.(settings := Some(updated)), updated)
  }

  /** `initializeStorage()`: each missing key is written with its default and
      every present key is left alone, so a second run changes nothing. */
  function InitializeStorage(s: Persisted): (r: Persisted)
    ensures s.bugReports.Some? ==> r.bugReports == s.bugReports
    ensures s.settings.Some? ==> r.settings == s.settings
    ensures s.bugReportCache.Some? ==> r.bugReportCache == s.bugReportCache
    ensures s.bugReports.None? ==> r.bugReports == Some([])
    ensures s.settings.None? ==> r.settings == Some(Defaults)
    ensures s.bugReportCache.None? ==> r.bugReportCache == Some([])
    ensures Valid(s) ==> Valid(r)
  {
    Persisted(
      if s.bugReports.None? then Some([]) else s.bugReports,
      if s.settings.None? then Some(Defaults) else s.settings,
      if s.bugReportCache.None? then Some([]) else s.bugReportCache)
  }

  /** Initialisation is idempotent. */
  lemma InitializeIdempotent(s: Persisted)
    ensures InitializeStorage(InitializeStorage(s)) == InitializeStorage(s)
  {
  }

  /** `clearCache()`: the cache becomes empty; nothing else is written. */
  function ClearCache(s: Persisted): (r: Persisted)
    ensures Cache(r) == [] && r.bugReportCache.Some?
    ensures r.bugReports == s.bugReports && r.settings == s.settings
    ensures Valid(s) ==> Valid(r)
  {
    s.(bugReportCache := Some([]))
  }

  datatype CacheInfo = CacheInfo(size: nat, totalSize: nat, keys: seq<string>)

  /** `getCacheInfo()`, given `JSON.stringify` of the cache as `render`;
      `totalSize` is that rendering's `length` in UTF-16 code units. */
  function GetCacheInfo(s: Persisted, render: Dict<CacheEntry> -> string): (r: CacheInfo)
    ensures r.size == |r.keys| == |Cache(s)|
    ensures forall k :: k in r.keys <==> k in KeySet(Cache(s))
    ensures forall i :: 0 <= i < |r.keys| ==> r.keys[i] == Cache(s)[i].key
    ensures r.totalSize == Utf16Length(render(Cache(s)))
    ensures |render(Cache(s))| <= r.totalSize <= 2 * |render(Cache(s))|
  {
    KeysOfMembers(Cache(s));
    CacheInfo(|Cache(s)|, Utf16Length(render(Cache(s))), KeysOf(Cache(s)))
  }
}

=== FILE: storage_utils.dfy ===
/** The pure helpers of `BugReporterUtils`: report and settings
    validation, redaction of sensitive data, the error-message format and
    the deep copy of JSON-like values. */
module StorageUtils {
  import opened Wrappers
  import opened Dict
  import opened Text
  import opened Records
  import Json
  import BugReportManager

  // ----- validation -----

  /** `validateBugReport(report)`: a report is present and its `id`,
      `timestamp`, `url` and `title` are all truthy. A timestamp, an ISO
      date string in the page, is truthy whenever present. */
  predicate ValidateBugReport(report: Option<Snapshot>) {
    && report.Some?
    && Filled(report.value.id)
    && report.value.timestamp.Some?
    && Filled(report.value.url)
    && Filled(report.value.title)
  }

  /** A report that `saveBugReport` builds from data with a URL validates,
      unless the caller supplied an empty `id` or `title`, which the spread
      keeps over the defaults. */
  lemma SavedReportValidates(data: Snapshot, newId: string, now: int, parse: string -> Option<Url>)
    requires BugReportManager.NewReport(data, newId, now, parse).Ok?
    requires newId != "" && Filled(data.url)
    ensures ValidateBugReport(Some(BugReportManager.NewReport(data, newId, now, parse).value)) <==>
      (data.id.None? || Filled(data.id)) && (data.title.None? || Filled(data.title))
  {
  }

  /** A report that `importBugReport` accepts and normalises validates. */
  lemma ImportedReportValidates(data: Snapshot, reportId: string, parse: string -> Option<Url>)
    requires BugReportManager.Normalize(data, reportId, parse).Ok?
    requires reportId != "" && Filled(data.url) && data.timestamp.Some?
    ensures ValidateBugReport(Some(BugReportManager.Normalize(data, reportId, parse).value))
  {
  }

  /** `Math.max(lo, Math.min(hi, x))`. */
  function Clamp(lo: int, hi: int, x: int): (r: int)
    requires lo <= hi
    ensures lo <= r <= hi
    ensures lo <= x <= hi ==> r == x
    ensures x < lo ==> r == lo
    ensures hi < x ==> r == hi
  {
    var m := if hi < x then hi else x;
    if m < lo then lo else m
  }

  /** The four defaults `validateSettings` starts from. */
  const ValidationDefaults: Settings :=
    NoSettings.(maxStoredReports := Some(50), includeScreenshot := Some(true),
                includeNetworkRequests := Some(false), maxConsoleLines := Some(100))

  /** `validateSettings(settings)`: `{...defaults, ...settings}` with the
      report limit clamped into [10, 100] and the console limit into
      [50, 500]; every other key is kept as supplied. */
  function ValidateSettings(settings: Settings): (r: Settings)
    ensures r.maxStoredReports == Some(Clamp(10, 100, settings.maxStoredReports.GetOr(50)))
    ensures r.maxConsoleLines == Some(Clamp(50, 500, settings.maxConsoleLines.GetOr(100)))
    ensures 10 <= r.maxStoredReports.value <= 100 && 50 <= r.maxConsoleLines.value <= 500
    ensures r.includeScreenshot == Some(settings.includeScreenshot.GetOr(true))
    ensures r.includeNetworkRequests == Some(settings.includeNetworkRequests.GetOr(false))
    ensures && r.captureAllNetworkRequests == settings.captureAllNetworkRequests
            && r.maxNetworkRequests == settings.maxNetworkRequests
            && r.maxRequestBodySize == settings.maxRequestBodySize
            && r.ignoreStaticResources == settings.ignoreStaticResources
            && r.localhostEndpoint == settings.localhostEndpoint
    ensures KeySet(r.extra) == KeySet(settings.extra) && Keyed(r.extra)
    ensures Keyed(settings.extra) ==> r.extra == settings.extra
  {
    var validated := OverlaySettings(ValidationDefaults, settings);
    if Keyed(settings.extra) then
      MergeFresh([], settings.extra);
      validated.(maxStoredReports := Some(Clamp(10, 100, validated.maxStoredReports.value)),
                 maxConsoleLines := Some(Clamp(50, 500, validated.maxConsoleLines.value)))
    else
      validated.(maxStoredReports := Some(Clamp(10, 100, validated.maxStoredReports.value)),
                 maxConsoleLines := Some(Clamp(50, 500, validated.maxConsoleLines.value)))
  }

  /** Validating validated settings changes nothing. */
  lemma ValidateSettingsIdempotent(settings: Settings)
    ensures ValidateSettings(ValidateSettings(settings)) == ValidateSettings(settings)
  {
    var once := ValidateSettings(settings);
    MergeFresh([], once.extra);
  }

  // ----- redaction -----

  const Redacted: string := "[REDACTED]"

  /** A cookie name that mentions a token, authentication or a session. */
  predicate SensitiveCookieName(name: string) {
    var n := ToLower(name);
    Contains(n, "token") || Contains(n, "auth") || Contains(n, "session")
  }

  /** A storage key that mentions a token, authentication, a password or a secret. */
  predicate SensitiveStorageKey(key: string) {
    var n := ToLower(key);
    Contains(n, "token") || Contains(n, "auth") || Contains(n, "password") || Contains(n, "secret")
  }

  /** The cookie list rebuilt with `{...cookie, value}`: new objects, the
      value replaced exactly for sensitive names. */
  function RedactCookies(cookies: seq<Cookie>): (r: seq<Cookie>)
    ensures |r| == |cookies|
    ensures forall i :: 0 <= i < |r| ==>
      && r[i].name == cookies[i].name && r[i].domain == cookies[i].domain
      && r[i].path == cookies[i].path && r[i].secure == cookies[i].secure
      && r[i].httpOnly == cookies[i].httpOnly && r[i].expirationDate == cookies[i].expirationDate
    ensures forall i :: 0 <= i < |r| ==>
      (r[i].value != cookies[i].value <==> SensitiveCookieName(cookies[i].name) && cookies[i].value != Redacted)
    ensures forall i :: 0 <= i < |r| && SensitiveCookieName(cookies[i].name) ==> r[i].value == Redacted
  {
    seq(|cookies|, i requires 0 <= i < |cookies| =>
      cookies[i].(value := if SensitiveCookieName(cookies[i].name) then Redacted else cookies[i].value))
  }

  /** `after` is `before` with the value of every sensitive key replaced. */
  ghost predicate RedactedView(before: Dict<string>, after: Dict<string>) {
    && KeySet(after) == KeySet(before)
    && forall k :: Get(after, k) == if SensitiveStorageKey(k) && k in KeySet(before) then Some(Redacted) else Get(before, k)
  }

  /** `ks.forEach(key => { if (sensitive(key)) d[key] = '[REDACTED]' })`. */
  function RedactEach(d: Dict<string>, ks: seq<string>): (r: Dict<string>)
    requires forall i :: 0 <= i < |ks| ==> ks[i] in KeySet(d)
    ensures KeySet(r) == KeySet(d)
    ensures forall k :: Get(r, k) == if SensitiveStorageKey(k) && k in ks then Some(Redacted) else Get(d, k)
    ensures Keyed(d) ==> Keyed(r)
    decreases |ks|
  {
    if |ks| == 0 then d
    else
      var d' := if SensitiveStorageKey(ks[0]) then Set(d, ks[0], Redacted) else d;
      assert forall i :: 0 <= i < |ks[1..]| ==> ks[1..][i] == ks[i + 1];
      var r := RedactEach(d', ks[1..]);
      assert forall k :: k in ks <==> k == ks[0] || k in ks[1..];
      r
  }

  /** One storage area redacted in place; every key is kept. */
  function RedactStorage(d: Dict<string>): (r: Dict<string>)
    ensures RedactedView(d, r)
    ensures Keyed(d) ==> Keyed(r)
  {
    KeysOfMembers(d);
    RedactEach(d, KeysOf(d))
  }

  function RedactArea(o: Option<Dict<string>>): Option<Dict<string>> {
    if o.Some? then Some(RedactStorage(o.value)) else None
  }

  /** `sanitizeData(data)`: the sanitized copy, and the input as it stands
      afterwards. The copy is shallow, so the storage areas it redacts are
      the input's own objects, while the cookies are rebuilt as new objects. */
  function SanitizeData(data: Snapshot): (r: (Snapshot, Snapshot))
    ensures r.1.(localStorage := data.localStorage, sessionStorage := data.sessionStorage) == data
    ensures r.0.(cookies := data.cookies) == r.1
    ensures r.1.localStorage.Some? <==> data.localStorage.Some?
    ensures r.1.sessionStorage.Some? <==> data.sessionStorage.Some?
    ensures data.localStorage.Some? ==> RedactedView(data.localStorage.value, r.1.localStorage.value)
    ensures data.sessionStorage.Some? ==> RedactedView(data.sessionStorage.value, r.1.sessionStorage.value)
    ensures r.0.cookies.Some? <==> data.cookies.Some?
    ensures data.cookies.Some? ==> r.0.cookies.value == RedactCookies(data.cookies.value)
  {
    var after := data.(localStorage := RedactArea(data.localStorage),
                       sessionStorage := RedactArea(data.sessionStorage));
    var copy := if data.cookies.Some? then after.(cookies := Some(RedactCookies(data.cookies.value))) else after;
    (copy, after)
  }

  // ----- error messages -----

  /** `handleError(error, context)`: the message tagged with the component
      and, when given, the context. */
  function HandleError(message: string, context: string): (r: string)
    ensures StartsWith(r, "[Bug Reporter") && EndsWith(r, "] " + message)
    ensures context == "" ==> r == "[Bug Reporter] " + message
    ensures context != "" ==> r == "[Bug Reporter - " + context + "] " + message
  {
    var tag := if context != "" then " - " + context else "";
    var r := "[Bug Reporter" + tag + "] " + message;
    assert r[..|"[Bug Reporter"|] == "[Bug Reporter";
    assert r[|r| - |"] " + message|..] == "] " + message;
    r
  }

  // ----- deep copy -----

  /** `deepClone(obj)`: primitives and null are returned as they are,
      arrays are copied element by element and objects key by key, so the
      copy is structurally equal to the original. */
  function DeepClone(v: Json.Value): (r: Json.Value)
    ensures r == v
    decreases v, 1
  {
    match v
    case Arr(items) => Json.Arr(CloneItems(v, items))
    case Obj(fields) => Json.Obj(CloneFields(v, fields))
    case _ => v
  }

  function CloneItems(parent: Json.Value, items: seq<Json.Value>): (r: seq<Json.Value>)
    requires forall i :: 0 <= i < |items| ==> items[i] < parent
    ensures r == items
    decreases parent, 0, |items|
  {
    if |items| == 0 then []
    else [DeepClone(items[0])] + CloneItems(parent, items[1..])
  }

  function CloneFields(parent: Json.Value, fields: Dict<Json.Value>): (r: Dict<Json.Value>)
    requires forall i :: 0 <= i < |fields| ==> fields[i].val < parent
    ensures r == fields
    decreases parent, 0, |fields|
  {
    if |fields| == 0 then []
    else [Entry(fields[0].key, DeepClone(fields[0].val))] + CloneFields(parent, fields[1..])
  }
}

=== FILE: text.dfy ===
/** String primitives used by the extension: the JavaScript
    `String.prototype` methods `toLowerCase`, `toUpperCase`, `startsWith`,
    `endsWith`, `includes`, `indexOf`, `split`, `replace(/c/g, …)`,
    `Array.prototype.join` and the decimal rendering of integers.
    Case mapping covers the ASCII letters only. */
module Text {
  import opened Wrappers

  function LowerChar(c: char): char {
    if 'A' <= c <= 'Z' then (c as int + 32) as char else c
  }

  function UpperChar(c: char): char {
    if 'a' <= c <= 'z' then (c as int - 32) as char else c
  }

  /** `s.toLowerCase()` restricted to ASCII letters. */
  function ToLower(s: string): (r: string)
    ensures |r| == |s|
    ensures forall i :: 0 <= i < |s| ==> r[i] == LowerChar(s[i])
  {
    seq(|s|, i requires 0 <= i < |s| => LowerChar(s[i]))
  }

  /** Lower-casing twice is lower-casing once. */
  lemma ToLowerIdempotent(s: string)
    ensures ToLower(ToLower(s)) == ToLower(s)
  {
  }

  /** Lower-casing changes letters only, so it creates no other character. */
  lemma ToLowerKeepsOthers(s: string, c: char)
    requires !('A' <= c <= 'Z') && !('a' <= c <= 'z')
    ensures c in ToLower(s) <==> c in s
  {
    if c in ToLower(s) {
      var i :| 0 <= i < |s| && ToLower(s)[i] == c;
      assert s[i] == c;
    }
    if c in s {
      var i :| 0 <= i < |s| && s[i] == c;
      assert ToLower(s)[i] == c;
    }
  }

  /** `s.toUpperCase()` restricted to ASCII letters. */
  function ToUpper(s: string): (r: string)
    ensures |r| == |s|
    ensures forall i :: 0 <= i < |s| ==> r[i] == UpperChar(s[i])
  {
    seq(|s|, i requires 0 <= i < |s| => UpperChar(s[i]))
  }

  predicate StartsWith(s: string, p: string) {
    |p| <= |s| && s[..|p|] == p
  }

  predicate EndsWith(s: string, p: string) {
    |p| <= |s| && s[|s| - |p|..] == p
  }

  /** `p` occurs in `s` at position `i`. */
  predicate OccursAt(s: string, p: string, i: int) {
    0 <= i && i + |p| <= |s| && s[i..i + |p|] == p
  }

  /** `s.includes(p)`. */
  predicate Contains(s: string, p: string) {
    exists i | 0 <= i <= |s| - |p| :: OccursAt(s, p, i)
  }

  /** `s.indexOf(p)`, with `None` for -1: the first position at which `p` occurs. */
  function IndexOf(s: string, p: string): (r: Option<nat>)
    ensures r.Some? ==> OccursAt(s, p, r.value)
    ensures r.Some? ==> forall j :: 0 <= j < r.value ==> !OccursAt(s, p, j)
    ensures r.None? <==> !Contains(s, p)
    decreases |s|
  {
    if |s| < |p| then
      None
    else if s[..|p|] == p then
      assert OccursAt(s, p, 0);
      Some(0)
    else
      assert !OccursAt(s, p, 0);
      var rest := IndexOf(s[1..], p);
      ShiftOccurrences(s, p);
      match rest
      case None =>
        assert forall j :: 0 <= j <= |s| - |p| ==> !OccursAt(s, p, j) by {
          forall j | 0 <= j <= |s| - |p|
            ensures !OccursAt(s, p, j)
          {
            if j > 0 {
              assert !OccursAt(s[1..], p, j - 1);
            }
          }
        }
        None
      case Some(k) =>
        assert forall j :: 0 <= j < k + 1 ==> !OccursAt(s, p, j) by {
          forall j | 0 <= j < k + 1
            ensures !OccursAt(s, p, j)
          {
            if j > 0 {
              assert !OccursAt(s[1..], p, j - 1);
            }
          }
        }
        Some(k + 1)
  }

  /** An occurrence in `s[1..]` is an occurrence in `s` one position later. */
  lemma ShiftOccurrences(s: string, p: string)
    requires |s| > 0
    ensures forall j :: 0 <= j ==> (OccursAt(s[1..], p, j) <==> OccursAt(s, p, j + 1))
  {
    forall j | 0 <= j
      ensures OccursAt(s[1..], p, j) <==> OccursAt(s, p, j + 1)
    {
      if 0 <= j && j + |p| <= |s| - 1 {
        assert s[1..][j..j + |p|] == s[j + 1..j + 1 + |p|];
      }
    }
  }

  /** `parts.join(sep)`. */
  function Join(parts: seq<string>, sep: string): string
    decreases |parts|
  {
    if |parts| == 0 then ""
    else if |parts| == 1 then parts[0]
    else parts[0] + sep + Join(parts[1..], sep)
  }

  /** `s.split(sep)` for a non-empty separator: the pieces between the
      left-to-right, non-overlapping occurrences of `sep`. */
  function Split(s: string, sep: string): (r: seq<string>)
    requires |sep| > 0
    ensures |r| >= 1
    ensures forall k :: 0 <= k < |r| ==> !Contains(r[k], sep)
    decreases |s|
  {
    match IndexOf(s, sep)
    case None => [s]
    case Some(i) =>
      PrefixBeforeFirstOccurrence(s, sep, i);
      [s[..i]] + Split(s[i + |sep|..], sep)
  }

  /** The text before the first occurrence of `p` does not contain `p`. */
  lemma PrefixBeforeFirstOccurrence(s: string, p: string, i: nat)
    requires |p| > 0
    requires i <= |s|
    requires forall j :: 0 <= j < i ==> !OccursAt(s, p, j)
    ensures !Contains(s[..i], p)
  {
    if Contains(s[..i], p) {
      var j :| 0 <= j <= i - |p| && OccursAt(s[..i], p, j);
      assert s[..i][j..j + |p|] == s[j..j + |p|];
      assert OccursAt(s, p, j);
    }
  }

  /** A pattern whose first character is absent does not occur. */
  lemma MissingFirstChar(s: string, p: string)
    requires |p| > 0 && p[0] !in s
    ensures !Contains(s, p)
  {
    forall i | 0 <= i <= |s| - |p|
      ensures !OccursAt(s, p, i)
    {
      assert s[i..i + |p|][0] == s[i];
    }
  }

  /** Splitting and joining back with the same separator restores the input. */
  lemma {:induction false} JoinSplit(s: string, sep: string)
    requires |sep| > 0
    ensures Join(Split(s, sep), sep) == s
    decreases |s|
  {
    match IndexOf(s, sep)
    case None =>
    case Some(i) =>
      var tail := s[i + |sep|..];
      var rest := Split(tail, sep);
      var parts := [s[..i]] + rest;
      assert Split(s, sep) == parts;
      JoinSplit(tail, sep);
      assert parts[0] == s[..i] && parts[1..] == rest && |parts| >= 2;
      assert Join(parts, sep) == s[..i] + sep + tail;
      assert s[i..i + |sep|] == sep;
      Reassemble(s, i, i + |sep|);
  }

  lemma Reassemble(s: string, i: nat, j: nat)
    requires i <= j <= |s|
    ensures s[..i] + s[i..j] + s[j..] == s
  {
  }

  /** Every occurrence of the character `c` in `s` replaced by `rep`
      (`s.replace(/c/g, rep)` for a one-character pattern). */
  function ReplaceChar(s: string, c: char, rep: string): (r: string)
    ensures c !in rep ==> c !in r
    ensures forall d :: d in r ==> d in s || d in rep
    decreases |s|
  {
    if |s| == 0 then ""
    else (if s[0] == c then rep else [s[0]]) + ReplaceChar(s[1..], c, rep)
  }

  function DigitChar(d: nat): char
    requires d < 10
  {
    "0123456789"[d]
  }

  /** The decimal rendering of a natural number. */
  function NatToString(n: nat): (r: string)
    ensures |r| >= 1
    ensures forall i :: 0 <= i < |r| ==> '0' <= r[i] <= '9'
  {
    if n < 10 then [DigitChar(n)] else NatToString(n / 10) + [DigitChar(n % 10)]
  }

  /** `String(n)` for an integer. */
  function IntToString(n: int): string {
    if n < 0 then "-" + NatToString(-n) else NatToString(n)
  }

  // ----- UTF-16 lengths -----

  /** The UTF-16 code units one character takes: two, a surrogate pair,
      outside the Basic Multilingual Plane, otherwise one. */
  function Units(c: char): nat {
    if c as int >= 0x1_0000 then 2 else 1
  }

  /** `s.length`: JavaScript counts UTF-16 code units, not characters. */
  function Utf16Length(s: string): (n: nat)
    ensures |s| <= n <= 2 * |s|
    decreases |s|
  {
    if |s| == 0 then 0 else Units(s[0]) + Utf16Length(s[1..])
  }

  /** Code units add up over concatenation. */
  lemma {:induction false} Utf16LengthAppend(a: string, b: string)
    ensures Utf16Length(a + b) == Utf16Length(a) + Utf16Length(b)
    decreases |a|
  {
    if |a| > 0 {
      assert (a + b)[1..] == a[1..] + b;
      Utf16LengthAppend(a[1..], b);
    } else {
      assert a + b == b;
    }
  }

  /** A string of Basic Multilingual Plane characters has one unit per
      character, so its `length` is its number of characters. */
  lemma {:induction false} BmpLength(s: string)
    requires forall i :: 0 <= i < |s| ==> Units(s[i]) == 1
    ensures Utf16Length(s) == |s|
    decreases |s|
  {
    if |s| > 0 {
      assert forall i :: 0 <= i < |s[1..]| ==> s[1..][i] == s[i + 1];
      BmpLength(s[1..]);
    }
  }

  /** A prefix has no more units than the whole string. */
  lemma PrefixUnitsAtMost(s: string, p: string)
    requires StartsWith(s, p)
    ensures Utf16Length(p) <= Utf16Length(s)
  {
    assert s == p + s[|p|..];
    Utf16LengthAppend(p, s[|p|..]);
  }

  /** A longer prefix has at least the units of the shorter one and of the
      character after it. */
  lemma PrefixUnits(s: string, i: nat, j: nat)
    requires i < j <= |s|
    ensures Utf16Length(s[..i]) + Units(s[i]) <= Utf16Length(s[..j])
  {
    assert s[..j] == s[..i] + [s[i]] + s[i + 1..j];
    Utf16LengthAppend(s[..i] + [s[i]], s[i + 1..j]);
    Utf16LengthAppend(s[..i], [s[i]]);
    assert [s[i]][1..] == [];
  }

  /** `p` is what `s.substring(0, n)` keeps, as far as a string of
      characters can hold it: the longest prefix of at most `n` code units.
      When unit `n` is the first half of a surrogate pair, JavaScript keeps
      that lone half; `p` stops before it. */
  predicate CutAt(s: string, p: string, n: nat) {
    && StartsWith(s, p)
    && Utf16Length(p) <= n
    && (|p| < |s| ==> Utf16Length(p) + Units(s[|p|]) > n)
  }

  /** Only one prefix fits the cut. */
  lemma CutAtUnique(s: string, p: string, q: string, n: nat)
    requires CutAt(s, p, n) && CutAt(s, q, n)
    ensures p == q
  {
    if |p| < |q| {
      PrefixUnits(s, |p|, |q|);
    } else if |q| < |p| {
      PrefixUnits(s, |q|, |p|);
    }
  }

  /** The cut of a string longer than `n` units has exactly `n` units,
      or `n - 1` when it stops before a surrogate pair. */
  lemma CutLosesAtMostOneUnit(s: string, p: string, n: nat)
    requires CutAt(s, p, n) && Utf16Length(s) > n
    ensures |p| < |s|
    ensures Utf16Length(p) == n || (Utf16Length(p) == n - 1 && Units(s[|p|]) == 2)
  {
    assert s[..|s|] == s;
  }

  /** For Basic Multilingual Plane text the cut is the first `n`
      characters, which is `substring(0, n)` exactly. */
  lemma BmpCut(s: string, n: nat)
    requires forall i :: 0 <= i < |s| ==> Units(s[i]) == 1
    requires n <= |s|
    ensures CutAt(s, s[..n], n)
  {
    assert forall i :: 0 <= i < n ==> s[..n][i] == s[i];
    BmpLength(s[..n]);
  }

  /** `s.substring(0, n)`: the prefix of `s` the cut keeps. */
  function UnitPrefix(s: string, n: nat): (p: string)
    ensures CutAt(s, p, n)
    decreases |s|
  {
    if |s| == 0 || Units(s[0]) > n then ""
    else
      var rest := UnitPrefix(s[1..], n - Units(s[0]));
      var p := [s[0]] + rest;
      assert p[1..] == rest;
      assert s == [s[0]] + s[1..];
      p
  }
}

=== FILE: utils.dfy ===
/** The popup's text helpers: HTML escaping and truncation for display. */
module Utils {
  import opened Wrappers
  import opened Text
  import opened Records

  /** `escapeHtml(unsafe)`: five global replacements, `&` first. */
  function EscapeHtml(s: string): (r: string)
    ensures '<' !in r && '>' !in r && '"' !in r && '\'' !in r
  {
    var amp := ReplaceChar(s, '&', "&amp;");
    var lt := ReplaceChar(amp, '<', "&lt;");
    var gt := ReplaceChar(lt, '>', "&gt;");
    var quot := ReplaceChar(gt, '"', "&quot;");
    ReplaceChar(quot, '\'', "&#039;")
  }

  /** The entities of `<`, `>`, `"` and `'`, in the order they are replaced. */
  const Entities: seq<string> := ["&lt;", "&gt;", "&quot;", "&#039;"]

  /** The characters replaced after `&`, in order. */
  const Later: string := "<>\"'"

  /** The replacements from the `k`-th of `<`, `>`, `"`, `'` on. */
  function Chain(k: nat, s: string): string
    requires k <= 4
    decreases 4 - k
  {
    if k == 4 then s else Chain(k + 1, ReplaceChar(s, Later[k], Entities[k]))
  }

  lemma ChainIsEscapeHtml(s: string)
    ensures EscapeHtml(s) == Chain(0, ReplaceChar(s, '&', "&amp;"))
  {
  }

  /** The entity a single character is written as. */
  function EscapeChar(c: char): string {
    match c
    case '&' => "&amp;"
    case '<' => "&lt;"
    case '>' => "&gt;"
    case '"' => "&quot;"
    case '\'' => "&#039;"
    case _ => [c]
  }

  /** Escaping character by character, the reference the chain is compared with. */
  function EscapeEach(s: string): string
    decreases |s|
  {
    if |s| == 0 then "" else EscapeChar(s[0]) + EscapeEach(s[1..])
  }

  lemma {:induction false} ReplaceAppend(a: string, b: string, c: char, rep: string)
    ensures ReplaceChar(a + b, c, rep) == ReplaceChar(a, c, rep) + ReplaceChar(b, c, rep)
    decreases |a|
  {
    if |a| > 0 {
      assert (a + b)[1..] == a[1..] + b;
      ReplaceAppend(a[1..], b, c, rep);
    } else {
      assert a + b == b;
    }
  }

  lemma {:induction false} ReplaceAbsent(s: string, c: char, rep: string)
    requires c !in s
    ensures ReplaceChar(s, c, rep) == s
    decreases |s|
  {
    if |s| > 0 {
      ReplaceAbsent(s[1..], c, rep);
      assert s == [s[0]] + s[1..];
    }
  }

  /** The chain distributes over concatenation. */
  lemma EscapeHtmlAppend(a: string, b: string)
    ensures EscapeHtml(a + b) == EscapeHtml(a) + EscapeHtml(b)
  {
    ReplaceAppend(a, b, '&', "&amp;");
    var a1, b1 := ReplaceChar(a, '&', "&amp;"), ReplaceChar(b, '&', "&amp;");
    ReplaceAppend(a1, b1, '<', "&lt;");
    var a2, b2 := ReplaceChar(a1, '<', "&lt;"), ReplaceChar(b1, '<', "&lt;");
    ReplaceAppend(a2, b2, '>', "&gt;");
    var a3, b3 := ReplaceChar(a2, '>', "&gt;"), ReplaceChar(b2, '>', "&gt;");
    ReplaceAppend(a3, b3, '"', "&quot;");
    var a4, b4 := ReplaceChar(a3, '"', "&quot;"), ReplaceChar(b3, '"', "&quot;");
    ReplaceAppend(a4, b4, '\'', "&#039;");
  }

  lemma ReplaceSingle(c: char, d: char, rep: string)
    ensures ReplaceChar([c], d, rep) == if c == d then rep else [c]
  {
    assert [c][1..] == "";
  }

  /** The replacements after the `k`-th leave `e` alone when it holds none
      of their characters. */
  lemma ChainFrom(k: nat, e: string)
    requires k <= 4
    requires forall i :: k <= i < 4 ==> Later[i] !in e
    ensures Chain(k, e) == e
    decreases 4 - k
  {
    if k < 4 {
      ReplaceAbsent(e, Later[k], Entities[k]);
      ChainFrom(k + 1, e);
    }
  }

  /** On one character the chain yields its entity: each entity holds none
      of the characters replaced after it, and its `&` was handled first. */
  lemma EscapeHtmlChar(c: char)
    ensures EscapeHtml([c]) == EscapeChar(c)
  {
    ChainIsEscapeHtml([c]);
    ReplaceSingle(c, '&', "&amp;");
    if c == '&' {
      ChainFrom(0, "&amp;");
    } else {
      ChainSingle(0, c);
    }
  }

  /** The tail of the chain on one character other than `&`. */
  lemma ChainSingle(k: nat, c: char)
    requires k <= 4 && c != '&'
    requires forall i :: 0 <= i < k ==> Later[i] != c
    ensures Chain(k, [c]) == EscapeChar(c)
    decreases 4 - k
  {
    assert Later[0] == '<' && Later[1] == '>' && Later[2] == '"' && Later[3] == '\'';
    if k < 4 {
      assert EscapeChar(Later[k]) == Entities[k];
      ReplaceSingle(c, Later[k], Entities[k]);
      if c == Later[k] {
        ChainFrom(k + 1, Entities[k]);
      } else {
        ChainSingle(k + 1, c);
      }
    }
  }

  /** Because `&` is replaced first, no entity is escaped twice: the chain
      equals escaping each character on its own (`<` becomes `&lt;`, not
      `&amp;lt;`). */
  lemma {:induction false} EscapeHtmlIsEscapeEach(s: string)
    ensures EscapeHtml(s) == EscapeEach(s)
    decreases |s|
  {
    if |s| == 0 {
      assert EscapeHtml(s) == "";
    } else {
      assert s == [s[0]] + s[1..];
      EscapeHtmlAppend([s[0]], s[1..]);
      EscapeHtmlChar(s[0]);
      EscapeHtmlIsEscapeEach(s[1..]);
    }
  }

  /** Decoding of the five entities; any other text is kept. */
  function Unescape(s: string): string
    decreases |s|
  {
    if |s| == 0 then ""
    else if s[0] != '&' then [s[0]] + Unescape(s[1..])
    else if StartsWith(s, "&amp;") then "&" + Unescape(s[5..])
    else if StartsWith(s, "&lt;") then "<" + Unescape(s[4..])
    else if StartsWith(s, "&gt;") then ">" + Unescape(s[4..])
    else if StartsWith(s, "&quot;") then "\"" + Unescape(s[6..])
    else if StartsWith(s, "&#039;") then "'" + Unescape(s[6..])
    else "&" + Unescape(s[1..])
  }

  lemma UnescapeStep(c: char, t: string)
    ensures Unescape(EscapeChar(c) + t) == [c] + Unescape(t)
  {
    var e := EscapeChar(c);
    var s := e + t;
    assert s[..|e|] == e && s[|e|..] == t;
    if c in "&<>\"'" {
      assert s[0] == '&' && s[1] == e[1];
    } else {
      assert s[0] == c && s[1..] == t;
    }
  }

  /** Escaping loses nothing: decoding the escaped text gives the input back. */
  lemma {:induction false} UnescapeEscapeHtml(s: string)
    ensures Unescape(EscapeHtml(s)) == s
    decreases |s|
  {
    EscapeHtmlIsEscapeEach(s);
    UnescapeEscapeEach(s);
  }

  lemma {:induction false} UnescapeEscapeEach(s: string)
    ensures Unescape(EscapeEach(s)) == s
    decreases |s|
  {
    if |s| > 0 {
      UnescapeStep(s[0], EscapeEach(s[1..]));
      UnescapeEscapeEach(s[1..]);
      assert s == [s[0]] + s[1..];
    }
  }

  /** `truncateText(text, maxLength)`: `''` for a missing or empty text,
      the text when its UTF-16 `length` fits, else its first `maxLength`
      code units and an ellipsis (`substring` treats a negative length
      as 0). */
  function TruncateText(text: Option<string>, maxLength: int): (r: string)
    ensures !Filled(text) ==> r == ""
    ensures Filled(text) && Utf16Length(text.value) <= maxLength ==> r == text.value
    ensures Filled(text) && Utf16Length(text.value) > maxLength ==>
      && EndsWith(r, "...")
      && CutAt(text.value, r[..|r| - 3], if maxLength < 0 then 0 else maxLength)
  {
    if !Filled(text) then ""
    else if Utf16Length(text.value) <= maxLength then text.value
    else
      var kept := UnitPrefix(text.value, if maxLength < 0 then 0 else maxLength);
      var r := kept + "...";
      assert r[..|kept|] == kept && r[|kept|..] == "...";
      r
  }

  /** A truncated text never runs past the limit by more than the
      ellipsis and is never longer than the input plus the ellipsis, both
      in code units. */
  lemma TruncateTextBound(text: Option<string>, maxLength: int)
    ensures var r := TruncateText(text, maxLength);
      || Utf16Length(r) <= (if maxLength < 0 then 0 else maxLength) + 3
      || r == text.value
    ensures Filled(text) ==> Utf16Length(TruncateText(text, maxLength)) <= Utf16Length(text.value) + 3
  {
    var r := TruncateText(text, maxLength);
    if Filled(text) && r != text.value {
      var kept := r[..|r| - 3];
      assert r == kept + "...";
      Utf16LengthAppend(kept, "...");
      BmpLength("...");
      PrefixUnitsAtMost(text.value, kept);
    }
  }

  /** Two characters outside the Basic Multilingual Plane are four code
      units, so a limit of 3 cuts them: the first is kept whole, and the
      cut stops before the second pair, where `substring` would keep its
      lone first half. */
  lemma TruncateKeepsWholePairs()
    ensures TruncateText(Some("\U{1F600}\U{1F600}"), 3) == "\U{1F600}..."
  {
    var s := "\U{1F600}\U{1F600}";
    assert Utf16Length(s) == 4 by {
      assert s[1..][1..] == [];
    }
    var r := TruncateText(Some(s), 3);
    assert Utf16Length(s[..1]) == 2 by {
      assert s[..1][1..] == [];
    }
    CutAtUnique(s, r[..|r| - 3], s[..1], 3);
    assert r == r[..|r| - 3] + "...";
  }
}

=== FILE: wrappers.dfy ===
/** Failure-carrying result types shared by every module of the model.
    `Option` stands for a JavaScript value that may be missing (`undefined`
    or `null`); `Result` stands for an operation that either returns a
    value or rejects/throws with an error message. */
module Wrappers {

  datatype Option<+T> = None | Some(value: T) {

    /** The carried value, or `default` when missing (JavaScript `x || d`
        for values that are always truthy when present). */
    function GetOr(default: T): T {
      match this
      case Some(v) => v
      case None => default
    }
  }

  datatype Result<+T> = Ok(value: T) | Err(message: string) {

    predicate IsFailure() {
      Err?
    }

    function PropagateFailure<U>(): Result<U>
      requires Err?
    {
      Err(message)
    }

    function Extract(): T
      requires Ok?
    {
      value
    }
  }
}
